=== FILE: README.md ===
# A verified model of the esp-clock-rs core

This project models, in Dafny, the logic at the heart of the esp-clock-rs desktop
and ESP32 clock. At its centre is the MIDI merger `merge_midi.py`, which
flattens a format-1 Standard MIDI File into a single-track format-0 file. It
proceeds in five steps:

- it finds the `MThd` header;
- it reads every `MTrk` chunk, following running status and the variable-length
  quantities;
- it keeps the first title and drops instrument names and end-of-track events;
- it sorts the events by `(time, scan number)`;
- it writes them back with running status, closes the track, and patches the
  body length into the header.

The model follows every branch of the parser and the writer. Python exceptions
become error values: `EndOfFile`, `BadHeaderLength`, `BadFormat`,
`BadTrackMarker`, `MissingRunningStatus`, `NegativeDelta` and `ShortWrite`. The
main results are:

- the variable-length quantity round trip;
- the sort is the unique ordered permutation of the gathered events;
- the `timestamp >= 0` assertion never fires;
- once the input parses, the merger fails only when the length overflows;
- reading the merger's own output track back gives the sorted events,
  renumbered.

Around the merger the project models the Rust core of the apps:

- pitch and guitar arithmetic of the tone library;
- the dot-matrix clock's glyph tables and digit-cache redraw;
- the two message schedulers: the app core's, with sequence numbers,
  callbacks and pending results, and the second app's, with topics;
- the display multiplexer, the display group and the pixel-buffer draw target;
- the storage facades (user alarms, music, system settings, boot count) and
  three storage nodes (JSON file, in-memory mock, NVS slots);
- the user-alarm node;
- the weather API validators, URLs and air-quality bands;
- the static file handler, the page routes, and the node protocol defaults.

Conventions:

- Bytes are the integers 0 to 255.
- A Rust panic is a `None` or error outcome.
- A storage backend is a map, plus the sets of keys whose reads or writes fail.
- A hash map's or hash set's iteration order is a parameter: `order` in the alarm
  node and the first scheduler, `walk` in the second scheduler.
- A callback in the first scheduler is an identifier, and its body, the
  context calls it makes when run with a reply, is the `callbacks` parameter.
- Serialisation is a `Codec` parameter, assumed lawful where a round trip
  needs it.

## Model

| member | source | states |
|---|---|---|
| Vlq.PrintBigIntSpec | slint-app/tools/merge_midi.py:51-56 | `PrintBigInt(n)` is a complete quantity: the last byte has the high bit clear, every earlier byte has it set, the first byte is never an empty 0x80 group, it is a single byte exactly when n < 128, and its 7-bit groups read most significant first give back n |
| Vlq.PrintBigInt | slint-app/tools/merge_midi.py:51-56 | the encoding is never empty and its last byte is `n & 0x7f` (so 0 is the single byte 0x00) |
| Vlq.PrintBigIntCanonical | slint-app/tools/merge_midi.py:51-56 | every complete quantity without a leading empty group is what `PrintBigInt` prints for its value, so the encoding is the minimal one |
| Vlq.LeadSpec | slint-app/tools/merge_midi.py:53-55 | the continuation bytes the loop prepends all have the high bit set, the first is not 0x80, and they carry the value `n >> 7` |
| Vlq.LeadCanonical | slint-app/tools/merge_midi.py:53-55 | a run of continuation bytes with a nonzero first group is the prefix printed for its value |
| Vlq.ScanStream | slint-app/tools/merge_midi.py:38-48 | reading from the stream alone: the only error is end of file, and on success at least one byte was used and the stream advanced by exactly the bytes used |
| Vlq.ScanStreamSpec | slint-app/tools/merge_midi.py:38-48 | the scan fails exactly when every remaining byte has the high bit set; otherwise the bytes used form a complete quantity and the result is its value accumulated most significant group first |
| Vlq.Scan | slint-app/tools/merge_midi.py:35-48 | the prefix bytes are consumed before the stream; the stream only advances by the bytes used beyond the prefix |
| Vlq.ScanSpec | slint-app/tools/merge_midi.py:35-48 | over the prefix followed by the stream, the scan fails exactly when no byte ends the quantity, and otherwise returns the value of the first complete quantity |
| Vlq.ScanBigInt | slint-app/tools/merge_midi.py:35-48 | the returned count starts at `-len(prefix)`, so count + prefix length is the number of bytes used, and the stream advances by the count alone |
| Vlq.ScanBigIntSpec | slint-app/tools/merge_midi.py:35-48 | `ScanBigInt(f, prefix)` fails exactly when prefix and stream hold no final byte, and otherwise returns the value of the complete quantity they start with |
| Vlq.VlqPrefixUnique | slint-app/tools/merge_midi.py:45-48 | two complete quantities at the start of the same bytes have the same length: the scan stops at the first byte with the high bit clear |
| Vlq.ScanPrintRoundTrip | slint-app/tools/merge_midi.py:35-56 | scanning `PrintBigInt(n)`, with any first k bytes already given as the prefix, returns n with a count of the remaining bytes and leaves the stream just after the quantity |
| Vlq.HornerSnoc | slint-app/tools/merge_midi.py:46 | appending a byte shifts the accumulated value by 7 bits and adds the byte's low 7 bits, as `(res << 7) \| (t & 0x7f)` |
| MidiStream.ReadOrEof | slint-app/tools/merge_midi.py:22-27 | succeeds exactly when `size` bytes remain, then returns exactly those bytes and advances by `size`; otherwise the error is end of file |
| MidiStream.ReadOrEofSplit | slint-app/tools/merge_midi.py:22-27 | two consecutive reads return the same bytes, and leave the same position, as one read of the combined size |
| MidiStream.ReadUntil | slint-app/tools/merge_midi.py:7-19 | an empty marker returns at once; an error means end of file with no occurrence of the marker at or after the position; success leaves the stream just after the first occurrence |
| MidiStream.MatchAtFirstByte | slint-app/tools/merge_midi.py:15-18 | an occurrence is a first-byte hit followed by the rest of the marker, the test the loop performs before it seeks back |
| MidiStream.WriteAll | slint-app/tools/merge_midi.py:30-32 | succeeds exactly when the whole buffer was accepted, appending it to the output; a short write is `ShortWrite` |
| MidiStream.U32Bytes | slint-app/tools/merge_midi.py:73 | `struct.pack('>L', n)` is four bytes whose big-endian value is n |
| MidiStream.U16Bytes | slint-app/tools/merge_midi.py:134 | `struct.pack('>H', n)` is two bytes whose big-endian value is n |
| MidiTrack.ReadStatus | slint-app/tools/merge_midi.py:85-97 | a byte with the high bit set becomes the status and the next byte its first parameter; a byte with the high bit clear is the first parameter under the previous status, which is kept; the error `MissingRunningStatus` arises only when there is no previous status; the length counter advances with the stream |
| MidiTrack.ReadHead | slint-app/tools/merge_midi.py:78-97 | the delta time never makes the time go backwards, at least two bytes are consumed, and the status and first parameter are either read explicitly or carried over by running status |
| MidiTrack.ReadMeta | slint-app/tools/merge_midi.py:98-107 | a meta event's parameters are its type byte followed by the minimal re-encoding of its data length |
| MidiTrack.ReadSysex | slint-app/tools/merge_midi.py:113-121 | the length of a system event is scanned starting from its first parameter byte, and its stored parameters become the minimal encoding of the data length |
| MidiTrack.ReadChannel | slint-app/tools/merge_midi.py:123-128 | a 0xC?/0xD? message keeps its one parameter byte; any other reads exactly one more byte and fails only at end of file; a channel message has no data |
| MidiTrack.ReadBody | slint-app/tools/merge_midi.py:98-129 | each status kind produces an event of the shape the writer expects, and meta and channel events keep their first parameter byte |
| MidiTrack.MetaVerdict | slint-app/tools/merge_midi.py:108-112 | an event is kept exactly when it is the first title, or a meta of a type other than title, instrument name and end of track; the title flag is set once a title is seen |
| MidiTrack.Gather | slint-app/tools/merge_midi.py:82-130 | the scan number always advances and `max_time` tracks the largest time, dropped events included; the event is appended exactly when the filter keeps it |
| MidiTrack.ParseEvent | slint-app/tools/merge_midi.py:77-130 | one event: the stream and the length counter advance together, running status is always set afterwards, and a kept event is appended with the current scan number and time |
| MidiTrack.ParseTrackBody | slint-app/tools/merge_midi.py:77-130 | the event loop consumes exactly the declared chunk length, and the gathered events only grow |
| MidiTrack.TrackChunk | slint-app/tools/merge_midi.py:71-76 | a chunk not tagged `MTrk` is `BadTrackMarker`; on success the stream ends just after the declared length |
| MidiTrack.ParseTracks | slint-app/tools/merge_midi.py:70 | the track loop keeps the events gathered so far as a prefix and preserves the parser invariant |
| MidiTrack.CheckHeader | slint-app/tools/merge_midi.py:62-65 | the header length must be 6 (`BadHeaderLength` otherwise) and the format 1 (`BadFormat` otherwise); the track count and division are the big-endian fields |
| MidiTrack.ParseHeader | slint-app/tools/merge_midi.py:61-65 | a file without `MThd` is end of file; otherwise the header is checked right after the first occurrence of the tag |
| MidiTrack.ParseInput | slint-app/tools/merge_midi.py:59-131 | the parse fails with the header's error when the header is bad, and otherwise carries the header's division |
| MidiTrack.GatherInv | slint-app/tools/merge_midi.py:108-112 | the filter keeps the parser invariant: kept events are well shaped, scan numbers strictly increase and stay below `last_no`, times stay within `max_time`, and there is at most one title, present exactly when `have_title` is set |
| MidiTrack.ParseEventInv | slint-app/tools/merge_midi.py:77-130 | one parsed event preserves the parser invariant |
| MidiTrack.ParseTrackBodyInv | slint-app/tools/merge_midi.py:77-130 | a whole track body preserves the parser invariant |
| MidiTrack.TrackChunkInv | slint-app/tools/merge_midi.py:70-130 | a track chunk preserves the parser invariant |
| MidiTrack.ParseInputInv | slint-app/tools/merge_midi.py:59-131 | every successful parse of a file ends in a state satisfying the parser invariant |
| MidiMerge.Insert | slint-app/tools/merge_midi.py:132 | inserting into an ordered list gives an ordered permutation of the list plus the event |
| MidiMerge.SortEvents | slint-app/tools/merge_midi.py:132 | `events.sort()` gives a list ordered by (time, scan number) with exactly the same events |
| MidiMerge.SortedUnique | slint-app/tools/merge_midi.py:132 | two ordered permutations of a list with distinct scan numbers are equal |
| MidiMerge.GatheredDistinct | slint-app/tools/merge_midi.py:67 | the parsed events have distinct scan numbers |
| MidiMerge.SortIsTupleSort | slint-app/tools/merge_midi.py:130-132 | any ordered permutation of the parsed events is the sorted list, so equal-time events keep file order |
| MidiMerge.EncodeEvents | slint-app/tools/merge_midi.py:136-148 | the write loop succeeds exactly when the times never go backwards, and fails otherwise with `NegativeDelta`; it ends at the last event's time and status |
| MidiMerge.SortedMonotone | slint-app/tools/merge_midi.py:139-141 | an ordered list never goes back in time from 0, so the `timestamp >= 0` assert always holds |
| MidiMerge.EndOfTrack | slint-app/tools/merge_midi.py:152 | the closing event is the delta's encoding followed by FF 2F 00 |
| MidiMerge.HeaderBytes | slint-app/tools/merge_midi.py:134 | the 22 header bytes are `MThd`, length 6, format 0, one track, the division, then `MTrk` and the body length |
| MidiMerge.Patch | slint-app/tools/merge_midi.py:155-156 | `seek` then `write` overwrites exactly the patched range and leaves every other byte unchanged |
| MidiMerge.PatchLength | slint-app/tools/merge_midi.py:134-156 | patching the body length over the zero placeholder at offset 18 gives the header for that length |
| MidiMerge.WriteTrack | slint-app/tools/merge_midi.py:135-154 | a written body always ends with the end-of-track bytes FF 2F 00 |
| MidiMerge.Frame | slint-app/tools/merge_midi.py:134-156 | the output is the header carrying the body length, then the body, exactly when that length fits in 32 bits |
| MidiMerge.Merge | slint-app/tools/merge_midi.py:59-157 | a parse error is the merger's error; a success is the header carrying the length of the written body, followed by that body |
| MidiMerge.EndReachesMaxTime | slint-app/tools/merge_midi.py:149-151 | the write loop succeeds, and the clamped closing delta brings the track exactly to `max_time` |
| MidiMerge.MergeFailsOnlyOnLength | slint-app/tools/merge_midi.py:136-156 | once the input parses, the only way the merger can fail is a body longer than 32 bits can count |
| MidiMerge.FormatZeroRejected | slint-app/tools/merge_midi.py:63-65 | any file that starts with a format-0 header is rejected at the format check |
| MidiMerge.MergeRejectsOwnOutput | slint-app/tools/merge_midi.py:63-134 | the merger's output announces format 0, so feeding it back in is `BadFormat` |
| MidiMerge.AtMostOnce | slint-app/tools/merge_midi.py:66-132 | with distinct scan numbers no event occurs twice |
| MidiMerge.DistinctPermutation | slint-app/tools/merge_midi.py:132 | sorting keeps the scan numbers distinct |
| MidiRoundTrip.Renumber | slint-app/tools/merge_midi.py:130 | renumbering keeps the length of the list |
| MidiRoundTrip.RenumberAt | slint-app/tools/merge_midi.py:130 | the i-th renumbered event is the i-th event with scan number start + i |
| MidiRoundTrip.EventBytesSplit | slint-app/tools/merge_midi.py:142-145 | an event is written as its delta, the status unless running status omits it, the first parameter byte, then the remaining parameters and data |
| MidiRoundTrip.ReparseEvent | slint-app/tools/merge_midi.py:77-145 | the reader parses one written event back to that event under the next scan number, ending just after its bytes |
| MidiRoundTrip.WriteTrackRoundTrip | slint-app/tools/merge_midi.py:132-154 | reading the written body back as a track gives the sorted events, numbered from 0, and consumes the whole body |
| MidiRoundTrip.MergeRoundTrip | slint-app/tools/merge_midi.py:59-157 | reading the merger's output track chunk gives back the sorted events of the input, numbered from 0, and ends exactly at the end of the output |
| MidiRoundTrip.MergeShape | slint-app/tools/merge_midi.py:134-156 | the output is 22 header bytes, with `MTrk` at offset 14 and the body length at offset 18, followed by the written body |
| Pitch.SolfegeIndex | libs/embedded-tone/src/note.rs:37-41 | the index of a solfege name is below 12, and converting it back gives the name |
| Pitch.SolfegeFrom | libs/embedded-tone/src/note.rs:17-35 | `SolfegeName::from` accepts exactly 0..=11 and panics otherwise |
| Pitch.NoteIndex | libs/embedded-tone/src/note.rs:79-83 | the index of a note name is below 12, and converting it back gives the name |
| Pitch.NoteFrom | libs/embedded-tone/src/note.rs:59-77 | `NoteName::from` accepts exactly 0..=11 and panics otherwise |
| Pitch.OctaveIndex | libs/embedded-tone/src/note.rs:86-99 | the index of an octave is at most 10, and converting it back gives the octave |
| Pitch.OctaveFrom | libs/embedded-tone/src/note.rs:100-117 | `Octave::from` accepts exactly 0..=10 and panics otherwise |
| Pitch.IndexRoundTrips | libs/embedded-tone/src/note.rs:17-117 | on the accepted range, converting a number to a name and back gives the number |
| Pitch.Key | libs/embedded-tone/src/note.rs:216-220 | the MIDI key is at most 131, its octave is key / 12 and its note is key % 12 |
| Pitch.FromKey | libs/embedded-tone/src/note.rs:222-229 | `from_midi_note_key` accepts exactly the keys 0..=131 and returns a pitch with that key |
| Pitch.KeyRoundTrip | libs/embedded-tone/src/note.rs:216-229 | a pitch's key converts back to the same pitch |
| Pitch.KeyInjective | libs/embedded-tone/src/note.rs:216-220 | two pitches have the same key exactly when they are equal |
| Pitch.Compare | libs/embedded-tone/src/note.rs:180-184 | pitches compare by their MIDI keys |
| Pitch.CompareTotalOrder | libs/embedded-tone/src/note.rs:180-184 | the comparison is Equal exactly on equal pitches, antisymmetric and transitive |
| Pitch.AddAsWritten | libs/embedded-tone/src/note.rs:191-198 | as written, a result's note is the note of the sum, (key + h) mod 12, whatever the octave cast to `u8` has made of the octave |
| Pitch.AddWrapsOctave | libs/embedded-tone/src/note.rs:193-197 | C0 plus 3072 half tones gives C0, and C0 minus 2952 gives C10, where the corrected `add` panics |
| Pitch.Add | libs/embedded-tone/src/note.rs:191-198 | the corrected `add(h)` succeeds exactly when key + h is in 0..=131, and then gives the pitch with key + h |
| Pitch.AddAgrees | libs/embedded-tone/src/note.rs:191-198 | the written and the corrected `add` agree whenever key + h lies strictly between -2952 and 3072, where the `u8` cast of the octave cannot wrap back into range |
| Pitch.ToAbsolute | libs/embedded-tone/src/note.rs:247-251 | `to_absulate(base)` gives the pitch whose key is the base key plus octave * 12 + solfege, and panics past key 131 |
| Pitch.ToAbsoluteAsWritten | libs/embedded-tone/src/note.rs:247-251 | `to_absulate` is `add` of octave * 12 + solfege as written |
| Pitch.LengthLadder | libs/embedded-tone/src/note.rs:152-172 | each plain duration is half of the next longer one, and each dotted duration is one and a half times its plain one |
| Pitch.Length | libs/embedded-tone/src/note.rs:152-172 | every named duration is positive and at most 1.5 whole notes |
| Guitar.StringIndex | libs/embedded-tone/src/guitar.rs:41-62 | string S(n) is at index n - 1 of the tuning table |
| Guitar.StringFrom | libs/embedded-tone/src/guitar.rs:50-62 | `GuitarString::from` accepts exactly 1..=6 and panics otherwise |
| Guitar.StringRoundTrip | libs/embedded-tone/src/guitar.rs:50-62 | string number n is the table index n - 1 |
| Guitar.FretPitch | libs/embedded-tone/src/guitar.rs:14-18 | a fretted pitch has key base + fret, and panics past key 131 |
| Guitar.FretIsShift | libs/embedded-tone/src/guitar.rs:14-18 | fretting is `add` of the fret number |
| Guitar.Default | libs/embedded-tone/src/guitar.rs:64-80 | no capo, and a first string of E (key 52) with the standard intervals down to a low E two octaves below |
| Guitar.SetCapoFret | libs/embedded-tone/src/guitar.rs:83-89 | `get_capo_fret` returns the fret just set, and the tuning is unchanged |
| Guitar.GetCapoFret | libs/embedded-tone/src/guitar.rs:87-89 | the capo's fret is how many semitones every open string sounds above its tuning |
| Guitar.ToAbsoluteNote | libs/embedded-tone/src/guitar.rs:27-99 | the note's key is the string's base key plus fret plus capo, the duration is unchanged, and it panics past key 131 |
| Guitar.CapoIsFret | libs/embedded-tone/src/guitar.rs:83-99 | raising the capo one fret plays the same note as fretting one higher |
| Guitar.ToAbsoluteNoteAsWritten | libs/embedded-tone/src/guitar.rs:27-32 | the capo shift through the written `add` gives the same note |
| ClockGlyphs.BitsAt | slint-app/src/app/clock.rs:19 | dot j of a 7-dot row is bit 6 - j of its byte |
| ClockGlyphs.BitsRoundTrip | slint-app/src/app/clock.rs:19 | a row of a byte below 2^n, read back most significant dot first, is that byte |
| ClockGlyphs.TableBelow128 | slint-app/src/app/clock.rs:1-12 | every glyph table byte is below 128 |
| ClockGlyphs.DigitShape | slint-app/src/app/clock.rs:14-23 | a digit below 10 gives its 10 x 7 grid, with cell [i][j] set exactly when bit 6 - j of table row i is set; any other digit panics on the table index |
| ClockGlyphs.GlyphRowsReencode | slint-app/src/app/clock.rs:1-23 | each glyph row read back gives its table byte again |
| ClockGlyphs.ColonShape | slint-app/src/app/clock.rs:25-33 | the colon is a 10 x 4 grid set exactly at rows 2, 3, 6, 7 and columns 1, 2 |
| ClockGlyphs.ColonShapeSquares | slint-app/src/app/clock.rs:187-196 | the colon is two 2 x 2 squares: eight dots, symmetric left to right |
| ClockGlyphs.Digits | slint-app/src/app/clock.rs:337-339 | six digits below 10 whose pairs spell the hour, minute and second |
| ClockGlyphs.Tick | slint-app/src/app/clock.rs:385-416 | the first tick clears the screen and draws all six digits; later ticks repaint only changed positions; the cache then holds the current digits |
| ClockGlyphs.FirstDraw | slint-app/src/app/clock.rs:385-400 | the first tick clears the screen and then draws the six digits in order |
| ClockGlyphs.Repaint | slint-app/src/app/clock.rs:401-415 | the later tick's loop leaves the cache equal to the current digits and repaints position by position |
| ClockGlyphs.RedrawChanged | slint-app/src/app/clock.rs:402-415 | a digit is drawn at position k exactly when its cached digit changed, and it is drawn with the new digit |
| ClockGlyphs.RedrawSame | slint-app/src/clock.rs:448-465 | a tick with no changed digit draws nothing |
| Graphics.MapColor | libs/embedded-graphics-mux/src/lib.rs:61-118 | converting colours (`c.into()`) keeps every point an operation names |
| GraphicsMux.New | libs/embedded-graphics-mux/src/lib.rs:133-142 | a new multiplexer has no displays and active index -1 |
| GraphicsMux.AddDisplay | libs/embedded-graphics-mux/src/lib.rs:23-35 | a new display gets the next id, is inactive, has the physical size, is appended, and keeps at most one display active; the physical size and the active index are unchanged |
| GraphicsMux.SwitchTo | libs/embedded-graphics-mux/src/lib.rs:152-173 | switching succeeds exactly for an index in range, which becomes the only active display; the number of displays and the physical size are unchanged |
| GraphicsMux.SwitchToSame | libs/embedded-graphics-mux/src/lib.rs:159-171 | switching to the active display changes nothing |
| GraphicsMux.Draw | libs/embedded-graphics-mux/src/lib.rs:61-118 | an inactive display draws nothing; an active one forwards the operation with its coordinates unchanged |
| GraphicsMux.OnlyActiveDraws | libs/embedded-graphics-mux/src/lib.rs:61-118 | a display reaches the physical display exactly when it is the one at the active index |
| GraphicsGroup.New | libs/embedded-graphics-group/src/lib.rs:146-155 | a new group has no displays and active index -1 |
| GraphicsGroup.AddDisplay | libs/embedded-graphics-group/src/lib.rs:27-39 | a new display gets the next id, is inactive, keeps its area, is appended, and keeps at most one display active; the physical size and the active index are unchanged |
| GraphicsGroup.SwitchTo | libs/embedded-graphics-group/src/lib.rs:165-181 | switching succeeds exactly for an index in range, which becomes the only active display; the areas and the physical size are unchanged |
| GraphicsGroup.Translate | libs/embedded-graphics-group/src/lib.rs:67-129 | pixels and rectangle corners move by the area's top-left corner, sizes and colours stay, and a clear is passed on untranslated |
| GraphicsGroup.TranslateInverse | libs/embedded-graphics-group/src/lib.rs:67-116 | translating back by the opposite offset restores the operation |
| GraphicsGroup.Draw | libs/embedded-graphics-group/src/lib.rs:67-129 | an inactive display draws nothing; an active one forwards the operation moved by its area's origin |
| GraphicsGroup.OnlyActiveDraws | libs/embedded-graphics-group/src/lib.rs:67-129 | a display reaches the physical display exactly when it is the one at the active index |
| ImageBuffer.SizeOf | libs/embedded-graphics-slint-image-buf/src/lib.rs:15-20 | the size's area, width x height, is a third of the buffer's bytes: three bytes per pixel |
| ImageBuffer.IndexInRange | libs/embedded-graphics-slint-image-buf/src/lib.rs:36 | an in-bounds pixel's index `y * width + x` lies inside the image |
| ImageBuffer.Put | libs/embedded-graphics-slint-image-buf/src/lib.rs:36-41 | a pixel writes its red, green and blue to bytes 3i, 3i+1 and 3i+2 and changes no other byte |
| ImageBuffer.DrawIter | libs/embedded-graphics-slint-image-buf/src/lib.rs:27-44 | drawing panics exactly when some pixel's index `y * width + x` overflows 32 bits or falls outside the byte buffer; otherwise every byte ends up as the component of the last pixel drawn at its position, or keeps its value when no pixel is |
| ImageBuffer.InBoundsWritable | libs/embedded-graphics-slint-image-buf/src/lib.rs:36-41 | in an image of at most 2^31 pixels, a pixel inside the image is always written without a panic |
| ImageBuffer.RowWrap | libs/embedded-graphics-slint-image-buf/src/lib.rs:36-41 | the bounds are not checked: in a 2x2 image the pixel (2, 0) is written, at the same index as (0, 1), while (0, 2) and (-1, 0) panic |
| ImageBuffer.RowWrapOverwrites | libs/embedded-graphics-slint-image-buf/src/lib.rs:27-44 | a pixel past the row's end overwrites the first pixel of the next row |
| ImageBuffer.LastWriteWins | libs/embedded-graphics-slint-image-buf/src/lib.rs:34-43 | of two pixels at the same position, the later one remains |
| ImageBuffer.Untouched | libs/embedded-graphics-slint-image-buf/src/lib.rs:31-43 | positions no pixel names keep their bytes |
| AppScheduler.Inc | app/app-core/src/scheduler.rs:34 | `fetch_add(1)` on the 32-bit counter wraps to 0 |
| AppScheduler.Boardcast | app/app-core/src/scheduler.rs:33-46 | the counter is incremented, and one broadcast item from this node, with the new counter as its sequence number and no callback, is appended |
| AppScheduler.AsyncCall | app/app-core/src/scheduler.rs:49-62 | the counter is incremented, and one point item to the node, with the new counter and the callback, is appended |
| AppScheduler.AsyncReady | app/app-core/src/scheduler.rs:86-88 | the result is recorded under its sequence number, and nothing else changes |
| AppScheduler.Run | app/app-core/src/scheduler.rs:31-88 | a handler's context calls, `sync_call`s included, only ever append to the queue and keep the handler's name; they fail only on a `sync_call` to an unregistered node or nested past the bound, so a handler without `sync_call` never fails |
| AppScheduler.Apply | app/app-core/src/scheduler.rs:31-88 | every call but `async_ready` moves the handler's own count on by one, and only a `sync_call` can fail |
| AppScheduler.RunSeqs | app/app-core/src/scheduler.rs:33-62 | a handler without `sync_call` never fails, and its posts carry consecutive sequence numbers from its context's counter + 1, all from that context's node |
| AppScheduler.RunCounter | app/app-core/src/scheduler.rs:33-84 | a handler's own count moves on by one per `boardcast`, `async_call` and `sync_call`, however many messages the `sync_call` targets posted |
| AppScheduler.SyncRepeatsNumber | app/app-core/src/scheduler.rs:33-84 | a node that posts, `sync_call`s a node that posts, and posts again queues three messages numbered 1, 3 and 3, all in its own name: the target counts on from the caller's count, and so does the caller afterwards |
| AppScheduler.RunPostsAsCaller | app/app-core/src/scheduler.rs:31-84 | everything a handler's calls queue, through nested `sync_call`s too, is sent in the handler's name |
| AppScheduler.SeqNumbersRepeat | app/app-core/src/scheduler.rs:106-196 | each context starts from a copy of the scheduler counter, which stays 0, so two nodes' first posts both carry sequence number 1 |
| AppScheduler.SyncCall | app/app-core/src/scheduler.rs:65-84 | a call to a registered node runs its handler at once, in the caller's name, under the incremented counter, and returns its result; the caller's count ends at the incremented counter; an unregistered node panics |
| AppScheduler.SyncCallPostsAsCaller | app/app-core/src/scheduler.rs:65-84 | whatever the called handler posts, through nested calls too, is posted under the caller's name |
| AppScheduler.New | app/app-core/src/scheduler.rs:106-124 | a new scheduler's current queue is exactly one Init broadcast from the scheduler with sequence 0, and everything else is empty |
| AppScheduler.RegisterNode | app/app-core/src/scheduler.rs:126-130 | registering a name adds or replaces that node and changes nothing else |
| AppScheduler.DispatchBroadcast | app/app-core/src/scheduler.rs:148-180 | a broadcast panics when some node answers Pending, or Finish while the item holds a callback, and otherwise only through a failing `sync_call`; without `sync_call` it panics exactly in the first two cases; on success no callback runs and the queue only grows |
| AppScheduler.DispatchPoint | app/app-core/src/scheduler.rs:182-231 | a point message to an unregistered node panics; to a registered node it can fail only through a failing `sync_call`, made by the handler or by the callback its reply runs, and never when neither makes one |
| AppScheduler.DispatchPointOutcome | app/app-core/src/scheduler.rs:208-229 | Finish runs the item's callback, if it has one, once with the reply: its context calls follow the handler's, in the context of the node that made the `async_call`; Pending takes any ready result out of the table and re-queues the same item, pending exactly when no result was ready; Discard does neither; everything queued after the handler's own posts goes out in the sender's name |
| AppScheduler.CallbackCanPanic | app/app-core/src/scheduler.rs:208-213 | a handler that makes no `sync_call` can still panic the round through the callback its reply runs, as the boot page's callback does with its `sync_call` to the router (app/app-core/src/node/page/boot.rs:65-71) |
| AppScheduler.Dispatch | app/app-core/src/scheduler.rs:148-231 | a point message to an unknown node panics, and one to a known node panics only when its handler or callback makes a `sync_call`; a broadcast that some node refuses panics; the queue only grows |
| AppScheduler.Drain | app/app-core/src/scheduler.rs:134-233 | a round of point messages to known nodes never panics when neither the handlers nor the callbacks their replies run make a `sync_call` |
| AppScheduler.ScheduleOnce | app/app-core/src/scheduler.rs:132-236 | after a round the back buffer is empty, and the nodes and counter are unchanged |
| AppScheduler.DrainKeepsQueue | app/app-core/src/scheduler.rs:134-233 | draining only appends to the back buffer and never loses a callback already run |
| AppScheduler.DrainInvokesAtMostOncePerItem | app/app-core/src/scheduler.rs:148-231 | a round runs at most one callback per drained item |
| AppScheduler.ScheduleOnceKeeps | app/app-core/src/scheduler.rs:132-236 | after the swap the new current queue starts with what was already queued behind, and at most one callback ran per item |
| AppV2Scheduler.Send | slint-app-v2/src/scheduler.rs:25-76 | each send method appends one item from this app, with the callback fields the method names |
| AppV2Scheduler.SubscribeTopic | slint-app-v2/src/scheduler.rs:36-42 | the app joins the topic's set, which is created if absent; other topics are unchanged |
| AppV2Scheduler.UnsubscribeTopic | slint-app-v2/src/scheduler.rs:44-51 | the app leaves the topic's set if it exists, and no entry is ever created |
| AppV2Scheduler.SubscribeIdempotent | slint-app-v2/src/scheduler.rs:36-51 | subscribing twice is subscribing once, and unsubscribing afterwards takes the app out of the topic's set |
| AppV2Scheduler.Apply | slint-app-v2/src/scheduler.rs:25-76 | a send queues exactly one message and leaves the subscriptions alone; a subscription change queues nothing; the app's name is kept |
| AppV2Scheduler.Run | slint-app-v2/src/scheduler.rs:25-76 | a handler's context calls only ever append to the queue |
| AppV2Scheduler.RunKeepsSubs | slint-app-v2/src/scheduler.rs:25-76 | a handler that makes no subscription call leaves the subscriptions alone |
| AppV2Scheduler.New | slint-app-v2/src/scheduler.rs:93-106 | a new scheduler's current queue is one Init broadcast from the scheduler with no callbacks, and nothing else is set |
| AppV2Scheduler.RegisterApp | slint-app-v2/src/scheduler.rs:108-110 | registering a name adds or replaces that app and changes nothing else |
| AppV2Scheduler.Deliver | slint-app-v2/src/scheduler.rs:124-191 | exactly the registered names among those tried handle the message, in order, and the queue only grows |
| AppV2Scheduler.Recipients | slint-app-v2/src/scheduler.rs:123-191 | a broadcast goes to every registered app once, a message to an app to that name alone, and a topic message to each subscriber once, or to nobody when the topic has no set |
| AppV2Scheduler.Dispatch | slint-app-v2/src/scheduler.rs:123-191 | the apps that handle a message are exactly the registered recipients, in order; only a topic message can panic; the queue only grows |
| AppV2Scheduler.CallbacksCount | slint-app-v2/src/scheduler.rs:136-141 | `callback_once` runs once if any app handled the message, and `callback` once per app |
| AppV2Scheduler.RegisteredAll | slint-app-v2/src/scheduler.rs:124-143 | when every name tried is registered, every one handles the message |
| AppV2Scheduler.BroadcastReachesAll | slint-app-v2/src/scheduler.rs:124-143 | for any walk of the app map that lists each app once, a broadcast never fails, and is handled by every registered app exactly once |
| AppV2Scheduler.RegisteredWithin | slint-app-v2/src/scheduler.rs:144-189 | every app that handled a message is registered and was among the names tried |
| AppV2Scheduler.TopicReachesSubscribers | slint-app-v2/src/scheduler.rs:164-191 | for any walk of the topic's set that lists each subscriber once, a topic message reaches only registered subscribers of that topic |
| AppV2Scheduler.UnknownAppSkipped | slint-app-v2/src/scheduler.rs:144-163 | a message to an unregistered app is silently skipped, and no callback runs |
| AppV2Scheduler.Drain | slint-app-v2/src/scheduler.rs:114-193 | draining only appends to the back buffer |
| AppV2Scheduler.ScheduleOnce | slint-app-v2/src/scheduler.rs:112-196 | after a round the back buffer is empty, the apps are unchanged, and the new current queue starts with what was queued behind |
| AppV2Scheduler.DrainWithoutTopics | slint-app-v2/src/scheduler.rs:114-163 | a round that delivers no topic message cannot panic |
| AppV2Scheduler.NeverBorrowed | slint-app-v2/src/scheduler.rs:124-163 | delivery while no topic set is borrowed never fails, whatever the names tried |
| StorageFacade.ListOf | app/proto/src/storage/useralarm.rs:13-20 | a stored list is the decoded string, and empty when the value is missing, not a string, or malformed |
| StorageFacade.WithoutMembers | app/proto/src/storage/useralarm.rs:32-36 | filtering out x keeps exactly the other members |
| StorageFacade.WithoutAbsent | app/proto/src/storage/music.rs:43-47 | filtering out an absent element changes nothing |
| StorageFacade.CountAppend | app/proto/src/storage/music.rs:43-49 | occurrences in a concatenation add up |
| StorageFacade.CountAbsent | app/proto/src/storage/music.rs:43-49 | an absent element occurs zero times |
| UserAlarmStorage.KeysDistinct | app/proto/src/storage/useralarm.rs:22-58 | the list key and the record keys never collide, and different ids have different keys |
| UserAlarmStorage.UpdateIdList | app/proto/src/storage/useralarm.rs:6-11 | writing the list fails exactly when the write fails, touches no other key, and the list reads back as written |
| UserAlarmStorage.GetIdList | app/proto/src/storage/useralarm.rs:13-20 | the id list fails exactly when the read fails, and is otherwise the decoded list or empty |
| UserAlarmStorage.GetAlarm | app/proto/src/storage/useralarm.rs:22-27 | the record is read from its own key; a read error is an error, and a value that is not a decodable string panics |
| UserAlarmStorage.MaxId | app/proto/src/storage/useralarm.rs:47 | the largest id is at least every id in the list, and 0 for an empty list |
| UserAlarmStorage.Add | app/proto/src/storage/useralarm.rs:44-59 | the new id is the largest listed id + 1, at least 1 and not yet listed; an error before any write leaves the store unchanged |
| UserAlarmStorage.AddThenRead | app/proto/src/storage/useralarm.rs:44-59 | after an add the id list gains the new id at its end, and the record reads back as the body added |
| UserAlarmStorage.Delete | app/proto/src/storage/useralarm.rs:29-42 | the record is read first, so a failed read changes nothing, and the record read is returned; on success the record is gone and no key but the id list and that record changes |
| UserAlarmStorage.DeleteThenRead | app/proto/src/storage/useralarm.rs:29-42 | after a delete the id list is the old list without that id, others in order, and the record is gone |
| MusicStorage.KeysDistinct | app/proto/src/storage/music.rs:14-49 | a file's data key never collides with the list key |
| MusicStorage.GetList | app/proto/src/storage/music.rs:14-21 | the list panics on a read error, and is otherwise the decoded list or empty |
| MusicStorage.GetData | app/proto/src/storage/music.rs:23-32 | the data is the stored bytes, and panics on a read error, a missing value, or a value that is not bytes |
| MusicStorage.Upload | app/proto/src/storage/music.rs:34-49 | an upload panics exactly when the data write, the list read or the list write fails |
| MusicStorage.UploadThenRead | app/proto/src/storage/music.rs:34-49 | after an upload the data reads back, and the file name occurs exactly once, at the end of the list, with the other names in order |
| MusicStorage.ReuploadKeepsLength | app/proto/src/storage/music.rs:43-49 | uploading a name already listed keeps the list length |
| MusicStorage.CountZero | app/proto/src/storage/music.rs:43-49 | a name that occurs zero times is not in the list |
| SystemStorage.GetMonitorEnable | app/proto/src/storage/system.rs:6-14 | monitoring is on exactly when the key holds the string "1"; a missing or other value or a read error is off |
| SystemStorage.SetMonitorEnable | app/proto/src/storage/system.rs:16-23 | the flag is stored as "1" or "0", and a write error panics |
| SystemStorage.MonitorRoundTrip | app/proto/src/storage/system.rs:6-23 | the flag set is the flag read |
| Text.NatText | app/proto/src/storage/useralarm.rs:23 | an id is written in decimal digits |
| Text.NatTextInjective | app/proto/src/storage/useralarm.rs:23 | different ids have different decimal texts |
| StorageProto.AsStr | app/proto/src/message/storage.rs:21-28 | `as_str(e)` is the text of a string value, and the given error for any other value |
| StorageProto.IntoString | app/proto/src/message/storage.rs:30-37 | `String::from` succeeds exactly on a string value |
| StorageProto.IntoBytes | app/proto/src/message/storage.rs:39-46 | `Bytes::from` succeeds exactly on a bytes value |
| StorageProto.FromString | app/proto/src/message/storage.rs:48-52 | a string becomes a string value that reads back as the same string |
| StorageProto.StringRoundTrip | app/proto/src/message/storage.rs:30-52 | a string stored as a value reads back as the same string |
| StorageClient.Get | app/proto/src/ipc/storage.rs:21-31 | a get fails exactly when the read fails, and otherwise answers the stored value, `None` for a missing key |
| StorageClient.Set | app/proto/src/ipc/storage.rs:10-20 | a set fails exactly when the write fails; otherwise a `None` value deletes the key, any other value is stored, and the other keys stay present or absent as before |
| StorageClient.SetThenGet | app/proto/src/ipc/storage.rs:10-31 | a set key reads back what was set, and other keys read as before |
| BootStorage.BigEndian | slint-app/src/storage.rs:10-17 | a `u32` is stored as four bytes |
| BootStorage.BigEndianRoundTrip | slint-app/src/storage.rs:10-31 | the four bytes written, read back big-endian, give the value |
| BootStorage.FromBigEndianRoundTrip | slint-app/src/storage.rs:10-31 | every four bytes are the encoding of exactly one value |
| BootStorage.SetU32 | slint-app/src/storage.rs:10-17 | the four big-endian bytes are stored under the name, failing as the raw write fails |
| BootStorage.GetU32 | slint-app/src/storage.rs:23-35 | a read error is an error, an absent name is `None`, and a value shorter than four bytes panics on the index |
| BootStorage.SetThenGetU32 | slint-app/src/storage.rs:10-35 | a value set reads back, and other names read as before |
| BootStorage.GetBootCount | slint-app/src/storage/system.rs:10-15 | the boot count is 0 when absent, and panics on a read error or a short value |
| BootStorage.SetBootCount | slint-app/src/storage/system.rs:20-23 | the count is stored as four bytes, and a write error panics |
| BootStorage.BootCountRoundTrip | slint-app/src/storage/system.rs:10-23 | the boot count set is the boot count read |
| JsonStorage.PriorityAboveDefault | app/desktop-impl/src/json_storage.rs:29-31 | the JSON storage node is scheduled ahead of nodes with the default priority |
| JsonStorage.KeysWithPrefix | app/desktop-impl/src/json_storage.rs:61-66 | exactly the keys that start with the prefix |
| JsonStorage.Handle | app/desktop-impl/src/json_storage.rs:36-70 | get answers the value or `None`; set with `None` removes the key and otherwise stores it, other keys unchanged; list answers the keys with the prefix; other storage messages panic and other messages are discarded |
| JsonStorage.SetThenGet | app/desktop-impl/src/json_storage.rs:44-54 | a get after a set answers what was set, `None` after a delete |
| MockStorage.Handle | app/app-core/src/node/service/storage.rs:22-48 | get answers `Some` value or `None`; set with `None` removes and otherwise stores, other keys unchanged; list answers every key; other storage messages panic and other messages are discarded |
| MockStorage.SetThenGet | app/app-core/src/node/service/storage.rs:31-39 | a get after a set answers what was set |
| NvsStorage.GetRawStr | app/esp32c3-impl/src/node/storage.rs:59-70 | a string slot reads as its text, and anything else as absent |
| NvsStorage.GetRawBlob | app/esp32c3-impl/src/node/storage.rs:48-57 | a blob slot reads as its bytes, and anything else as absent |
| NvsStorage.Get | app/esp32c3-impl/src/node/storage.rs:84-106 | a key not in the index, or recorded as `None`, reads as `None`; a string or bytes value comes only from a key recorded with that type |
| NvsStorage.MaxSlot | app/esp32c3-impl/src/node/storage.rs:108-110 | the largest slot in use bounds every slot in the index, and is a `u16` |
| NvsStorage.GenNextIdx | app/esp32c3-impl/src/node/storage.rs:108-110 | with overflow checks on, a next slot exists exactly when the largest slot in use is below 65535, and the `u16` addition panics otherwise; the slot is then above every slot in use, and never 0 |
| NvsStorage.GenNextIdxWrapping | app/esp32c3-impl/src/node/storage.rs:108-110 | without overflow checks the `u16` addition wraps: the slot is the checked one when that exists, and otherwise slot 0, where the index itself is stored |
| NvsStorage.WrapReachesMetaSlot | app/esp32c3-impl/src/node/storage.rs:108-115 | a single key in slot 65535 makes the checked build panic and the wrapping build give the next key slot 0 |
| NvsStorage.SetIndex | app/esp32c3-impl/src/node/storage.rs:112-116 | a known key keeps its entry; a new key gets a fresh slot above all others and the type of its first value |
| NvsStorage.WriteSlot | app/esp32c3-impl/src/node/storage.rs:118-122 | a string or blob is written to its slot, `None` erases it, and every other slot is unchanged |
| NvsStorage.Set | app/esp32c3-impl/src/node/storage.rs:112-125 | a set updates the index as above and stores the index in the metadata slot 0 |
| NvsStorage.SetKeepsValid | app/esp32c3-impl/src/node/storage.rs:108-125 | a set keeps slot 0 reserved and the slots of different keys distinct |
| NvsStorage.List | app/esp32c3-impl/src/node/storage.rs:127-135 | exactly the indexed keys that start with the prefix |
| NvsStorage.SetThenGet | app/esp32c3-impl/src/node/storage.rs:84-125 | a value set under a key whose recorded type is its own reads back |
| NvsStorage.SetKeepsOthers | app/esp32c3-impl/src/node/storage.rs:84-125 | a set leaves every other key reading as before |
| NvsStorage.TypeNeverUpdated | app/esp32c3-impl/src/node/storage.rs:117-122 | a key first set to a string and then to bytes reads as `None`, because the recorded type is never updated |
| NvsStorage.DeletedStillListed | app/esp32c3-impl/src/node/storage.rs:112-135 | a key set to `None` is still listed, because its index entry stays |
| NvsStorage.Handle | app/esp32c3-impl/src/node/storage.rs:157-189 | get, set and list answer as the operations above, other storage messages panic, and other messages are discarded |
| NvsStorage.Load | app/esp32c3-impl/src/node/storage.rs:137-141 | start-up reads the index from slot 0, or starts empty |
| NvsStorage.SetThenLoad | app/esp32c3-impl/src/node/storage.rs:137-149 | what a set leaves in flash reloads as the same index |
| AlarmService.CheckLoop | app/app-core/src/node/topview/alarm.rs:100-119 | over the walk order, an alarm fires exactly when it is due, that is the hour, minute and weekday match and it has not fired today; a fired alarm records today; a fired once-mode alarm is dropped; others are untouched |
| AlarmService.FireStore | app/app-core/src/node/topview/alarm.rs:41-116 | firing an alarm reads its record back, and a once-mode alarm is then deleted from storage; a failed read or delete panics, and a repeating alarm leaves storage unchanged |
| AlarmService.RemoveAll | app/app-core/src/node/topview/alarm.rs:121-123 | exactly the dropped ids leave the list |
| AlarmService.CheckLoopStore | app/app-core/src/node/topview/alarm.rs:100-119 | after the loop, the record of every dropped once-mode alarm is gone from storage, and every key but the id list and those records holds what it held |
| AlarmService.CheckLoopIdList | app/app-core/src/node/topview/alarm.rs:113-116 | with a codec that reads back what it writes, the stored id list loses exactly the dropped ids |
| AlarmService.CheckLoopPanics | app/app-core/src/node/topview/alarm.rs:100-119 | the loop panics only when some alarm is due, and never when every due alarm repeats and its record reads |
| AlarmService.CheckLoopDue | app/app-core/src/node/topview/alarm.rs:107-117 | a due alarm is fired against the store, then the rest of the walk is checked against what firing left, dropping it first if it is a one-off |
| AlarmService.CheckLoopNotDue | app/app-core/src/node/topview/alarm.rs:100-101 | an alarm that is not due is passed over |
| AlarmService.DeleteStoreAfter | app/proto/src/storage/useralarm.rs:29-42 | deleting one alarm removes its record and keeps every key but the id list and that record |
| AlarmService.StoreAfterCons | app/app-core/src/node/topview/alarm.rs:100-119 | deleting one alarm and then others leaves exactly the store facts of dropping all of them |
| AlarmService.OnTimerCheck | app/app-core/src/node/topview/alarm.rs:93-124 | a timer check fires exactly the due alarms, marks them fired today, and removes exactly the due once-mode alarms from the list; their records are deleted from storage and their ids from the stored id list, and no other key changes; only a due alarm can make it panic |
| AlarmService.NothingDue | app/app-core/src/node/topview/alarm.rs:100-119 | with nothing due the check changes nothing |
| AlarmService.AtMostOncePerDay | app/app-core/src/node/topview/alarm.rs:103-111 | a second check in the same minute of the same day fires nothing and changes nothing |
| AlarmService.ElementOf | app/app-core/src/node/topview/alarm.rs:134-139 | a loaded alarm keeps its hour, minute and mode, and has not fired |
| AlarmService.LoadAll | app/app-core/src/node/topview/alarm.rs:132-141 | every listed id is loaded from its record, and a record that cannot be read panics |
| AlarmService.Init | app/app-core/src/node/topview/alarm.rs:126-142 | start-up loads exactly the listed ids, none fired yet; an unreadable id list gives no alarms |
| AlarmService.Merge | app/app-core/src/node/topview/alarm.rs:140 | inserting the loaded alarms keeps the old ones and overrides equal ids |
| AlarmService.HandleError | app/app-core/src/node/topview/alarm.rs:184-189 | a storage error becomes an Error reply |
| AlarmService.Add | app/app-core/src/node/topview/alarm.rs:144-157 | storage is written first; on success the list gains the new id and the reply is its id; on an error the list is unchanged |
| AlarmService.Delete | app/app-core/src/node/topview/alarm.rs:159-166 | storage is changed first; on success the id leaves the list and the reply is the deleted record; on an error the list is unchanged |
| AlarmService.Handle | app/app-core/src/node/topview/alarm.rs:197-232 | get and list answer from storage without changing anything, unknown messages are discarded, and every answer is a Finish |
| Parse.ParseInt | app/app-core/src/node/service/weather/common.rs:10-21 | a parsed number lies in the type's range, and an empty string or a lone sign does not parse |
| Parse.DigitsValueOfText | app/app-core/src/node/service/weather/common.rs:10-21 | the decimal text of a number is read back as that number |
| Parse.ParseText | app/app-core/src/node/service/weather/common.rs:10-21 | parsing inverts the decimal text on the whole range of the type, negative numbers included |
| Parse.ParsePlus | app/app-core/src/node/service/weather/common.rs:10-21 | a leading `+` is accepted and changes nothing |
| Parse.Split | app/app-core/src/node/service/weather/common.rs:77 | `split(',')` gives at least one piece, none holding the separator |
| Parse.SplitJoin | app/app-core/src/node/service/weather/common.rs:77 | splitting a joined string gives the pieces back |
| Parse.JoinSplit | app/app-core/src/node/service/weather/common.rs:77 | joining the pieces of a split gives the string back |
| Parse.SplitAppend | app/app-core/src/node/service/weather/common.rs:77 | splitting at a separator splits the two sides independently |
| Parse.SplitPiece | app/app-core/src/node/service/weather/common.rs:77 | a string without the separator is one piece |
| WeatherCommon.DetectError | app/app-core/src/node/service/weather/common.rs:59-66 | codes 200 and 206 succeed, and every other code is `ApiError(code)` |
| WeatherCommon.ParseU8 | app/app-core/src/node/service/weather/common.rs:10-21 | a `Number<u8>` is the string parsed as an unsigned byte |
| WeatherCommon.ParseParts | app/app-core/src/node/service/weather/common.rs:76-93 | three parseable parts make the colour, in order; no parts is a missing red |
| WeatherCommon.ParseRgb | app/app-core/src/node/service/weather/common.rs:76-93 | a parsed colour had at least three comma-separated parts |
| WeatherCommon.RgbRoundTrip | app/app-core/src/node/service/weather/common.rs:76-93 | the text "r,g,b" of a colour parses back to it |
| WeatherCommon.ExtraIgnored | app/app-core/src/node/service/weather/common.rs:77-93 | anything after a third comma is ignored |
| WeatherCommon.ToTuple | app/app-core/src/node/service/weather/common.rs:97-101 | the tuple is red, green and blue in order |
| WeatherApi.TryNow | app/app-core/src/node/service/weather/weather.rs:31-45 | the code is checked first, then a missing `updateTime`, then a missing `now`, each its own error; on success the fields are copied unchanged |
| WeatherApi.FromForecastData | app/app-core/src/node/service/weather/weather.rs:87-99 | `tempMin` becomes the minimum and `tempMax` the maximum; date and humidity are copied |
| WeatherApi.ForecastDataKept | app/app-core/src/node/service/weather/weather.rs:87-99 | the conversion loses no field of the response |
| WeatherApi.MapDays | app/app-core/src/node/service/weather/weather.rs:120 | days are converted one to one, in order |
| WeatherApi.TryForecast | app/app-core/src/node/service/weather/weather.rs:113-124 | the same order of checks, ending at a missing `daily`; on success the days are converted one to one, in order |
| WeatherApi.FirstLocal | app/app-core/src/node/service/weather/weather.rs:155-160 | the first entry marked as the local index, and none when no entry is |
| WeatherApi.TryAir | app/app-core/src/node/service/weather/weather.rs:148-168 | the code, `updateTime` and `aqi` are checked in turn, a missing local entry is an error, and otherwise the first local entry's value, category and colour are returned |
| WeatherApi.QueryUrl | app/app-core/src/node/service/weather/weather.rs:179-225 | the now and forecast URLs start with their endpoint |
| WeatherApi.QueryUrlInjective | app/app-core/src/node/service/weather/weather.rs:179-225 | a key without `&` is read back from the query URL, and so is the location |
| WeatherApi.AirUrl | app/app-core/src/node/service/weather/weather.rs:236-240 | the air-quality URL starts with its endpoint |
| WeatherApi.AirUrlInjective | app/app-core/src/node/service/weather/weather.rs:236-240 | a location without `?`, in the path, is read back from the air-quality URL, and so is the key |
| WeatherApi.Respond | app/app-core/src/node/service/weather/geo.rs:37-43 | an HTTP error is `HttpError`, a JSON error is `SerdeError`, and otherwise the decoded body is returned |
| GeoLookup.ToUrl | app/app-core/src/node/service/weather/geo.rs:17-24 | the lookup URL starts with its endpoint |
| GeoLookup.TailInjective | app/app-core/src/node/service/weather/geo.rs:17-24 | a location without `&` and the count are read back from the end of the query |
| GeoLookup.ToUrlInjective | app/app-core/src/node/service/weather/geo.rs:17-24 | a key and a location without `&` are read back from the URL, and so is the count, 5 by default |
| GeoLookup.FromGeoItem | app/app-core/src/node/service/weather/geo.rs:56-64 | an item keeps its name, id and country |
| GeoLookup.TryCities | app/app-core/src/node/service/weather/geo.rs:72-78 | the code is checked before anything else; on success every item is converted, one to one, in order |
| GeoLookup.CitiesKeepItems | app/app-core/src/node/service/weather/geo.rs:72-78 | the cities returned determine the items of the response |
| AirLevel.GetAirLevel | app/proto/src/message/weather.rs:51-61 | the bands 0..=50, 51..=100, 101..=150, 151..=200, 201..=300 and above 300 give the six levels from Good to Hazardous |
| AirLevel.LevelCountsBounds | app/app-core/src/proto/message/weather.rs:79-89 | the level is the number of band bounds (50, 100, 150, 200, 300) the index exceeds |
| AirLevel.Monotone | app/proto/src/message/weather.rs:51-61 | a higher index never gives a better level |
| StaticFile.UriPath | slint-app/src/app/server/static_file.rs:15-19 | an empty URI, or one starting with `?`, panics on the slice; otherwise the path, taken after the first character and cut before the first `?`, holds no `?` |
| StaticFile.FirstIndex | slint-app/src/app/server/static_file.rs:15 | `find` gives the first occurrence of the character, or the length when there is none |
| StaticFile.FilePath | slint-app/src/app/server/static_file.rs:20 | an empty path serves the index page, and any other path is served as itself |
| StaticFile.TypeOfExtension | slint-app/src/app/server/static_file.rs:22-30 | exactly html, js, css, png, ico and svg have a content type, and anything else gives "" |
| StaticFile.ContentTypeOfExtension | slint-app/src/app/server/static_file.rs:22-30 | the content type comes from the text after the last `.` |
| StaticFile.Handle | slint-app/src/app/server/static_file.rs:11-47 | a found file is 200 with exactly its contents, its content type first, and a gzip encoding header exactly when the contents start with 1F 8B; a missing file is 404 "Page Not Found" |
| StaticFile.QueryIgnored | slint-app/src/server.rs:36-40 | the query string never changes the response |
| StaticFile.PathRoundTrip | slint-app/src/server.rs:36-41 | the path of "/" + path, with or without a query, is read back |
| StaticFile.Ascii | slint-app/src/server.rs:65 | the body text is sent as its ASCII bytes |
| Router.MapToNodeName | app/proto/src/message/router.rs:14-22 | every page is driven by a page node |
| Router.NodeOfPage | app/proto/src/message/router.rs:14-22 | Boot, Home, Menu, Weather and Music map to the page node of the same name, and to no other |
| Router.MapToNodeNameInjective | app/proto/src/message/router.rs:14-22 | distinct pages give distinct nodes |
| CoreRouter.MapToNodeName | app/app-core/src/proto/message/router.rs:11-19 | every page of the app core is driven by a page node |
| CoreRouter.Widen | app/app-core/src/proto/message/router.rs:11-19 | the app core's pages are the full router's pages without Music |
| CoreRouter.AgreesWithRouter | app/app-core/src/proto/message/router.rs:11-19 | each page maps to the same node as the page of the same name in the full router |
| CoreRouter.MapToNodeNameInjective | app/app-core/src/proto/message/router.rs:11-19 | distinct pages give distinct nodes |
| RouteAdapter.ProtoToSlint | app/app-core/src/adapter/route.rs:3-11 | each page maps to the table entry of the same name |
| RouteAdapter.SlintToProto | app/app-core/src/adapter/route.rs:13-21 | each table entry maps to the page of the same name |
| RouteAdapter.RoundTrips | app/app-core/src/adapter/route.rs:3-21 | each conversion inverts the other |
| V2RouteAdapter.ProtoToSlint | slint-app-v2/src/adapter/route.rs:4-11 | each of the four pages maps to the table entry of the same name |
| V2RouteAdapter.SlintToProto | slint-app-v2/src/adapter/route.rs:13-20 | each table entry maps to the page of the same name |
| V2RouteAdapter.RoundTrips | slint-app-v2/src/adapter/route.rs:4-20 | each conversion inverts the other |
| NodeProto.Unwrap | app/proto/src/lib.rs:54-61 | `unwrap` returns the reply of a Finish, and panics on Discard and Pending |
| NodeProto.UnwrapFinish | app/app-core/src/proto.rs:42-49 | unwrapping returns m exactly for Finish(m) |
| NodeProto.DefaultHandle | app/app-core/src/proto.rs:68-76 | a node that does not override `handle_message` discards every message |

## Left out

- File I/O and the command line around the merger (slint-app/tools/merge_midi.py:159-168): opening files, argv and usage. The output is a byte sequence, and the `seek(18)` back-patch is `MidiMerge.Patch` over that sequence.
- MidiRoundTrip.WriteTrackRoundTrip: assumes that channel events keep their first data byte below 0x80, because the parser never checks it and a larger byte would be taken for a status when read back.
- MidiRoundTrip.MergeRoundTrip: reads the output back at track level, from offset 14. The output is format 0, which the merger itself rejects (`MidiMerge.MergeRejectsOwnOutput`), so no whole-file reparse exists.
- MIDI playback, the tone players and the float frequency of a pitch: threads, sleeps, a foreign MIDI parser and floating point.
- Pitch.Length: uses exact reals for the `f32` durations; rounding is not modelled.
- hsv colours, circle drawing and the clock's pixel layout: floating point and library rendering. The clock is modelled as abstract draw operations per digit position.
- The clock test's expected grids (slint-app/src/app/clock.rs:38-196) are not restated. `ClockGlyphs.GlyphRowsReencode` states the same content, each row re-encoding its table byte.
- Concurrency and hardware: the esp32c3 and desktop entry points, WiFi, SNTP, buttons, HTTP servers and clients.
- Clocks: the current time is a parameter of the clock and the alarm node.
- AlarmService: the weekday test `is_active` is a parameter, and on_alarm's dialog and tone series are not modelled (UI only).
- Hash map and hash set iteration orders are parameters (`order`, `walk`); the lemmas that need it ask that the order list every member once.
- AppScheduler.Run: a node's context calls are fixed by the message it handles, so nothing it does after a `sync_call` depends on the answer, as the routers' and pages' calls do in the source (app/app-core/src/node/service/router.rs:50). The answer itself is returned by `AppScheduler.SyncCall`.
- AppScheduler.Run: nested `sync_call`s are bounded by a `fuel` parameter and fail with `TooDeep` past it. This stands for the stack overflow of a cycle of synchronous calls; a chain deeper than the fuel that the real stack would hold is not modelled.
- AppScheduler.DispatchPoint: a callback runs in the context it captured, that of the node that made the `async_call`. That context's count is taken as the call's own sequence number. The real count has also moved on past any posts the handler made after the `async_call`, which the model does not track. Like a handler, a callback's calls do not depend on what its `sync_call`s answer. The bodies of callbacks come from the `callbacks` parameter, by identifier.
- AppScheduler.Handler and AppV2Scheduler.Handler: a node is a function of the sender, the target and the message. The state a real node keeps between calls in its `RefCell`s is not modelled, so a node that answers the same message differently over time is outside the model. Every scheduler lemma holds for every map of handlers, whatever state they would consult.
- Pitch.AddAsWritten: an `i32` overflow of the key plus the shift is a panic, as in a build with overflow checks on (no Cargo profile sets them either way). A release build wraps instead.
- Guitar.FretPitch: a note-plus-fret sum past 255 is a panic, as in a build with overflow checks on. A release build wraps the `u8` sum and returns a lower note in the base octave.
- NvsStorage.GenNextIdx: the `u16` overflow past slot 65535 is a panic, as in a build with overflow checks on. The release-build wrap to slot 0 is `NvsStorage.GenNextIdxWrapping`; `NvsStorage.Set` uses the checked version.
- ImageBuffer.DrawIter: an `i32` overflow of `y * width + x` is a panic, as in a build with overflow checks on; a release build wraps the index instead. A panicking draw is modelled as no buffer at all, so the pixels written before the failing one are not modelled.
- Serialisation (serde JSON, base64, `time` parsing): a `Codec` parameter, assumed lawful where a round trip is stated. The JSON file rewrite of the desktop storage node is not modelled.
- NvsStorage: the raw NVS is a map that never fails, so its error replies are not modelled.
- The IPC client wrappers' panic on an unexpected reply type: the client is modelled directly against a store.
- The `list` storage call on the client side: the answers of the storage nodes (`JsonStorage.KeysWithPrefix`, `NvsStorage.List`, `MockStorage.Handle`) carry its meaning.
- `Number::take` (app/app-core/src/node/service/weather/common.rs:29-33) only returns the wrapped value; `WeatherCommon.ParseU8` models the parse.
- Message enums, `debug_msg` labels, the default `poll` and the single `GotoPage` router message: nothing to verify.
- Guitar.Default: states the keys of the six strings through the intervals and the first string's key, not the note and octave of each string.
- StaticFile.Handle: states the 404 status and body but not its empty `Content-Type` header, and leaves the response's reason phrase out.
- Router.MapToNodeName: its own contract only says the node is a page node; `Router.NodeOfPage` states which one. The same holds for CoreRouter.MapToNodeName and `CoreRouter.AgreesWithRouter`.
- UI-bound nodes and pages, the network services and the screen projector are outside the modelled core.

## Findings

| source | as written | input that shows it | evidently intended | confidence | as-written member | corrected member |
|---|---|---|---|---|---|---|
| libs/embedded-tone/src/note.rs:193-197 | `add` computes the octave as `(new_dist / 12) as u8`, which wraps modulo 256 before `Octave::from` checks it | C0.add(3072) gives C0, and C0.add(-2952) gives C10 | a sum outside the keys 0..=131 panics, as every other out-of-range value does | low, not executed | Pitch.AddAsWritten, Pitch.AddWrapsOctave | Pitch.Add, Pitch.AddAgrees |

=== FILE: alarm_service.dfy ===
/** The user-alarm node of the app core (app/app-core/src/node/topview/alarm.rs):
    an in-memory list of alarms kept beside their stored records, a periodic
    check that fires the alarms due now, and the add, delete, get and list
    requests. The clock is the `Now` parameter, the order in which the
    `HashMap` of alarms is walked is the `order` parameter, and the weekday
    rule of a repeat mode (`is_active`, whose definition is not part of this
    model) is the `isActive` parameter. Firing an alarm reads its record and
    raises a dialog and a tone; here it is reported in the `fired` list. */
module AlarmService {
  import opened Wrappers
  import opened Ints
  import StorageProto
  import opened StorageClient
  import opened StorageFacade
  import opened NodeProto
  import UserAlarmStorage
  import AppScheduler

  /** `UserAlarmRepeatMode`: only `Once` matters to this node. */
  datatype RepeatMode = Once | Repeating(rule: nat)

  /** A stored record: the time of day and the repeat mode. */
  datatype AlarmBody = AlarmBody(hour: u8, minute: u8, mode: RepeatMode)

  /** `AlarmElement`: `last_active_day` is the day of the month it last fired. */
  datatype Element = Element(hour: u8, minute: u8, mode: RepeatMode, lastActiveDay: Option<u8>)

  type AlarmList = map<nat, Element>

  /** The local time of a check: day of the month, hour, minute, weekday. */
  datatype Now = Now(day: u8, hour: u8, minute: u8, weekday: nat)

  /** The rule of `on_timer_check`: the time matches, the mode is active
      today, and the alarm has not fired today already. */
  predicate Due(e: Element, now: Now, isActive: (RepeatMode, nat) -> bool) {
    now.hour == e.hour && now.minute == e.minute && isActive(e.mode, now.weekday) &&
    e.lastActiveDay != Some(now.day)
  }

  predicate Distinct(order: seq<nat>) {
    forall i, j :: 0 <= i < j < |order| ==> order[i] != order[j]
  }

  datatype Check = Check(store: Store, list: AlarmList, fired: seq<nat>, dropped: seq<nat>)

  /** The loop of `on_timer_check` over the ids `order`: a due alarm reads its
      record (a failure panics, `None`), is marked as fired today, and if it is
      a one-off, is deleted from storage (a failure panics) and noted for
      removal. */
  function CheckLoop(st: Store, list: AlarmList, order: seq<nat>, now: Now, isActive: (RepeatMode, nat) -> bool,
                     ids: Codec<seq<nat>>, bodies: Codec<AlarmBody>): (r: Option<Check>)
    requires forall i :: 0 <= i < |order| ==> order[i] in list
    requires Distinct(order)
    decreases |order|
    ensures r.Some? ==> r.value.list.Keys == list.Keys
    ensures r.Some? ==> forall k :: k in list && k !in order ==> r.value.list[k] == list[k]
    ensures r.Some? ==> forall k :: k in order ==>
              (k in r.value.fired <==> Due(list[k], now, isActive)) &&
              (Due(list[k], now, isActive) ==> r.value.list[k] == list[k].(lastActiveDay := Some(now.day))) &&
              (!Due(list[k], now, isActive) ==> r.value.list[k] == list[k]) &&
              (k in r.value.dropped <==> Due(list[k], now, isActive) && list[k].mode.Once?)
    ensures r.Some? ==> forall k :: k in r.value.fired ==> k in order
    ensures r.Some? ==> forall k :: k in r.value.dropped ==> k in order
  {
    if |order| == 0 then Some(Check(st, list, [], []))
    else
      var id := order[0];
      var e := list[id];
      assert forall i :: 1 <= i < |order| ==> order[i] != id;
      if !Due(e, now, isActive) then CheckLoop(st, list, order[1..], now, isActive, ids, bodies)
      else
        var st'' :- FireStore(st, id, e.mode.Once?, ids, bodies);
        var list' := list[id := e.(lastActiveDay := Some(now.day))];
        var rest :- CheckLoop(st'', list', order[1..], now, isActive, ids, bodies);
        Some(Check(rest.store, rest.list, [id] + rest.fired, (if e.mode.Once? then [id] else []) + rest.dropped))
  }

  /** The storage side of firing alarm `id`: its record is read back (a
      failure panics), and a one-off is then deleted (a failure panics). */
  function FireStore(st: Store, id: nat, once: bool, ids: Codec<seq<nat>>, bodies: Codec<AlarmBody>): (r: Option<Store>)
    ensures r.Some? <==> UserAlarmStorage.GetAlarm(st, id, bodies).Done? &&
                         (once ==> UserAlarmStorage.Delete(st, id, ids, bodies).Done?)
    ensures r.Some? && once ==> r.value == UserAlarmStorage.Delete(st, id, ids, bodies).store
    ensures r.Some? && !once ==> r.value == st
  {
    match UserAlarmStorage.GetAlarm(st, id, bodies)
    case Done(_, _) =>
      if once then
        (match UserAlarmStorage.Delete(st, id, ids, bodies)
         case Done(s, _) => Some(s)
         case _ => None)
      else Some(st)
    case _ => None
  }

  /** Remove the dropped ids from the list. */
  function RemoveAll(list: AlarmList, dropped: seq<nat>): (r: AlarmList)
    ensures forall k :: k in r <==> k in list && k !in dropped
    ensures forall k :: k in r ==> r[k] == list[k]
  {
    map k | k in list && k !in dropped :: list[k]
  }

  /** A key a check leaves alone: neither the id list nor a dropped alarm's record. */
  predicate Untouched(j: string, dropped: seq<nat>) {
    j != UserAlarmStorage.ListKey && forall k :: k in dropped ==> j != UserAlarmStorage.DataKey(k)
  }

  /** What a check may do to the store, for the ids it dropped: their records
      are gone, and every other key but the id list holds what it held. */
  ghost predicate StoreAfter(st: Store, fin: Store, dropped: seq<nat>) {
    fin.readFails == st.readFails && fin.writeFails == st.writeFails &&
    (forall k :: k in dropped ==> UserAlarmStorage.DataKey(k) !in fin.data) &&
    (forall j :: Untouched(j, dropped) ==> SameAt(fin, st, j))
  }

  /** Deleting one alarm, then dropping others after it. */
  lemma StoreAfterCons(st: Store, mid: Store, fin: Store, id: nat, rest: seq<nat>)
    requires StoreAfter(st, mid, [id]) && StoreAfter(mid, fin, rest) && id !in rest
    ensures StoreAfter(st, fin, [id] + rest)
  {
    var key := UserAlarmStorage.DataKey(id);
    UserAlarmStorage.KeysDistinct(id, id);
    forall k | k in rest
      ensures key != UserAlarmStorage.DataKey(k)
    {
      UserAlarmStorage.KeysDistinct(id, k);
    }
    assert Untouched(key, rest);
    forall j | Untouched(j, [id] + rest)
      ensures SameAt(fin, st, j)
    {
      assert Untouched(j, rest) && Untouched(j, [id]);
    }
  }

  /** A due alarm at the head of the walk: it is fired, then the rest of the
      walk is checked against the store and list that firing left. */
  lemma CheckLoopDue(st: Store, list: AlarmList, order: seq<nat>, now: Now, isActive: (RepeatMode, nat) -> bool,
                     ids: Codec<seq<nat>>, bodies: Codec<AlarmBody>)
    requires forall i :: 0 <= i < |order| ==> order[i] in list
    requires Distinct(order)
    requires |order| > 0 && Due(list[order[0]], now, isActive)
    requires CheckLoop(st, list, order, now, isActive, ids, bodies).Some?
    ensures var id := order[0];
            var e := list[id];
            var fire := FireStore(st, id, e.mode.Once?, ids, bodies);
            var list' := list[id := e.(lastActiveDay := Some(now.day))];
            fire.Some? &&
            (forall i :: 0 <= i < |order[1..]| ==> order[1..][i] in list') && Distinct(order[1..]) &&
            CheckLoop(fire.value, list', order[1..], now, isActive, ids, bodies).Some? &&
            var rest := CheckLoop(fire.value, list', order[1..], now, isActive, ids, bodies).value;
            var c := CheckLoop(st, list, order, now, isActive, ids, bodies).value;
            c.store == rest.store && c.dropped == (if e.mode.Once? then [id] else []) + rest.dropped &&
            id !in order[1..]
  {
    assert forall i :: 1 <= i < |order| ==> order[i] != order[0];
  }

  /** The storage side of a check: the record of every dropped one-off is
      gone, and every other key but the id list holds what it held. */
  lemma {:induction false} CheckLoopStore(st: Store, list: AlarmList, order: seq<nat>, now: Now,
                                          isActive: (RepeatMode, nat) -> bool,
                                          ids: Codec<seq<nat>>, bodies: Codec<AlarmBody>)
    requires forall i :: 0 <= i < |order| ==> order[i] in list
    requires Distinct(order)
    requires CheckLoop(st, list, order, now, isActive, ids, bodies).Some?
    ensures var c := CheckLoop(st, list, order, now, isActive, ids, bodies).value;
            StoreAfter(st, c.store, c.dropped)
    decreases |order|
  {
    hide CheckLoop;
    var c := CheckLoop(st, list, order, now, isActive, ids, bodies).value;
    if |order| == 0 {
      NothingDue(st, list, order, now, isActive, ids, bodies);
    } else if !Due(list[order[0]], now, isActive) {
      CheckLoopNotDue(st, list, order, now, isActive, ids, bodies);
      CheckLoopStore(st, list, order[1..], now, isActive, ids, bodies);
    } else {
      var id := order[0];
      var e := list[id];
      CheckLoopDue(st, list, order, now, isActive, ids, bodies);
      var st'' := FireStore(st, id, e.mode.Once?, ids, bodies).value;
      var list' := list[id := e.(lastActiveDay := Some(now.day))];
      CheckLoopStore(st'', list', order[1..], now, isActive, ids, bodies);
      var rest := CheckLoop(st'', list', order[1..], now, isActive, ids, bodies).value;
      if e.mode.Once? {
        assert id !in rest.dropped;
        DeleteStoreAfter(st, id, ids, bodies);
        StoreAfterCons(st, st'', rest.store, id, rest.dropped);
      } else {
        assert st'' == st;
      }
    }
  }

  /** An alarm not due at the head of the walk is passed over. */
  lemma CheckLoopNotDue(st: Store, list: AlarmList, order: seq<nat>, now: Now, isActive: (RepeatMode, nat) -> bool,
                        ids: Codec<seq<nat>>, bodies: Codec<AlarmBody>)
    requires forall i :: 0 <= i < |order| ==> order[i] in list
    requires Distinct(order)
    requires |order| > 0 && !Due(list[order[0]], now, isActive)
    ensures (forall i :: 0 <= i < |order[1..]| ==> order[1..][i] in list) && Distinct(order[1..])
    ensures CheckLoop(st, list, order, now, isActive, ids, bodies) == CheckLoop(st, list, order[1..], now, isActive, ids, bodies)
  {
    assert forall i :: 1 <= i < |order| ==> order[i] != order[0];
  }

  /** Deleting one alarm's record is a check that dropped it alone. */
  lemma DeleteStoreAfter(st: Store, id: nat, ids: Codec<seq<nat>>, bodies: Codec<AlarmBody>)
    requires UserAlarmStorage.Delete(st, id, ids, bodies).Done?
    ensures StoreAfter(st, UserAlarmStorage.Delete(st, id, ids, bodies).store, [id])
  {
  }

  /** With a codec that reads back what it writes, a check removes exactly
      the dropped ids from the stored id list. */
  lemma {:induction false} CheckLoopIdList(st: Store, list: AlarmList, order: seq<nat>, now: Now,
                                           isActive: (RepeatMode, nat) -> bool,
                                           ids: Codec<seq<nat>>, bodies: Codec<AlarmBody>)
    requires forall i :: 0 <= i < |order| ==> order[i] in list
    requires Distinct(order)
    requires CheckLoop(st, list, order, now, isActive, ids, bodies).Some?
    ensures var c := CheckLoop(st, list, order, now, isActive, ids, bodies).value;
            Lawful(ids) && UserAlarmStorage.ListKey !in st.readFails ==>
              UserAlarmStorage.GetIdList(c.store, ids).Ok? &&
              forall x :: x in UserAlarmStorage.GetIdList(c.store, ids).value <==>
                          x in UserAlarmStorage.GetIdList(st, ids).value && x !in c.dropped
    decreases |order|
  {
    if |order| > 0 && Lawful(ids) && UserAlarmStorage.ListKey !in st.readFails {
      var id := order[0];
      var e := list[id];
      assert forall i :: 1 <= i < |order| ==> order[i] != id;
      if !Due(e, now, isActive) {
        CheckLoopIdList(st, list, order[1..], now, isActive, ids, bodies);
      } else {
        var st'' := FireStore(st, id, e.mode.Once?, ids, bodies).value;
        var list' := list[id := e.(lastActiveDay := Some(now.day))];
        CheckLoopIdList(st'', list', order[1..], now, isActive, ids, bodies);
        if e.mode.Once? {
          UserAlarmStorage.DeleteThenRead(st, id, ids, bodies);
        }
      }
    }
  }

  /** A check panics only when some alarm is due, and never when every due
      alarm repeats and its record reads. */
  lemma {:induction false} CheckLoopPanics(st: Store, list: AlarmList, order: seq<nat>, now: Now,
                                           isActive: (RepeatMode, nat) -> bool,
                                           ids: Codec<seq<nat>>, bodies: Codec<AlarmBody>)
    requires forall i :: 0 <= i < |order| ==> order[i] in list
    requires Distinct(order)
    ensures CheckLoop(st, list, order, now, isActive, ids, bodies).None? ==>
              exists k :: k in order && Due(list[k], now, isActive)
    ensures (forall k :: k in order && Due(list[k], now, isActive) ==>
               list[k].mode.Repeating? && UserAlarmStorage.GetAlarm(st, k, bodies).Done?) ==>
              CheckLoop(st, list, order, now, isActive, ids, bodies).Some?
    decreases |order|
  {
    if forall i :: 0 <= i < |order| ==> !Due(list[order[i]], now, isActive) {
      NothingDue(st, list, order, now, isActive, ids, bodies);
    } else if |order| > 0 {
      var id := order[0];
      var e := list[id];
      assert forall i :: 1 <= i < |order| ==> order[i] != id;
      if !Due(e, now, isActive) {
        CheckLoopPanics(st, list, order[1..], now, isActive, ids, bodies);
      } else if e.mode.Repeating? && UserAlarmStorage.GetAlarm(st, id, bodies).Done? {
        var list' := list[id := e.(lastActiveDay := Some(now.day))];
        assert FireStore(st, id, false, ids, bodies) == Some(st);
        CheckLoopPanics(st, list', order[1..], now, isActive, ids, bodies);
        forall k | k in order[1..]
          ensures list'[k] == list[k]
        {
        }
      }
    }
  }

  /** `on_timer_check`: exactly the due alarms fire; each is marked as fired
      today, and the one-off ones leave the list and have their records
      deleted from storage, the id list losing exactly them. The others are
      unchanged. Only a due alarm can make it panic. */
  function OnTimerCheck(st: Store, list: AlarmList, order: seq<nat>, now: Now, isActive: (RepeatMode, nat) -> bool,
                        ids: Codec<seq<nat>>, bodies: Codec<AlarmBody>): (r: Option<Check>)
    requires AppScheduler.IsOrder(order, list.Keys)
    ensures r.Some? ==> forall k :: k in r.value.fired <==> k in list && Due(list[k], now, isActive)
    ensures r.Some? ==> forall k :: k in r.value.list <==> k in list && !(Due(list[k], now, isActive) && list[k].mode.Once?)
    ensures r.Some? ==> forall k :: k in r.value.list ==>
              r.value.list[k] == if Due(list[k], now, isActive) then list[k].(lastActiveDay := Some(now.day)) else list[k]
    ensures r.None? ==> exists k :: k in list && Due(list[k], now, isActive)
    ensures r.Some? ==> forall k :: k in r.value.dropped <==> k in list && Due(list[k], now, isActive) && list[k].mode.Once?
    ensures r.Some? ==> StoreAfter(st, r.value.store, r.value.dropped)
    ensures r.Some? && Lawful(ids) && UserAlarmStorage.ListKey !in st.readFails ==>
              forall x :: x in UserAlarmStorage.GetIdList(r.value.store, ids).value <==>
                          x in UserAlarmStorage.GetIdList(st, ids).value && x !in r.value.dropped
  {
    CheckLoopPanics(st, list, order, now, isActive, ids, bodies);
    var c :- CheckLoop(st, list, order, now, isActive, ids, bodies);
    CheckLoopStore(st, list, order, now, isActive, ids, bodies);
    CheckLoopIdList(st, list, order, now, isActive, ids, bodies);
    Some(c.(list := RemoveAll(c.list, c.dropped)))
  }

  /** With nothing due, the loop touches nothing. */
  lemma {:induction false} NothingDue(st: Store, list: AlarmList, order: seq<nat>, now: Now, isActive: (RepeatMode, nat) -> bool,
                                      ids: Codec<seq<nat>>, bodies: Codec<AlarmBody>)
    requires forall i :: 0 <= i < |order| ==> order[i] in list && !Due(list[order[i]], now, isActive)
    requires Distinct(order)
    ensures CheckLoop(st, list, order, now, isActive, ids, bodies) == Some(Check(st, list, [], []))
    decreases |order|
  {
    if |order| > 0 {
      NothingDue(st, list, order[1..], now, isActive, ids, bodies);
    }
  }

  /** An alarm fires at most once a day: a second check in the same minute,
      in whatever order, fires nothing and changes nothing. */
  lemma AtMostOncePerDay(st: Store, list: AlarmList, order: seq<nat>, now: Now, isActive: (RepeatMode, nat) -> bool,
                         ids: Codec<seq<nat>>, bodies: Codec<AlarmBody>, order2: seq<nat>)
    requires AppScheduler.IsOrder(order, list.Keys)
    requires OnTimerCheck(st, list, order, now, isActive, ids, bodies).Some?
    requires AppScheduler.IsOrder(order2, OnTimerCheck(st, list, order, now, isActive, ids, bodies).value.list.Keys)
    ensures var c := OnTimerCheck(st, list, order, now, isActive, ids, bodies).value;
            OnTimerCheck(c.store, c.list, order2, now, isActive, ids, bodies) == Some(Check(c.store, c.list, [], []))
  {
    hide CheckLoop, StoreAfter;
    var c := OnTimerCheck(st, list, order, now, isActive, ids, bodies).value;
    NothingDue(c.store, c.list, order2, now, isActive, ids, bodies);
    assert RemoveAll(c.list, []) == c.list;
  }

  /** The element an alarm record is loaded as: not yet fired. */
  function ElementOf(b: AlarmBody): (r: Element)
    ensures r.lastActiveDay.None?
    ensures r.hour == b.hour && r.minute == b.minute && r.mode == b.mode
  {
    Element(b.hour, b.minute, b.mode, None)
  }

  /** The loop of `init` over the ids: each record is read (a failure panics)
      and inserted. */
  function LoadAll(st: Store, idList: seq<nat>, acc: AlarmList, bodies: Codec<AlarmBody>): (r: Option<AlarmList>)
    decreases |idList|
    ensures r.Some? ==> forall k :: k in r.value <==> k in acc || k in idList
    ensures r.Some? ==> forall k :: k in idList ==>
              UserAlarmStorage.GetAlarm(st, k, bodies).Done? &&
              r.value[k] == ElementOf(UserAlarmStorage.GetAlarm(st, k, bodies).value)
    ensures r.Some? ==> forall k :: k in acc && k !in idList ==> r.value[k] == acc[k]
  {
    if |idList| == 0 then Some(acc)
    else
      match UserAlarmStorage.GetAlarm(st, idList[0], bodies)
      case Done(_, b) => LoadAll(st, idList[1..], acc[idList[0] := ElementOf(b)], bodies)
      case _ => None
  }

  /** `init`: every listed alarm, loaded from its record; a failing list
      read gives no alarms. */
  function Init(st: Store, ids: Codec<seq<nat>>, bodies: Codec<AlarmBody>): (r: Option<AlarmList>)
    ensures ListKey() in st.readFails ==> r == Some(map[])
    ensures r.Some? && ListKey() !in st.readFails ==>
              forall k :: k in r.value <==> k in UserAlarmStorage.GetIdList(st, ids).value
    ensures r.Some? ==> forall k :: k in r.value ==> r.value[k].lastActiveDay.None?
  {
    var idList := match UserAlarmStorage.GetIdList(st, ids) case Ok(l) => l case Err(_) => [];
    LoadAll(st, idList, map[], bodies)
  }

  function ListKey(): string {
    UserAlarmStorage.ListKey
  }

  /** `UserAlarmMessage`, as this node sees it. */
  datatype AlarmMessage =
    | AddRequest(body: AlarmBody)
    | AddResponse(id: nat)
    | DeleteRequest(id: nat)
    | DeleteResponse(deleted: AlarmBody)
    | GetRequest(id: nat)
    | GetResponse(found: AlarmBody)
    | ListRequest
    | ListResponse(idList: seq<nat>)
    | Error(error: StorageProto.StorageError)

  datatype Message = Init | OtherLifecycle | UserAlarm(am: AlarmMessage) | Empty | OtherMessage

  /** What a request comes to: a panic, or the next store and list and the reply. */
  datatype Step = Step(store: Store, list: AlarmList, reply: HandleResult<Message>)

  /** `handle_error`: an error becomes an `Error` reply. */
  function HandleError(r: Result<HandleResult<Message>, StorageProto.StorageError>): (x: HandleResult<Message>)
    ensures r.Ok? ==> x == r.value
    ensures r.Err? ==> x == Finish(UserAlarm(Error(r.error)))
  {
    match r
    case Ok(x) => x
    case Err(e) => Finish(UserAlarm(Error(e)))
  }

  /** `add`: the record is stored first; on an error the list stays as it
      was, otherwise the alarm joins it under its new id. */
  function Add(st: Store, list: AlarmList, body: AlarmBody, ids: Codec<seq<nat>>, bodies: Codec<AlarmBody>): (r: Option<Step>)
    ensures r.None? <==> UserAlarmStorage.Add(st, body, ids, bodies).Panic?
    ensures r.Some? && r.value.reply.Finish? && r.value.reply.reply.UserAlarm? && r.value.reply.reply.am.Error? ==>
              r.value.list == list
    ensures UserAlarmStorage.Add(st, body, ids, bodies).Done? ==>
              var id := UserAlarmStorage.Add(st, body, ids, bodies).value;
              r.value.reply == Finish(UserAlarm(AddResponse(id))) &&
              r.value.list == list[id := ElementOf(body)]
  {
    match UserAlarmStorage.Add(st, body, ids, bodies)
    case Panic => None
    case Failed(s, e) => Some(Step(s, list, HandleError(Err(e))))
    case Done(s, id) => Some(Step(s, list[id := ElementOf(body)], HandleError(Ok(Finish(UserAlarm(AddResponse(id)))))))
  }

  /** `delete`: removed from storage first; on an error the list stays as it
      was, otherwise the alarm leaves it and the reply carries its record. */
  function Delete(st: Store, list: AlarmList, id: nat, ids: Codec<seq<nat>>, bodies: Codec<AlarmBody>): (r: Option<Step>)
    ensures r.None? <==> UserAlarmStorage.Delete(st, id, ids, bodies).Panic?
    ensures UserAlarmStorage.Delete(st, id, ids, bodies).Failed? ==>
              r.value.list == list && r.value.reply == Finish(UserAlarm(Error(UserAlarmStorage.Delete(st, id, ids, bodies).error)))
    ensures UserAlarmStorage.Delete(st, id, ids, bodies).Done? ==>
              r.value.reply == Finish(UserAlarm(DeleteResponse(UserAlarmStorage.Delete(st, id, ids, bodies).value))) &&
              id !in r.value.list && forall k :: k != id ==> (k in r.value.list <==> k in list)
  {
    match UserAlarmStorage.Delete(st, id, ids, bodies)
    case Panic => None
    case Failed(s, e) => Some(Step(s, list, HandleError(Err(e))))
    case Done(s, b) => Some(Step(s, list - {id}, HandleError(Ok(Finish(UserAlarm(DeleteResponse(b)))))))
  }

  /** `handle_message`: `Init` loads the alarms (the timer that runs the
      check is not modelled); the four requests are answered; everything
      else is discarded. */
  function Handle(st: Store, list: AlarmList, msg: Message, ids: Codec<seq<nat>>, bodies: Codec<AlarmBody>): (r: Option<Step>)
    ensures !(msg.Init? || (msg.UserAlarm? && (msg.am.AddRequest? || msg.am.DeleteRequest? || msg.am.GetRequest? || msg.am.ListRequest?))) ==>
              r == Some(Step(st, list, Discard))
    ensures r.Some? && !r.value.reply.Discard? ==> r.value.reply.Finish?
    ensures msg.UserAlarm? && msg.am.GetRequest? ==>
              var g := UserAlarmStorage.GetAlarm(st, msg.am.id, bodies);
              (r.None? <==> g.Panic?) && (g.Done? ==> r.value.reply == Finish(UserAlarm(GetResponse(g.value)))) &&
              (r.Some? ==> r.value.store == st && r.value.list == list)
    ensures msg.UserAlarm? && msg.am.ListRequest? ==>
              r.Some? && r.value.store == st && r.value.list == list &&
              (ListKey() !in st.readFails ==> r.value.reply == Finish(UserAlarm(ListResponse(UserAlarmStorage.GetIdList(st, ids).value))))
  {
    match msg
    case Init =>
      var l :- Init(st, ids, bodies);
      // The loaded alarms join whatever the list already held.
      Some(Step(st, Merge(list, l), Finish(Empty)))
    case UserAlarm(am) =>
      (match am
       case AddRequest(b) => Add(st, list, b, ids, bodies)
       case DeleteRequest(id) => Delete(st, list, id, ids, bodies)
       case GetRequest(id) =>
         (match UserAlarmStorage.GetAlarm(st, id, bodies)
          case Panic => None
          case Failed(_, e) => Some(Step(st, list, HandleError(Err(e))))
          case Done(_, b) => Some(Step(st, list, HandleError(Ok(Finish(UserAlarm(GetResponse(b))))))))
       case ListRequest =>
         (match UserAlarmStorage.GetIdList(st, ids)
          case Err(e) => Some(Step(st, list, HandleError(Err(e))))
          case Ok(l) => Some(Step(st, list, HandleError(Ok(Finish(UserAlarm(ListResponse(l))))))))
       case _ => Some(Step(st, list, Discard)))
    case _ => Some(Step(st, list, Discard))
  }

  /** `insert` of each loaded alarm into the existing list. */
  function Merge(list: AlarmList, loaded: AlarmList): (r: AlarmList)
    ensures forall k :: k in r <==> k in list || k in loaded
    ensures forall k :: k in loaded ==> r[k] == loaded[k]
  {
    list + loaded
  }
}

=== FILE: app_scheduler.dfy ===
/** The message scheduler of the app core (app/app-core/src/scheduler.rs): a
    double-buffered queue of messages between named nodes, each node handling
    a message through a context that lets it post more messages. Node names
    are any type `N`, messages any type `M`; a node is the function it uses to
    handle a message, answering with a result and the context calls it made,
    in order. A callback is named by an identifier, and its body is the
    context calls it makes when run with the reply; each invocation is also
    reported. */
module AppScheduler {
  import opened Wrappers
  import opened Ints
  import opened NodeProto

  datatype MessageTo<N> = Broadcast | Point(node: N)

  /** `MessageWithHeader`. */
  datatype Header<M> = Header(no: u32, isPending: bool, readyResult: Option<M>, body: M)

  type CallbackId = nat

  /** `MessageQueueItem`. */
  datatype Item<N, M> = Item(from: N, to: MessageTo<N>, message: Header<M>, callback: Option<CallbackId>)

  /** A call a handler makes on its context: `boardcast`, `async_call`,
      `async_ready` and `sync_call`. A node's calls are fixed by the message
      it handles, so nothing it does after a `sync_call` depends on the answer. */
  datatype Action<N, M> =
    | Post(msg: M)
    | Call(node: N, msg: M, callback: CallbackId)
    | Ready(no: u32, result: M)
    | Sync(node: N, msg: M)

  datatype Reaction<N, M> = Reaction(result: HandleResult<M>, actions: seq<Action<N, M>>)

  /** `Node::handle_message(ctx, from, to, msg)`. */
  type Handler<!N, !M> = (N, MessageTo<N>, Header<M>) -> Reaction<N, M>

  /** `ContextImpl`: the handling node's name, its own copy of the sequence
      counter, and the shared queue being filled and map of ready results. */
  datatype Context<N, M> = Context(nodeName: N, counter: u32, queue: seq<Item<N, M>>, ready: map<u32, M>)

  /** `fetch_add(1)` on an `AtomicU32` wraps around. */
  function Inc(c: u32): (r: u32)
    ensures c < 0xFFFF_FFFF ==> r == c + 1
    ensures c == 0xFFFF_FFFF ==> r == 0
  {
    (c + 1) % 0x1_0000_0000
  }

  /** `boardcast(msg)`: count up, then queue a broadcast carrying the new count. */
  function Boardcast<N, M>(ctx: Context<N, M>, msg: M): (r: Context<N, M>)
    ensures r.nodeName == ctx.nodeName && r.counter == Inc(ctx.counter) && r.ready == ctx.ready
    ensures |r.queue| == |ctx.queue| + 1 && r.queue[..|ctx.queue|] == ctx.queue
    ensures var it := r.queue[|ctx.queue|];
            it.from == ctx.nodeName && it.to == Broadcast && it.callback == None &&
            it.message == Header(r.counter, false, None, msg)
  {
    var c := Inc(ctx.counter);
    ctx.(counter := c, queue := ctx.queue + [Item(ctx.nodeName, Broadcast, Header(c, false, None, msg), None)])
  }

  /** `async_call(node, msg, callback)`: as a broadcast, but to one node and
      with the callback attached. */
  function AsyncCall<N, M>(ctx: Context<N, M>, node: N, msg: M, cb: CallbackId): (r: Context<N, M>)
    ensures r.nodeName == ctx.nodeName && r.counter == Inc(ctx.counter) && r.ready == ctx.ready
    ensures |r.queue| == |ctx.queue| + 1 && r.queue[..|ctx.queue|] == ctx.queue
    ensures var it := r.queue[|ctx.queue|];
            it.from == ctx.nodeName && it.to == Point(node) && it.callback == Some(cb) &&
            it.message == Header(r.counter, false, None, msg)
  {
    var c := Inc(ctx.counter);
    ctx.(counter := c, queue := ctx.queue + [Item(ctx.nodeName, Point(node), Header(c, false, None, msg), Some(cb))])
  }

  /** `async_ready(seq, result)`: record the result under its sequence number. */
  function AsyncReady<N, M>(ctx: Context<N, M>, no: u32, result: M): (r: Context<N, M>)
    ensures r.ready.Keys == ctx.ready.Keys + {no} && r.ready[no] == result
    ensures forall k :: k in ctx.ready && k != no ==> r.ready[k] == ctx.ready[k]
    ensures r.queue == ctx.queue && r.counter == ctx.counter && r.nodeName == ctx.nodeName
  {
    ctx.(ready := ctx.ready[no := result])
  }

  /** The context calls of one handler, in order, each `sync_call` running
      its target's calls nested inside it. `fuel` bounds the nesting, standing
      for the stack a cycle of synchronous calls would exhaust. */
  function Run<N, M>(nodes: map<N, Handler<N, M>>, fuel: nat, ctx: Context<N, M>, actions: seq<Action<N, M>>)
    : (r: Result<Context<N, M>, Fault>)
    decreases fuel, 2 + |actions|
    ensures r.Ok? ==> r.value.nodeName == ctx.nodeName
    ensures r.Ok? ==> |ctx.queue| <= |r.value.queue| && r.value.queue[..|ctx.queue|] == ctx.queue
    ensures r.Err? ==> r.error == UnknownNode || r.error == TooDeep
    ensures Syncs(actions) == 0 ==> r.Ok?
  {
    if |actions| == 0 then Ok(ctx)
    else
      var next :- Apply(nodes, fuel, ctx, actions[0]);
      Run(nodes, fuel, next, actions[1..])
  }

  function Apply<N, M>(nodes: map<N, Handler<N, M>>, fuel: nat, ctx: Context<N, M>, a: Action<N, M>)
    : (r: Result<Context<N, M>, Fault>)
    decreases fuel, 1
    ensures r.Ok? ==> r.value.nodeName == ctx.nodeName && r.value.counter == (if a.Ready? then ctx.counter else Inc(ctx.counter))
    ensures r.Ok? ==> |ctx.queue| <= |r.value.queue| && r.value.queue[..|ctx.queue|] == ctx.queue
    ensures r.Err? ==> a.Sync? && (r.error == UnknownNode || r.error == TooDeep)
  {
    match a
    case Post(msg) => Ok(Boardcast(ctx, msg))
    case Call(node, msg, cb) => Ok(AsyncCall(ctx, node, msg, cb))
    case Ready(no, result) => Ok(AsyncReady(ctx, no, result))
    case Sync(node, msg) =>
      var out :- SyncCall(nodes, fuel, ctx, node, msg);
      Ok(out.0)
  }

  /** `sync_call(node, msg)`: count up and run the target's handler at once,
      in a context that carries the caller's name and a copy of the new count
      and shares the queue and the ready results. The target must be
      registered (`UnknownNode` is the panic of the map index); the caller
      keeps its own count, whatever the target posted. */
  function SyncCall<N, M>(nodes: map<N, Handler<N, M>>, fuel: nat, ctx: Context<N, M>, node: N, msg: M)
    : (r: Result<(Context<N, M>, HandleResult<M>), Fault>)
    decreases fuel, 0
    ensures node !in nodes ==> r == Err(UnknownNode)
    ensures node in nodes && fuel == 0 ==> r == Err(TooDeep)
    ensures r.Ok? ==>
              var c := Inc(ctx.counter);
              var reaction := nodes[node](ctx.nodeName, Point(node), Header(c, false, None, msg));
              var inner := Run(nodes, fuel - 1, Context(ctx.nodeName, c, ctx.queue, ctx.ready), reaction.actions);
              inner.Ok? && r.value.1 == reaction.result &&
              r.value.0 == Context(ctx.nodeName, c, inner.value.queue, inner.value.ready)
    ensures r.Ok? ==> |ctx.queue| <= |r.value.0.queue| && r.value.0.queue[..|ctx.queue|] == ctx.queue
    ensures r.Err? ==> r.error == UnknownNode || r.error == TooDeep
  {
    if node !in nodes then Err(UnknownNode)
    else if fuel == 0 then Err(TooDeep)
    else
      var c := Inc(ctx.counter);
      var reaction := nodes[node](ctx.nodeName, Point(node), Header(c, false, None, msg));
      var inner :- Run(nodes, fuel - 1, Context(ctx.nodeName, c, ctx.queue, ctx.ready), reaction.actions);
      Ok((Context(ctx.nodeName, c, inner.queue, inner.ready), reaction.result))
  }

  /** The calls that post a message: `boardcast` and `async_call`. */
  function Posts<N, M>(actions: seq<Action<N, M>>): nat
    decreases |actions|
  {
    if |actions| == 0 then 0 else (if actions[0].Post? || actions[0].Call? then 1 else 0) + Posts(actions[1..])
  }

  /** The `sync_call`s among the calls. */
  function Syncs<N, M>(actions: seq<Action<N, M>>): nat
    decreases |actions|
  {
    if |actions| == 0 then 0 else (if actions[0].Sync? then 1 else 0) + Syncs(actions[1..])
  }

  /** The items of `q` from `start` on were posted by `name`, numbered on
      from `counter`: the `k`-th carries `counter + k + 1`, wrapping at 2^32. */
  ghost predicate NumberedFrom<N, M>(q: seq<Item<N, M>>, start: nat, counter: int, name: N) {
    forall j :: start <= j < |q| ==>
      q[j].message.no == (counter + (j - start) + 1) % 0x1_0000_0000 && q[j].from == name
  }

  lemma ModShift(a: int, x: nat)
    ensures (a % 0x1_0000_0000 + x) % 0x1_0000_0000 == (a + x) % 0x1_0000_0000
  {
  }

  /** Sequence numbers are per context: without a `sync_call`, a handler's
      posts are numbered on from its context's own count, one apiece. */
  lemma {:induction false} RunSeqs<N, M>(nodes: map<N, Handler<N, M>>, fuel: nat, ctx: Context<N, M>,
                                         actions: seq<Action<N, M>>)
    requires Syncs(actions) == 0
    ensures Run(nodes, fuel, ctx, actions).Ok?
    ensures var r := Run(nodes, fuel, ctx, actions).value;
            |r.queue| == |ctx.queue| + Posts(actions) &&
            NumberedFrom(r.queue, |ctx.queue|, ctx.counter, ctx.nodeName)
    decreases |actions|
  {
    hide SyncCall;
    if |actions| > 0 {
      var next := Apply(nodes, fuel, ctx, actions[0]).value;
      var rest := actions[1..];
      RunSeqs(nodes, fuel, next, rest);
      var r := Run(nodes, fuel, ctx, actions).value;
      assert r == Run(nodes, fuel, next, rest).value;
      if actions[0].Ready? {
        assert Posts(actions) == Posts(rest);
        assert next.queue == ctx.queue;
      } else {
        var n := |ctx.queue|;
        assert Posts(actions) == Posts(rest) + 1;
        assert next.counter == (ctx.counter + 1) % 0x1_0000_0000;
        assert |next.queue| == n + 1 && next.queue[n].message.no == next.counter && next.queue[n].from == ctx.nodeName;
        assert r.queue[..n + 1] == next.queue;
        NumberedStep(r.queue, n, ctx.counter, ctx.nodeName, next.queue[n]);
      }
    }
  }

  /** One item numbered `counter + 1`, followed by items numbered on from it. */
  lemma NumberedStep<N, M>(q: seq<Item<N, M>>, n: nat, counter: int, name: N, first: Item<N, M>)
    requires n < |q| && q[n] == first
    requires first.message.no == (counter + 1) % 0x1_0000_0000 && first.from == name
    requires NumberedFrom(q, n + 1, (counter + 1) % 0x1_0000_0000, name)
    ensures NumberedFrom(q, n, counter, name)
  {
    forall j | n < j < |q|
      ensures q[j].message.no == (counter + (j - n) + 1) % 0x1_0000_0000
    {
      ModShift(counter + 1, j - n);
    }
  }

  /** A handler's own count moves on by one for every call but `async_ready`,
      however many messages the targets of its `sync_call`s posted. */
  lemma {:induction false} RunCounter<N, M>(nodes: map<N, Handler<N, M>>, fuel: nat, ctx: Context<N, M>,
                                            actions: seq<Action<N, M>>)
    requires Run(nodes, fuel, ctx, actions).Ok?
    ensures Run(nodes, fuel, ctx, actions).value.counter == (ctx.counter + Posts(actions) + Syncs(actions)) % 0x1_0000_0000
    decreases |actions|
  {
    if |actions| > 0 {
      var next := Apply(nodes, fuel, ctx, actions[0]).value;
      RunCounter(nodes, fuel, next, actions[1..]);
      if !actions[0].Ready? {
        ModShift(ctx.counter + 1, Posts(actions[1..]) + Syncs(actions[1..]));
      }
    }
  }

  /** Every context starts from the scheduler's count, which never moves from
      0, so two nodes posting while handling the same broadcast both use 1. */
  lemma SeqNumbersRepeat<N, M>(a: N, b: N, m: M)
    ensures Boardcast(Context(a, 0, [], map[]), m).queue[0].message.no ==
            Boardcast(Context(b, 0, [], map[]), m).queue[0].message.no == 1
  {
  }

  /** A node that posts, calls a node that posts, and posts again sends two
      messages under one sequence number: the target counts on from the
      caller's count, which the caller then counts on from as well. */
  lemma SyncRepeatsNumber<N, M>(a: N, b: N, m: M, fuel: nat)
    requires fuel > 0
    ensures var nodes := map[b := (f: N, t: MessageTo<N>, h: Header<M>) => Reaction(Discard, [Post(m)])];
            var r := Run(nodes, fuel, Context(a, 0, [], map[]), [Post(m), Sync(b, m), Post(m)]);
            r.Ok? && |r.value.queue| == 3 &&
            r.value.queue[0].message.no == 1 &&
            r.value.queue[1].message.no == r.value.queue[2].message.no == 3 &&
            r.value.queue[1].from == r.value.queue[2].from == a
  {
    var nodes := map[b := (f: N, t: MessageTo<N>, h: Header<M>) => Reaction(Discard, [Post(m)])];
    var c0 := Context(a, 0, [], map[]);
    var c1 := Boardcast(c0, m);
    var inner := Boardcast(Context(a, 2, c1.queue, c1.ready), m);
    assert Run(nodes, fuel - 1, Context(a, 2, c1.queue, c1.ready), [Post(m)]) == Ok(inner);
    var c2 := Context(a, 2, inner.queue, inner.ready);
    assert SyncCall(nodes, fuel, c1, b, m) == Ok((c2, Discard));
    var c3 := Boardcast(c2, m);
    assert Run(nodes, fuel, c2, [Post(m)]) == Ok(c3);
    assert Run(nodes, fuel, c1, [Sync(b, m), Post(m)]) == Ok(c3);
  }

  /** Messages a node posts while answering a synchronous call, however
      deeply nested, are sent in the caller's name. */
  lemma {:induction false} SyncCallPostsAsCaller<N, M>(nodes: map<N, Handler<N, M>>, fuel: nat, ctx: Context<N, M>,
                                                       node: N, msg: M)
    requires SyncCall(nodes, fuel, ctx, node, msg).Ok?
    ensures var r := SyncCall(nodes, fuel, ctx, node, msg).value.0;
            forall j :: |ctx.queue| <= j < |r.queue| ==> r.queue[j].from == ctx.nodeName
    decreases fuel, 0
  {
    var c := Inc(ctx.counter);
    var reaction := nodes[node](ctx.nodeName, Point(node), Header(c, false, None, msg));
    RunPostsAsCaller(nodes, fuel - 1, Context(ctx.nodeName, c, ctx.queue, ctx.ready), reaction.actions);
  }

  /** Everything a handler's calls put in the queue is sent in its name. */
  lemma {:induction false} RunPostsAsCaller<N, M>(nodes: map<N, Handler<N, M>>, fuel: nat, ctx: Context<N, M>,
                                                  actions: seq<Action<N, M>>)
    requires Run(nodes, fuel, ctx, actions).Ok?
    ensures var r := Run(nodes, fuel, ctx, actions).value;
            forall j :: |ctx.queue| <= j < |r.queue| ==> r.queue[j].from == ctx.nodeName
    decreases fuel, 1 + |actions|
  {
    if |actions| > 0 {
      var next := Apply(nodes, fuel, ctx, actions[0]).value;
      if actions[0].Sync? {
        SyncCallPostsAsCaller(nodes, fuel, ctx, actions[0].node, actions[0].msg);
      }
      RunPostsAsCaller(nodes, fuel, next, actions[1..]);
    }
  }

  /** `Scheduler`: registered nodes, the queue being drained, the queue being
      filled, its own counter, and the ready results. */
  datatype Scheduler<!N, !M> = Scheduler(
    nodes: map<N, Handler<N, M>>,
    current: seq<Item<N, M>>,
    next: seq<Item<N, M>>,
    counter: u32,
    ready: map<u32, M>)

  /** `Scheduler::new`: one `Lifecycle::Init` broadcast from the scheduler,
      sequence 0, waiting in the current queue. */
  function New<N, M>(schedulerName: N, init: M): (r: Scheduler<N, M>)
    ensures |r.current| == 1 && r.next == [] && r.nodes == map[] && r.ready == map[]
    ensures r.current[0] == Item(schedulerName, Broadcast, Header(0, false, None, init), None)
    ensures r.counter == 0
  {
    Scheduler(map[], [Item(schedulerName, Broadcast, Header(0, false, None, init), None)], [], 0, map[])
  }

  /** `register_node`: keyed by name, so a second node of the same name replaces the first. */
  function RegisterNode<N, M>(s: Scheduler<N, M>, name: N, h: Handler<N, M>): (r: Scheduler<N, M>)
    ensures r.nodes.Keys == s.nodes.Keys + {name} && r.nodes[name] == h
    ensures forall n :: n in s.nodes && n != name ==> r.nodes[n] == s.nodes[n]
    ensures r.current == s.current && r.next == s.next && r.ready == s.ready && r.counter == s.counter
  {
    s.(nodes := s.nodes[name := h])
  }

  /** The reasons a round panics: a message to an unregistered node, a
      broadcast answered with a reply to its callback or with Pending, and a
      cycle of synchronous calls deeper than the stack. */
  datatype Fault = UnknownNode | BroadcastCallback | BroadcastPending | TooDeep

  /** The filling queue and ready results while one round is dispatched. */
  datatype Round<N, M> = Round(queue: seq<Item<N, M>>, ready: map<u32, M>, invoked: seq<(CallbackId, M)>)

  /** `order` lists every registered node exactly once (the hash map's order). */
  predicate IsOrder<N>(order: seq<N>, names: set<N>) {
    (forall i :: 0 <= i < |order| ==> order[i] in names) &&
    (forall n :: n in names ==> n in order) &&
    (forall i, j :: 0 <= i < j < |order| ==> order[i] != order[j])
  }

  /** A broadcast handler's answer the scheduler cannot take: a pending
      result, or a reply while the item still holds a callback. */
  predicate Refuses<N, M>(res: HandleResult<M>, it: Item<N, M>) {
    res.Pending? || (res.Finish? && it.callback.Some?)
  }

  /** A broadcast handled by the nodes `order` in turn. A reply is an error when
      the item has a callback; a pending answer always is. A handler's own
      calls run before its answer is looked at. */
  function DispatchBroadcast<N, M>(nodes: map<N, Handler<N, M>>, fuel: nat, counter: u32, order: seq<N>,
                                   it: Item<N, M>, rd: Round<N, M>): (r: Result<Round<N, M>, Fault>)
    requires forall i :: 0 <= i < |order| ==> order[i] in nodes
    decreases |order|
    ensures (exists i :: 0 <= i < |order| && Refuses(nodes[order[i]](it.from, it.to, it.message).result, it)) ==> r.Err?
    ensures r.Err? ==> (exists i :: 0 <= i < |order| && Refuses(nodes[order[i]](it.from, it.to, it.message).result, it)) ||
                       r.error == UnknownNode || r.error == TooDeep
    ensures (forall i :: 0 <= i < |order| ==> Syncs(nodes[order[i]](it.from, it.to, it.message).actions) == 0) ==>
              (r.Err? <==> exists i :: 0 <= i < |order| && Refuses(nodes[order[i]](it.from, it.to, it.message).result, it))
    ensures r.Ok? ==> r.value.invoked == rd.invoked
    ensures r.Ok? ==> |rd.queue| <= |r.value.queue| && r.value.queue[..|rd.queue|] == rd.queue
  {
    if |order| == 0 then Ok(rd)
    else
      var reaction := nodes[order[0]](it.from, it.to, it.message);
      var ctx :- Run(nodes, fuel, Context(order[0], counter, rd.queue, rd.ready), reaction.actions);
      match reaction.result
      case Pending => Err(BroadcastPending)
      case Finish(_) =>
        if it.callback.Some? then Err(BroadcastCallback)
        else DispatchBroadcast(nodes, fuel, counter, order[1..], it, Round(ctx.queue, ctx.ready, rd.invoked))
      case Discard =>
        DispatchBroadcast(nodes, fuel, counter, order[1..], it, Round(ctx.queue, ctx.ready, rd.invoked))
  }

  /** A callback's body: the context calls it makes when run with a reply.
      It runs in the context it captured, that of the node that made the
      `async_call`, whose count is taken as the call's own number. */
  type Callbacks<!N, !M> = (CallbackId, M) -> seq<Action<N, M>>

  /** The handler of a point item, and the callback its reply runs, make no
      `sync_call`. */
  predicate Quiet<N, M>(nodes: map<N, Handler<N, M>>, callbacks: Callbacks<N, M>, node: N, it: Item<N, M>)
    requires node in nodes
  {
    var reaction := nodes[node](it.from, it.to, it.message);
    Syncs(reaction.actions) == 0 &&
    (reaction.result.Finish? && it.callback.Some? ==> Syncs(callbacks(it.callback.value, reaction.result.reply)) == 0)
  }

  /** A message to one node. A reply runs the callback, if any, exactly once,
      after the handler's own calls; a dropped message drops its callback; a
      pending one goes back in the queue, after what the handler posted, with
      its sequence number, body and callback, picking up (and removing) any
      result made ready for it. */
  function DispatchPoint<N, M>(nodes: map<N, Handler<N, M>>, callbacks: Callbacks<N, M>, fuel: nat, counter: u32,
                               node: N, it: Item<N, M>, rd: Round<N, M>): (r: Result<Round<N, M>, Fault>)
    ensures node !in nodes ==> r == Err(UnknownNode)
    ensures node in nodes && Quiet(nodes, callbacks, node, it) ==> r.Ok?
    ensures r.Err? ==> r.error == UnknownNode || r.error == TooDeep
  {
    if node !in nodes then Err(UnknownNode)
    else
      var reaction := nodes[node](it.from, it.to, it.message);
      var ctx :- Run(nodes, fuel, Context(node, counter, rd.queue, rd.ready), reaction.actions);
      match reaction.result
      case Finish(e) =>
        if it.callback.Some? then
          var after :- Run(nodes, fuel, Context(it.from, it.message.no, ctx.queue, ctx.ready), callbacks(it.callback.value, e));
          Ok(Round(after.queue, after.ready, rd.invoked + [(it.callback.value, e)]))
        else Ok(Round(ctx.queue, ctx.ready, rd.invoked))
      case Pending =>
        var res := if it.message.no in ctx.ready then Some(ctx.ready[it.message.no]) else None;
        var again := Item(it.from, it.to, Header(it.message.no, res.None?, res, it.message.body), it.callback);
        Ok(Round(ctx.queue + [again], ctx.ready - {it.message.no}, rd.invoked))
      case Discard =>
        Ok(Round(ctx.queue, ctx.ready, rd.invoked))
  }

  /** What handling a point message does to the callbacks and the queue. A
      reply runs the callback's calls after the handler's; everything queued
      after the handler's own posts goes out in the name of the item's sender. */
  lemma DispatchPointOutcome<N, M>(nodes: map<N, Handler<N, M>>, callbacks: Callbacks<N, M>, fuel: nat, counter: u32,
                                   node: N, it: Item<N, M>, rd: Round<N, M>)
    requires node in nodes
    requires DispatchPoint(nodes, callbacks, fuel, counter, node, it, rd).Ok?
    ensures var reaction := nodes[node](it.from, it.to, it.message);
            var handled := Run(nodes, fuel, Context(node, counter, rd.queue, rd.ready), reaction.actions);
            handled.Ok? &&
            var ctx := handled.value;
            var r := DispatchPoint(nodes, callbacks, fuel, counter, node, it, rd).value;
            (reaction.result.Finish? && it.callback.Some? ==>
               r.invoked == rd.invoked + [(it.callback.value, reaction.result.reply)] &&
               var after := Run(nodes, fuel, Context(it.from, it.message.no, ctx.queue, ctx.ready),
                                callbacks(it.callback.value, reaction.result.reply));
               after.Ok? && r.queue == after.value.queue && r.ready == after.value.ready) &&
            (!(reaction.result.Finish? && it.callback.Some?) ==> r.invoked == rd.invoked) &&
            (reaction.result.Discard? || (reaction.result.Finish? && it.callback.None?) ==> r.queue == ctx.queue) &&
            (reaction.result.Pending? ==>
               |r.queue| == |ctx.queue| + 1 && r.queue[..|ctx.queue|] == ctx.queue &&
               var again := r.queue[|ctx.queue|];
               again.from == it.from && again.to == it.to && again.callback == it.callback &&
               again.message.no == it.message.no && again.message.body == it.message.body &&
               (again.message.isPending <==> it.message.no !in ctx.ready) &&
               (it.message.no in ctx.ready ==> again.message.readyResult == Some(ctx.ready[it.message.no])) &&
               it.message.no !in r.ready) &&
            |ctx.queue| <= |r.queue| && r.queue[..|ctx.queue|] == ctx.queue &&
            forall j :: |ctx.queue| <= j < |r.queue| ==> r.queue[j].from == it.from
  {
    var reaction := nodes[node](it.from, it.to, it.message);
    var ctx := Run(nodes, fuel, Context(node, counter, rd.queue, rd.ready), reaction.actions).value;
    if reaction.result.Finish? && it.callback.Some? {
      RunPostsAsCaller(nodes, fuel, Context(it.from, it.message.no, ctx.queue, ctx.ready),
                       callbacks(it.callback.value, reaction.result.reply));
    }
  }

  /** The boot page's case: a node answers without any `sync_call`, but the
      callback its reply runs makes one to a node nobody registered, and the
      round panics. */
  lemma CallbackCanPanic<N, M>(sender: N, target: N, router: N, m: M, fuel: nat)
    requires router != target
    ensures var nodes := map[target := (f: N, t: MessageTo<N>, h: Header<M>) => Reaction(Finish(m), [])];
            var callbacks := (c: CallbackId, e: M) => [Sync(router, m)];
            var it := Item(sender, Point(target), Header(1, false, None, m), Some(0));
            Syncs(nodes[target](it.from, it.to, it.message).actions) == 0 &&
            DispatchPoint(nodes, callbacks, fuel, 0, target, it, Round([], map[], [])) == Err(UnknownNode)
  {
    var nodes := map[target := (f: N, t: MessageTo<N>, h: Header<M>) => Reaction(Finish(m), [])];
    var callbacks := (c: CallbackId, e: M) => [Sync(router, m)];
    var it := Item(sender, Point(target), Header(1, false, None, m), Some(0));
    var ctx := Context(target, 0, [], map[]);
    assert Run(nodes, fuel, ctx, []) == Ok(ctx);
    var cb := Context(sender, 1, [], map[]);
    assert SyncCall(nodes, fuel, cb, router, m) == Err(UnknownNode);
    assert Apply(nodes, fuel, cb, Sync(router, m)) == Err(UnknownNode);
    assert Run(nodes, fuel, cb, [Sync(router, m)]) == Err(UnknownNode);
  }

  /** One item, to every node or to one: a point message to an unknown node
      panics, one to a known node whose handler and callback make no
      `sync_call` does not, a broadcast that some node refuses does, and the
      queue only grows. */
  function Dispatch<N, M>(s: Scheduler<N, M>, callbacks: Callbacks<N, M>, fuel: nat, order: seq<N>, it: Item<N, M>,
                          rd: Round<N, M>): (r: Result<Round<N, M>, Fault>)
    requires IsOrder(order, s.nodes.Keys)
    ensures it.to.Point? && it.to.node !in s.nodes ==> r == Err(UnknownNode)
    ensures it.to.Point? && it.to.node in s.nodes && Quiet(s.nodes, callbacks, it.to.node, it) ==> r.Ok?
    ensures it.to.Broadcast? && (exists n :: n in s.nodes && Refuses(s.nodes[n](it.from, it.to, it.message).result, it)) ==>
              r.Err?
    ensures r.Ok? ==> |rd.queue| <= |r.value.queue| && r.value.queue[..|rd.queue|] == rd.queue
  {
    match it.to
    case Broadcast => DispatchBroadcast(s.nodes, fuel, s.counter, order, it, rd)
    case Point(node) => DispatchPoint(s.nodes, callbacks, fuel, s.counter, node, it, rd)
  }

  /** The `drain(..)` loop over the items from `i` on. A round of point
      messages to known nodes whose handlers and callbacks make no
      `sync_call` never panics. */
  function Drain<N, M>(s: Scheduler<N, M>, callbacks: Callbacks<N, M>, fuel: nat, order: seq<N>, i: nat, rd: Round<N, M>)
    : (r: Result<Round<N, M>, Fault>)
    requires IsOrder(order, s.nodes.Keys) && i <= |s.current|
    decreases |s.current| - i
    ensures (forall k :: i <= k < |s.current| ==>
               s.current[k].to.Point? && s.current[k].to.node in s.nodes &&
               Quiet(s.nodes, callbacks, s.current[k].to.node, s.current[k])) ==>
              r.Ok?
  {
    if i == |s.current| then Ok(rd)
    else
      var rd' :- Dispatch(s, callbacks, fuel, order, s.current[i], rd);
      Drain(s, callbacks, fuel, order, i + 1, rd')
  }

  /** `schedule_once`: dispatch every item of the current queue in order, the
      handlers and the callbacks they answer posting into the other queue,
      then swap the two. Returns the callbacks invoked, in order, with the
      replies they were given. */
  function ScheduleOnce<N, M>(s: Scheduler<N, M>, callbacks: Callbacks<N, M>, fuel: nat, order: seq<N>)
    : (r: Result<(Scheduler<N, M>, seq<(CallbackId, M)>), Fault>)
    requires IsOrder(order, s.nodes.Keys)
    ensures r.Ok? ==> r.value.0.next == [] && r.value.0.nodes == s.nodes &&
                      r.value.0.counter == s.counter
  {
    var rd :- Drain(s, callbacks, fuel, order, 0, Round(s.next, s.ready, []));
    Ok((Scheduler(s.nodes, rd.queue, [], s.counter, rd.ready), rd.invoked))
  }

  /** The filling queue only grows during a round: what was queued before is
      kept at the front. */
  lemma {:induction false} DrainKeepsQueue<N, M>(s: Scheduler<N, M>, callbacks: Callbacks<N, M>, fuel: nat, order: seq<N>,
                                                 i: nat, rd: Round<N, M>)
    requires IsOrder(order, s.nodes.Keys) && i <= |s.current|
    requires Drain(s, callbacks, fuel, order, i, rd).Ok?
    ensures var r := Drain(s, callbacks, fuel, order, i, rd).value;
            |rd.queue| <= |r.queue| && r.queue[..|rd.queue|] == rd.queue && |rd.invoked| <= |r.invoked|
    decreases |s.current| - i
  {
    if i < |s.current| {
      var it := s.current[i];
      var rd' := Dispatch(s, callbacks, fuel, order, it, rd).value;
      if it.to.Point? {
        DispatchPointOutcome(s.nodes, callbacks, fuel, s.counter, it.to.node, it, rd);
      }
      DrainKeepsQueue(s, callbacks, fuel, order, i + 1, rd');
    }
  }

  /** A round reports at most one callback invocation per item. */
  lemma {:induction false} DrainInvokesAtMostOncePerItem<N, M>(s: Scheduler<N, M>, callbacks: Callbacks<N, M>, fuel: nat,
                                                               order: seq<N>, i: nat, rd: Round<N, M>)
    requires IsOrder(order, s.nodes.Keys) && i <= |s.current|
    requires Drain(s, callbacks, fuel, order, i, rd).Ok?
    ensures |Drain(s, callbacks, fuel, order, i, rd).value.invoked| <= |rd.invoked| + (|s.current| - i)
    decreases |s.current| - i
  {
    if i < |s.current| {
      var it := s.current[i];
      var rd' := Dispatch(s, callbacks, fuel, order, it, rd).value;
      if it.to.Point? {
        DispatchPointOutcome(s.nodes, callbacks, fuel, s.counter, it.to.node, it, rd);
      }
      DrainInvokesAtMostOncePerItem(s, callbacks, fuel, order, i + 1, rd');
    }
  }

  /** After a round, the new current queue starts with what was waiting in
      the filling queue, and at most one callback was invoked per item drained. */
  lemma ScheduleOnceKeeps<N, M>(s: Scheduler<N, M>, callbacks: Callbacks<N, M>, fuel: nat, order: seq<N>)
    requires IsOrder(order, s.nodes.Keys)
    requires ScheduleOnce(s, callbacks, fuel, order).Ok?
    ensures var r := ScheduleOnce(s, callbacks, fuel, order).value;
            |s.next| <= |r.0.current| && r.0.current[..|s.next|] == s.next &&
            |r.1| <= |s.current|
  {
    DrainKeepsQueue(s, callbacks, fuel, order, 0, Round(s.next, s.ready, []));
    DrainInvokesAtMostOncePerItem(s, callbacks, fuel, order, 0, Round(s.next, s.ready, []));
  }
}

=== FILE: app_v2_scheduler.dfy ===
/** The message scheduler of the second app generation
    (slint-app-v2/src/scheduler.rs): a double-buffered queue of messages sent
    to every app, to one app or to the subscribers of a topic, with optional
    reply callbacks run once or once per handling app. App names are any type
    `N`, topics `T`, messages `M` and handling results `R`; an app is the
    function it uses to handle a message, answering with its result and the
    context calls it made, in order. A callback is named by an identifier and
    its invocations are reported. */
module AppV2Scheduler {
  import opened Wrappers
  import AppScheduler

  datatype MessageTo<N, T> = Broadcast | App(name: N) | Topic(topic: T)

  type CallbackId = nat

  /** `MessageQueueItem`: at most one of `once` and `every` is set by the context calls. */
  datatype Item<N, T, M> = Item(from: N, to: MessageTo<N, T>, message: M,
                                once: Option<CallbackId>, every: Option<CallbackId>)

  /** A call a handler makes on its context. */
  datatype Action<N, T, M> =
    | Send(to: MessageTo<N, T>, msg: M)
    | SendOnce(to: MessageTo<N, T>, msg: M, cb: CallbackId)
    | SendEvery(to: MessageTo<N, T>, msg: M, cb: CallbackId)
    | Subscribe(topic: T)
    | Unsubscribe(topic: T)

  datatype Reaction<N, T, M, R> = Reaction(result: R, actions: seq<Action<N, T, M>>)

  /** `App::handle_message(ctx, from, to, msg)`. */
  type Handler<!N, !T, !M, !R> = (N, MessageTo<N, T>, M) -> Reaction<N, T, M, R>

  /** `ContextImpl`: the handling app's name, the shared filling queue and the
      shared topic subscriptions. */
  datatype Context<N, T, M> = Context(name: N, queue: seq<Item<N, T, M>>, subs: map<T, set<N>>)

  /** `send_message`, `send_message_with_reply_once` and
      `send_message_with_reply`: queue the message with the matching callback. */
  function Send<N, T, M>(ctx: Context<N, T, M>, to: MessageTo<N, T>, msg: M,
                         once: Option<CallbackId>, every: Option<CallbackId>): (r: Context<N, T, M>)
    ensures r.name == ctx.name && r.subs == ctx.subs
    ensures |r.queue| == |ctx.queue| + 1 && r.queue[..|ctx.queue|] == ctx.queue
    ensures var it := r.queue[|ctx.queue|];
            it.from == ctx.name && it.to == to && it.message == msg && it.once == once && it.every == every
  {
    ctx.(queue := ctx.queue + [Item(ctx.name, to, msg, once, every)])
  }

  /** `subscribe_topic_message`: add this app to the topic's set, making the set if needed. */
  function SubscribeTopic<N, T, M>(ctx: Context<N, T, M>, t: T): (r: Context<N, T, M>)
    ensures r.subs.Keys == ctx.subs.Keys + {t}
    ensures r.subs[t] == (if t in ctx.subs then ctx.subs[t] else {}) + {ctx.name}
    ensures forall u :: u in ctx.subs && u != t ==> r.subs[u] == ctx.subs[u]
    ensures r.queue == ctx.queue && r.name == ctx.name
  {
    ctx.(subs := ctx.subs[t := (if t in ctx.subs then ctx.subs[t] else {}) + {ctx.name}])
  }

  /** `unsubscribe_topic_message`: remove this app from the topic's set if the
      topic has one; no set is ever made. */
  function UnsubscribeTopic<N, T, M>(ctx: Context<N, T, M>, t: T): (r: Context<N, T, M>)
    ensures r.subs.Keys == ctx.subs.Keys
    ensures t in ctx.subs ==> r.subs[t] == ctx.subs[t] - {ctx.name}
    ensures forall u :: u in ctx.subs && u != t ==> r.subs[u] == ctx.subs[u]
    ensures r.queue == ctx.queue && r.name == ctx.name
  {
    if t in ctx.subs then ctx.(subs := ctx.subs[t := ctx.subs[t] - {ctx.name}]) else ctx
  }

  /** Subscribing twice is subscribing once; unsubscribing afterwards leaves
      the app out of the topic. */
  lemma SubscribeIdempotent<N, T, M>(ctx: Context<N, T, M>, t: T)
    ensures SubscribeTopic(SubscribeTopic(ctx, t), t) == SubscribeTopic(ctx, t)
    ensures ctx.name !in UnsubscribeTopic(SubscribeTopic(ctx, t), t).subs[t]
  {
  }

  /** One context call: a send queues exactly one message and leaves the
      subscriptions alone; a subscription change queues nothing. */
  function Apply<N, T, M>(ctx: Context<N, T, M>, a: Action<N, T, M>): (r: Context<N, T, M>)
    ensures r.name == ctx.name && |ctx.queue| <= |r.queue| && r.queue[..|ctx.queue|] == ctx.queue
    ensures !(a.Subscribe? || a.Unsubscribe?) ==> r.subs == ctx.subs && |r.queue| == |ctx.queue| + 1
    ensures a.Subscribe? || a.Unsubscribe? ==> r.queue == ctx.queue
  {
    match a
    case Send(to, msg) => Send(ctx, to, msg, None, None)
    case SendOnce(to, msg, cb) => Send(ctx, to, msg, Some(cb), None)
    case SendEvery(to, msg, cb) => Send(ctx, to, msg, None, Some(cb))
    case Subscribe(t) => SubscribeTopic(ctx, t)
    case Unsubscribe(t) => UnsubscribeTopic(ctx, t)
  }

  /** The context calls of one handler, in order. */
  function Run<N, T, M>(ctx: Context<N, T, M>, actions: seq<Action<N, T, M>>): (r: Context<N, T, M>)
    decreases |actions|
    ensures r.name == ctx.name
    ensures |ctx.queue| <= |r.queue| && r.queue[..|ctx.queue|] == ctx.queue
  {
    if |actions| == 0 then ctx else Run(Apply(ctx, actions[0]), actions[1..])
  }

  /** Handlers that touch no subscription leave the subscriptions alone. */
  predicate Touches<N, T, M>(actions: seq<Action<N, T, M>>) {
    exists i :: 0 <= i < |actions| && (actions[i].Subscribe? || actions[i].Unsubscribe?)
  }

  lemma {:induction false} RunKeepsSubs<N, T, M>(ctx: Context<N, T, M>, actions: seq<Action<N, T, M>>)
    requires !Touches(actions)
    ensures Run(ctx, actions).subs == ctx.subs
    decreases |actions|
  {
    if |actions| > 0 {
      assert !Touches(actions[1..]) by {
        forall i | 0 <= i < |actions[1..]|
          ensures !(actions[1..][i].Subscribe? || actions[1..][i].Unsubscribe?)
        {
          assert actions[1..][i] == actions[i + 1];
        }
      }
      RunKeepsSubs(Apply(ctx, actions[0]), actions[1..]);
    }
  }

  datatype Scheduler<!N, !T, !M, !R> = Scheduler(
    apps: map<N, Handler<N, T, M, R>>,
    current: seq<Item<N, T, M>>,
    next: seq<Item<N, T, M>>,
    subs: map<T, set<N>>)

  /** `Scheduler::new`: one `Lifecycle::Init` broadcast from the scheduler,
      without callbacks, waiting in the current queue. */
  function New<N, T, M, R>(schedulerName: N, init: M): (r: Scheduler<N, T, M, R>)
    ensures r.current == [Item(schedulerName, Broadcast, init, None, None)]
    ensures r.next == [] && r.apps == map[] && r.subs == map[]
  {
    Scheduler(map[], [Item(schedulerName, Broadcast, init, None, None)], [], map[])
  }

  /** `register_app`: keyed by name, so a second app of the same name replaces the first. */
  function RegisterApp<N, T, M, R>(s: Scheduler<N, T, M, R>, name: N, h: Handler<N, T, M, R>)
    : (r: Scheduler<N, T, M, R>)
    ensures r.apps.Keys == s.apps.Keys + {name} && r.apps[name] == h
    ensures forall n :: n in s.apps && n != name ==> r.apps[n] == s.apps[n]
    ensures r.current == s.current && r.next == s.next && r.subs == s.subs
  {
    s.(apps := s.apps[name := h])
  }

  /** The only panic: a subscriber changing a subscription while the topic's
      set is borrowed for delivery. */
  datatype Fault = AlreadyBorrowed

  /** The filling queue and the subscriptions while a round is dispatched. */
  datatype Shared<N, T, M> = Shared(queue: seq<Item<N, T, M>>, subs: map<T, set<N>>)

  function Registered<N, H>(names: seq<N>, apps: map<N, H>): (r: seq<N>)
    decreases |names|
  {
    if |names| == 0 then []
    else (if names[0] in apps then [names[0]] else []) + Registered(names[1..], apps)
  }

  function Names<N, R>(handled: seq<(N, R)>): (r: seq<N>)
    ensures |r| == |handled| && forall i :: 0 <= i < |r| ==> r[i] == handled[i].0
  {
    if |handled| == 0 then [] else [handled[0].0] + Names(handled[1..])
  }

  /** One message handled by the apps `names` in turn, skipping names with no
      registered app, each in a context of its own name. Returns the apps that
      handled it with their results. While `locked`, changing a subscription panics. */
  function Deliver<N, T, M, R>(apps: map<N, Handler<N, T, M, R>>, names: seq<N>, it: Item<N, T, M>,
                               sh: Shared<N, T, M>, locked: bool)
    : (r: Result<(Shared<N, T, M>, seq<(N, R)>), Fault>)
    decreases |names|
    ensures r.Ok? ==> Names(r.value.1) == Registered(names, apps)
    ensures r.Ok? ==> |sh.queue| <= |r.value.0.queue| && r.value.0.queue[..|sh.queue|] == sh.queue
  {
    if |names| == 0 then Ok((sh, []))
    else if names[0] !in apps then Deliver(apps, names[1..], it, sh, locked)
    else
      var reaction := apps[names[0]](it.from, it.to, it.message);
      if locked && Touches(reaction.actions) then Err(AlreadyBorrowed)
      else
        var ctx := Run(Context(names[0], sh.queue, sh.subs), reaction.actions);
        var rest :- Deliver(apps, names[1..], it, Shared(ctx.queue, ctx.subs), locked);
        Ok((rest.0, [(names[0], reaction.result)] + rest.1))
  }

  /** Who receives a message: every app, the named app if registered, or the
      topic's subscribers (none if the topic has no set). `walk` is the order
      the hash map of apps and the hash sets of subscribers are iterated in:
      the lemmas below ask only that it list the set they use, each member
      exactly once. */
  function Recipients<N, T, M, R>(apps: map<N, Handler<N, T, M, R>>, subs: map<T, set<N>>, walk: set<N> -> seq<N>,
                                  to: MessageTo<N, T>): (r: seq<N>)
    ensures to.App? ==> r == [to.name]
    ensures to.Topic? && to.topic !in subs ==> r == []
    ensures to.Broadcast? && AppScheduler.IsOrder(walk(apps.Keys), apps.Keys) ==> AppScheduler.IsOrder(r, apps.Keys)
    ensures to.Topic? && to.topic in subs && AppScheduler.IsOrder(walk(subs[to.topic]), subs[to.topic]) ==>
              AppScheduler.IsOrder(r, subs[to.topic])
  {
    match to
    case Broadcast => walk(apps.Keys)
    case App(n) => [n]
    case Topic(t) => if t in subs then walk(subs[t]) else []
  }

  /** A callback invocation: the callback, the app that handled the message and its result. */
  datatype Invocation<N, R> = Invocation(cb: CallbackId, app: N, result: R)

  /** The callbacks run for a message handled by `handled`, in order: the
      run-once callback with the first app, the every-time one with each. */
  function Callbacks<N, R>(once: Option<CallbackId>, every: Option<CallbackId>, handled: seq<(N, R)>)
    : (r: seq<Invocation<N, R>>)
    decreases |handled|
  {
    if |handled| == 0 then []
    else
      (if once.Some? then [Invocation(once.value, handled[0].0, handled[0].1)] else []) +
      (if every.Some? then [Invocation(every.value, handled[0].0, handled[0].1)] else []) +
      Callbacks(None, every, handled[1..])
  }

  /** The run-once callback runs at most once, and only if someone handled
      the message; the every-time one runs once per handling app. */
  lemma {:induction false} CallbacksCount<N, R>(once: Option<CallbackId>, every: Option<CallbackId>, handled: seq<(N, R)>)
    ensures |Callbacks(once, every, handled)| ==
            (if once.Some? && |handled| > 0 then 1 else 0) + (if every.Some? then |handled| else 0)
    decreases |handled|
  {
    if |handled| > 0 {
      CallbacksCount(None, every, handled[1..]);
    }
  }

  /** One message delivered to its recipients; a topic's set stays borrowed meanwhile. */
  function Dispatch<N, T, M, R>(apps: map<N, Handler<N, T, M, R>>, walk: set<N> -> seq<N>, it: Item<N, T, M>,
                                sh: Shared<N, T, M>): (r: Result<(Shared<N, T, M>, seq<(N, R)>), Fault>)
    ensures !it.to.Topic? ==> r.Ok?
    ensures r.Ok? ==> Names(r.value.1) == Registered(Recipients(apps, sh.subs, walk, it.to), apps)
    ensures r.Ok? ==> |sh.queue| <= |r.value.0.queue| && r.value.0.queue[..|sh.queue|] == sh.queue
  {
    NeverBorrowed(apps, Recipients(apps, sh.subs, walk, it.to), it, sh);
    Deliver(apps, Recipients(apps, sh.subs, walk, it.to), it, sh, it.to.Topic?)
  }

  /** A broadcast is handled by every registered app, each once. */
  lemma {:induction false} RegisteredAll<N, H>(names: seq<N>, apps: map<N, H>)
    requires forall i :: 0 <= i < |names| ==> names[i] in apps
    ensures Registered(names, apps) == names
    decreases |names|
  {
    if |names| > 0 {
      RegisteredAll(names[1..], apps);
    }
  }

  lemma BroadcastReachesAll<N, T, M, R>(apps: map<N, Handler<N, T, M, R>>, walk: set<N> -> seq<N>,
                                        it: Item<N, T, M>, sh: Shared<N, T, M>)
    requires AppScheduler.IsOrder(walk(apps.Keys), apps.Keys) && it.to.Broadcast?
    ensures Dispatch(apps, walk, it, sh).Ok?
    ensures var names := Names(Dispatch(apps, walk, it, sh).value.1);
            AppScheduler.IsOrder(names, apps.Keys)
  {
    NeverBorrowed(apps, walk(apps.Keys), it, sh);
    RegisteredAll(walk(apps.Keys), apps);
  }

  /** Every app that handled a message was registered and among the names tried. */
  lemma {:induction false} RegisteredWithin<N, H>(names: seq<N>, apps: map<N, H>)
    ensures forall i :: 0 <= i < |Registered(names, apps)| ==>
              Registered(names, apps)[i] in apps && Registered(names, apps)[i] in names
    decreases |names|
  {
    if |names| > 0 {
      RegisteredWithin(names[1..], apps);
    }
  }

  /** A topic message reaches only the topic's subscribers. */
  lemma TopicReachesSubscribers<N, T, M, R>(apps: map<N, Handler<N, T, M, R>>, walk: set<N> -> seq<N>,
                                            it: Item<N, T, M>, sh: Shared<N, T, M>)
    requires it.to.Topic? && it.to.topic in sh.subs ==> AppScheduler.IsOrder(walk(sh.subs[it.to.topic]), sh.subs[it.to.topic])
    requires it.to.Topic? && Dispatch(apps, walk, it, sh).Ok?
    ensures var handled := Dispatch(apps, walk, it, sh).value.1;
            forall i :: 0 <= i < |handled| ==>
              it.to.topic in sh.subs && handled[i].0 in sh.subs[it.to.topic] && handled[i].0 in apps
  {
    hide Deliver, Run, Apply, Touches;
    var handled := Dispatch(apps, walk, it, sh).value.1;
    if it.to.topic in sh.subs {
      var names := walk(sh.subs[it.to.topic]);
      RegisteredWithin(names, apps);
      assert Names(handled) == Registered(names, apps);
    }
  }

  /** A message to an app nobody registered is skipped: nothing is queued
      and no callback runs. */
  lemma UnknownAppSkipped<N, T, M, R>(apps: map<N, Handler<N, T, M, R>>, walk: set<N> -> seq<N>,
                                      it: Item<N, T, M>, sh: Shared<N, T, M>)
    requires it.to.App? && it.to.name !in apps
    ensures Dispatch(apps, walk, it, sh) == Ok((sh, []))
    ensures Callbacks(it.once, it.every, Dispatch(apps, walk, it, sh).value.1) == []
  {
    var names := [it.to.name];
    assert Recipients(apps, sh.subs, walk, it.to) == names && names[1..] == [];
    assert Deliver(apps, names, it, sh, false) == Deliver(apps, [], it, sh, false);
  }

  /** The `drain(..)` loop over the items from `i` on, collecting the callback invocations. */
  function Drain<N, T, M, R>(s: Scheduler<N, T, M, R>, walk: set<N> -> seq<N>, i: nat, sh: Shared<N, T, M>, invoked: seq<Invocation<N, R>>)
    : (r: Result<(Shared<N, T, M>, seq<Invocation<N, R>>), Fault>)
    requires i <= |s.current|
    decreases |s.current| - i
    ensures r.Ok? ==> |sh.queue| <= |r.value.0.queue| && r.value.0.queue[..|sh.queue|] == sh.queue
  {
    if i == |s.current| then Ok((sh, invoked))
    else
      var it := s.current[i];
      var out :- Dispatch(s.apps, walk, it, sh);
      Drain(s, walk, i + 1, out.0, invoked + Callbacks(it.once, it.every, out.1))
  }

  /** `schedule_once`: dispatch every item of the current queue in order, the
      handlers posting into the other queue, then swap the two. Returns the
      callbacks run, in order. */
  function ScheduleOnce<N, T, M, R>(s: Scheduler<N, T, M, R>, walk: set<N> -> seq<N>)
    : (r: Result<(Scheduler<N, T, M, R>, seq<Invocation<N, R>>), Fault>)
    ensures r.Ok? ==> r.value.0.next == [] && r.value.0.apps == s.apps
    ensures r.Ok? ==> |s.next| <= |r.value.0.current| && r.value.0.current[..|s.next|] == s.next
  {
    var out :- Drain(s, walk, 0, Shared(s.next, s.subs), []);
    Ok((Scheduler(s.apps, out.0.queue, [], out.0.subs), out.1))
  }

  /** A round in which no topic message is delivered cannot panic. */
  lemma {:induction false} DrainWithoutTopics<N, T, M, R>(s: Scheduler<N, T, M, R>, walk: set<N> -> seq<N>, i: nat, sh: Shared<N, T, M>,
                                                          invoked: seq<Invocation<N, R>>)
    requires i <= |s.current|
    requires forall k :: i <= k < |s.current| ==> !s.current[k].to.Topic?
    ensures Drain(s, walk, i, sh, invoked).Ok?
    decreases |s.current| - i
  {
    if i < |s.current| {
      var it := s.current[i];
      var out := Dispatch(s.apps, walk, it, sh);
      NeverBorrowed(s.apps, Recipients(s.apps, sh.subs, walk, it.to), it, sh);
      DrainWithoutTopics(s, walk, i + 1, out.value.0, invoked + Callbacks(it.once, it.every, out.value.1));
    }
  }

  /** Delivery outside a topic never fails. */
  lemma {:induction false} NeverBorrowed<N, T, M, R>(apps: map<N, Handler<N, T, M, R>>, names: seq<N>,
                                                     it: Item<N, T, M>, sh: Shared<N, T, M>)
    ensures Deliver(apps, names, it, sh, false).Ok?
    decreases |names|
  {
    if |names| > 0 {
      if names[0] !in apps {
        NeverBorrowed(apps, names[1..], it, sh);
      } else {
        var reaction := apps[names[0]](it.from, it.to, it.message);
        var ctx := Run(Context(names[0], sh.queue, sh.subs), reaction.actions);
        NeverBorrowed(apps, names[1..], it, Shared(ctx.queue, ctx.subs));
      }
    }
  }
}

=== FILE: boot_storage.dfy ===
/** The raw-storage helpers of the first clock app (slint-app/src/storage.rs
    and slint-app/src/storage/system.rs): a `u32` kept as four big-endian
    bytes under a name, and the boot counter stored that way. The raw storage
    is a map from names to byte strings in which reads of the names of
    `readFails` and writes of the names of `writeFails` fail. */
module BootStorage {
  import opened Wrappers
  import opened Ints

  datatype Raw = Raw(data: map<string, seq<u8>>, readFails: set<string>, writeFails: set<string>)

  datatype RawError = RawError

  /** The four bytes of `value`, most significant first: `(value >> 24) as u8`,
      `(value >> 16) as u8`, `(value >> 8) as u8` and `value as u8`. */
  function BigEndian(value: u32): (r: seq<u8>)
    ensures |r| == 4
  {
    [AsU8(value / 0x100_0000), AsU8(value / 0x1_0000), AsU8(value / 0x100), AsU8(value)]
  }

  /** The four bytes read back: the shifted bytes occupy disjoint bits, so
      their bitwise or is their sum. */
  function FromBigEndian(b: seq<u8>): (r: u32)
    requires |b| >= 4
  {
    b[0] as int * 0x100_0000 + b[1] as int * 0x1_0000 + b[2] as int * 0x100 + b[3] as int
  }

  lemma BigEndianRoundTrip(value: u32)
    ensures FromBigEndian(BigEndian(value)) == value
  {
    var b := BigEndian(value);
    assert b[0] == value / 0x100_0000;
    assert b[1] == (value / 0x1_0000) % 0x100;
    assert b[2] == (value / 0x100) % 0x100;
    assert b[3] == value % 0x100;
    assert value / 0x1_0000 == b[0] as int * 0x100 + b[1] as int;
    assert value / 0x100 == (value / 0x1_0000) * 0x100 + b[2];
  }

  /** Each four bytes is the encoding of exactly one value. */
  lemma FromBigEndianRoundTrip(b: seq<u8>)
    requires |b| == 4
    ensures BigEndian(FromBigEndian(b)) == b
  {
    var v := FromBigEndian(b);
    assert v / 0x100_0000 == b[0];
    assert v / 0x1_0000 == b[0] as int * 0x100 + b[1] as int;
    assert v / 0x100 == (b[0] as int * 0x100 + b[1] as int) * 0x100 + b[2] as int;
    assert BigEndian(v)[1] == b[1];
    assert BigEndian(v)[2] == b[2];
  }

  /** `set_u32`: store the four bytes, failing as the raw write fails. */
  function SetU32(st: Raw, name: string, value: u32): (r: Result<Raw, RawError>)
    ensures r.Err? <==> name in st.writeFails
    ensures r.Ok? ==> r.value.data == st.data[name := BigEndian(value)] &&
                      r.value.readFails == st.readFails && r.value.writeFails == st.writeFails
  {
    if name in st.writeFails then Err(RawError)
    else Ok(st.(data := st.data[name := BigEndian(value)]))
  }

  /** What `get_u32` can come to: a failed raw read, a panic on a stored
      value shorter than four bytes, or the value (`None` when absent). */
  datatype ReadU32 = ReadFailed | ShortPanic | Read(value: Option<u32>)

  /** `get_u32`: absent is `None`; otherwise the first four bytes, big-endian. */
  function GetU32(st: Raw, name: string): (r: ReadU32)
    ensures r.ReadFailed? <==> name in st.readFails
    ensures r == Read(None) <==> name !in st.readFails && name !in st.data
    ensures r.ShortPanic? <==> name !in st.readFails && name in st.data && |st.data[name]| < 4
  {
    if name in st.readFails then ReadFailed
    else if name !in st.data then Read(None)
    else if |st.data[name]| < 4 then ShortPanic
    else Read(Some(FromBigEndian(st.data[name])))
  }

  /** A value set reads back, and other names read as before. */
  lemma SetThenGetU32(st: Raw, name: string, value: u32, other: string)
    requires SetU32(st, name, value).Ok?
    ensures name !in st.readFails ==> GetU32(SetU32(st, name, value).value, name) == Read(Some(value))
    ensures other != name ==> GetU32(SetU32(st, name, value).value, other) == GetU32(st, other)
  {
    BigEndianRoundTrip(value);
  }

  const BootCountKey := "boot_count"

  /** `get_boot_count`: 0 when absent; a storage error or a short value
      panics (`None`). */
  function GetBootCount(st: Raw): (r: Option<u32>)
    ensures r.None? <==> GetU32(st, BootCountKey).ReadFailed? || GetU32(st, BootCountKey).ShortPanic?
    ensures BootCountKey !in st.readFails && BootCountKey !in st.data ==> r == Some(0)
  {
    match GetU32(st, BootCountKey)
    case ReadFailed => None
    case ShortPanic => None
    case Read(v) => Some(v.GetOr(0))
  }

  /** `set_boot_count`: a storage error panics (`None`). */
  function SetBootCount(st: Raw, value: u32): (r: Option<Raw>)
    ensures r.Some? <==> BootCountKey !in st.writeFails
    ensures r.Some? ==> BootCountKey in r.value.data && |r.value.data[BootCountKey]| == 4
  {
    match SetU32(st, BootCountKey, value)
    case Ok(st') => Some(st')
    case Err(_) => None
  }

  /** The boot count set is the boot count read. */
  lemma BootCountRoundTrip(st: Raw, value: u32)
    requires SetBootCount(st, value).Some? && BootCountKey !in st.readFails
    ensures GetBootCount(SetBootCount(st, value).value) == Some(value)
  {
    SetThenGetU32(st, BootCountKey, value, BootCountKey);
  }
}

=== FILE: clock_glyphs.dfy ===
/** The dot-matrix clock face (slint-app/src/app/clock.rs and the older copy
    slint-app/src/clock.rs, whose glyph code and redraw loop are the same):
    digit glyphs unpacked from a table of 7-bit rows, the colon glyph, and the
    per-second redraw that repaints only the digits that changed. */
module ClockGlyphs {
  import opened Wrappers
  import opened Ints

  /** `DIGIST_SHAPE_DATA`: for each digit, ten rows of seven dots, the
      leftmost dot in bit 6. */
  const ShapeData: seq<seq<u8>> := [
    [28, 54, 99, 99, 99, 99, 99, 99, 54, 28],
    [12, 60, 12, 12, 12, 12, 12, 12, 12, 127],
    [62, 99, 3, 6, 12, 24, 48, 96, 99, 127],
    [127, 3, 6, 12, 28, 6, 3, 3, 99, 62],
    [6, 14, 30, 54, 102, 127, 6, 6, 6, 15],
    [127, 96, 96, 126, 3, 3, 3, 3, 99, 62],
    [6, 24, 48, 96, 110, 99, 99, 99, 99, 62],
    [127, 99, 6, 6, 12, 12, 24, 24, 24, 24],
    [62, 99, 99, 99, 62, 99, 99, 99, 99, 62],
    [62, 99, 99, 99, 59, 3, 3, 6, 12, 48]
  ]

  /** Bit `k` of `b`: `b & (1 << k) != 0`. */
  function Bit(b: nat, k: nat): bool
    decreases k
  {
    if k == 0 then b % 2 == 1 else Bit(b / 2, k - 1)
  }

  /** The low `n` bits of `b`, most significant first. */
  function Bits(b: nat, n: nat): (r: seq<bool>)
    ensures |r| == n
  {
    if n == 0 then [] else Bits(b / 2, n - 1) + [b % 2 == 1]
  }

  /** A row of dots read back as a number, leftmost dot most significant. */
  function RowValue(row: seq<bool>): nat
    decreases |row|
  {
    if |row| == 0 then 0 else 2 * RowValue(row[..|row| - 1]) + (if row[|row| - 1] then 1 else 0)
  }

  function Pow2(n: nat): (r: nat)
    ensures r >= 1
  {
    if n == 0 then 1 else 2 * Pow2(n - 1)
  }

  lemma {:induction false} BitsAt(b: nat, n: nat, j: nat)
    requires j < n
    ensures Bits(b, n)[j] == Bit(b, n - 1 - j)
    decreases n
  {
    if j < n - 1 {
      BitsAt(b / 2, n - 1, j);
    }
  }

  /** Reading the bits of a number below 2^n back gives the number. */
  lemma {:induction false} BitsRoundTrip(b: nat, n: nat)
    requires b < Pow2(n)
    ensures RowValue(Bits(b, n)) == b
    decreases n
  {
    if n > 0 {
      BitsRoundTrip(b / 2, n - 1);
      assert Bits(b, n)[..n - 1] == Bits(b / 2, n - 1);
    }
  }

  lemma TableBelow128()
    ensures forall d, i :: 0 <= d < 10 && 0 <= i < 10 ==> ShapeData[d][i] < 128
  {
  }

  /** Ten rows of seven dots, dot `j` of row `i` being bit `6 - j` of the
      table byte for the digit. */
  predicate IsGlyph(rows: seq<seq<bool>>, digit: u8)
    requires digit < 10
  {
    |rows| == 10 &&
    forall i :: 0 <= i < 10 ==>
      (|rows[i]| == 7 && forall j :: 0 <= j < 7 ==> rows[i][j] == Bit(ShapeData[digit][i], 6 - j))
  }

  /** `get_digist_shape(digit)`: ten rows of seven dots, dot `j` of row `i`
      set when bit `6 - j` of the table byte is; a digit of 10 or more
      indexes past the table and panics. */
  method DigitShape(digit: u8) returns (r: Option<seq<seq<bool>>>)
    ensures r.Some? <==> digit < 10
    ensures r.Some? ==> IsGlyph(r.value, digit)
  {
    if digit >= 10 {
      return None;
    }
    var shape := ShapeData[digit];
    var ret: seq<seq<bool>> := seq(10, _ => seq(7, _ => false));
    for i := 0 to 10
      invariant |ret| == 10 && forall k :: 0 <= k < 10 ==> |ret[k]| == 7
      invariant forall k, j :: 0 <= k < i && 0 <= j < 7 ==> ret[k][j] == Bit(shape[k], 6 - j)
    {
      for j := 0 to 7
        invariant |ret| == 10 && forall k :: 0 <= k < 10 ==> |ret[k]| == 7
        invariant forall k, l :: 0 <= k < i && 0 <= l < 7 ==> ret[k][l] == Bit(shape[k], 6 - l)
        invariant forall l :: 0 <= l < j ==> ret[i][l] == Bit(shape[i], 6 - l)
      {
        ret := ret[i := ret[i][j := Bit(shape[i], 6 - j)]];
      }
    }
    return Some(ret);
  }

  /** Every table byte fits in seven bits, so each glyph row re-encodes its byte. */
  lemma GlyphRowsReencode(digit: u8, rows: seq<seq<bool>>)
    requires digit < 10 && IsGlyph(rows, digit)
    ensures forall i :: 0 <= i < 10 ==> RowValue(rows[i]) == ShapeData[digit][i]
  {
    TableBelow128();
    forall i | 0 <= i < 10 ensures RowValue(rows[i]) == ShapeData[digit][i] {
      forall j | 0 <= j < 7 ensures rows[i][j] == Bits(ShapeData[digit][i], 7)[j] {
        BitsAt(ShapeData[digit][i], 7, j);
      }
      assert rows[i] == Bits(ShapeData[digit][i], 7);
      BitsRoundTrip(ShapeData[digit][i], 7);
    }
  }

  /** `get_colon_shape()`: ten rows of four dots, lit in rows 2, 3, 6 and 7
      at columns 1 and 2. */
  method ColonShape() returns (r: seq<seq<bool>>)
    ensures |r| == 10 && forall i :: 0 <= i < 10 ==> |r[i]| == 4
    ensures forall i, j :: 0 <= i < 10 && 0 <= j < 4 ==>
              (r[i][j] <==> i in {2, 3, 6, 7} && j in {1, 2})
  {
    var ret: seq<seq<bool>> := seq(10, _ => seq(4, _ => false));
    for i := 0 to 10
      invariant |ret| == 10 && forall k :: 0 <= k < 10 ==> |ret[k]| == 4
      invariant forall k, j :: 0 <= k < i && 0 <= j < 4 ==>
                  ret[k][j] == ((k == 2 || k == 3 || k == 6 || k == 7) && (j == 1 || j == 2))
    {
      for j := 0 to 4
        invariant |ret| == 10 && forall k :: 0 <= k < 10 ==> |ret[k]| == 4
        invariant forall k, l :: 0 <= k < i && 0 <= l < 4 ==>
                    ret[k][l] == ((k == 2 || k == 3 || k == 6 || k == 7) && (l == 1 || l == 2))
        invariant forall l :: 0 <= l < j ==>
                    ret[i][l] == ((i == 2 || i == 3 || i == 6 || i == 7) && (l == 1 || l == 2))
      {
        ret := ret[i := ret[i][j := (i == 2 || i == 3 || i == 6 || i == 7) && (j == 1 || j == 2)]];
      }
    }
    return ret;
  }

  /** The colon is two 2x2 squares of dots, one above the other, and the
      glyph is symmetric left to right. */
  lemma ColonShapeSquares(r: seq<seq<bool>>)
    requires |r| == 10 && forall i :: 0 <= i < 10 ==> |r[i]| == 4
    requires forall i, j :: 0 <= i < 10 && 0 <= j < 4 ==> (r[i][j] <==> i in {2, 3, 6, 7} && j in {1, 2})
    ensures forall i, j :: 0 <= i < 10 && 0 <= j < 4 ==> r[i][j] == r[i][3 - j]
    ensures |set i, j | 0 <= i < 10 && 0 <= j < 4 && r[i][j] :: (i, j)| == 8
  {
    var lit := set i, j | 0 <= i < 10 && 0 <= j < 4 && r[i][j] :: (i, j);
    assert lit == {(2, 1), (2, 2), (3, 1), (3, 2), (6, 1), (6, 2), (7, 1), (7, 2)};
  }

  /** `[h / 10, h % 10, m / 10, m % 10, s / 10, s % 10]`. */
  function Digits(h: nat, m: nat, s: nat): (r: seq<u8>)
    requires h < 24 && m < 60 && s < 60
    ensures |r| == 6 && forall i :: 0 <= i < 6 ==> r[i] < 10
    ensures 10 * r[0] + r[1] == h && 10 * r[2] + r[3] == m && 10 * r[4] + r[5] == s
  {
    [h / 10, h % 10, m / 10, m % 10, s / 10, s % 10]
  }

  /** `ClockAppState`: the digits on screen, and whether the face is drawn. */
  datatype ClockState = ClockState(cache: seq<u8>, hasInit: bool)

  function InitialState(): ClockState {
    ClockState([0, 0, 0, 0, 0, 0], false)
  }

  /** What one tick paints; digit `i` sits 38 pixels right of digit `i - 1`. */
  datatype DrawOp = ClearScreen | ClearDigit(x: int) | DrawDigit(x: int, digit: u8)

  const DigitWidth := 38

  /** Full repaint of the first `n` positions. */
  function DrawAll(digits: seq<u8>, n: nat): (r: seq<DrawOp>)
    requires |digits| == 6 && n <= 6
  {
    if n == 0 then [] else DrawAll(digits, n - 1) + [DrawDigit(DigitWidth * (n - 1), digits[n - 1])]
  }

  /** What repainting position `i` takes: nothing when its digit is unchanged. */
  function Repaint1(cache: seq<u8>, digits: seq<u8>, i: nat): (r: seq<DrawOp>)
    requires |cache| == 6 && |digits| == 6 && i < 6
  {
    if cache[i] != digits[i] then [ClearDigit(DigitWidth * i), DrawDigit(DigitWidth * i, digits[i])] else []
  }

  /** Repaint of the first `n` positions. */
  function Redraw(cache: seq<u8>, digits: seq<u8>, n: nat): (r: seq<DrawOp>)
    requires |cache| == 6 && |digits| == 6 && n <= 6
  {
    if n == 0 then [] else Redraw(cache, digits, n - 1) + Repaint1(cache, digits, n - 1)
  }

  /** One pass of `app_loop` at time `h:m:s`: the first pass clears the screen
      and draws all six digits; later passes repaint exactly the changed ones. */
  method Tick(st: ClockState, h: nat, m: nat, s: nat) returns (st': ClockState, ops: seq<DrawOp>)
    requires h < 24 && m < 60 && s < 60 && |st.cache| == 6
    ensures st' == ClockState(Digits(h, m, s), true)
    ensures !st.hasInit ==> ops == [ClearScreen] + DrawAll(Digits(h, m, s), 6)
    ensures st.hasInit ==> ops == Redraw(st.cache, Digits(h, m, s), 6)
  {
    var now := Digits(h, m, s);
    if !st.hasInit {
      ops := FirstDraw(now);
      st' := ClockState(now, true);
    } else {
      var cache;
      cache, ops := Repaint(st.cache, now);
      st' := ClockState(cache, true);
    }
  }

  method FirstDraw(now: seq<u8>) returns (ops: seq<DrawOp>)
    requires |now| == 6
    ensures ops == [ClearScreen] + DrawAll(now, 6)
  {
    ops := [ClearScreen];
    for i := 0 to 6
      invariant ops == [ClearScreen] + DrawAll(now, i)
    {
      ops := ops + [DrawDigit(DigitWidth * i, now[i])];
    }
  }

  /** The `else` branch: overwrite and repaint each changed position in turn. */
  method Repaint(cache0: seq<u8>, now: seq<u8>) returns (cache: seq<u8>, ops: seq<DrawOp>)
    requires |cache0| == 6 && |now| == 6
    ensures cache == now
    ensures ops == Redraw(cache0, now, 6)
  {
    cache := cache0;
    ops := [];
    for i := 0 to 6
      invariant |cache| == 6
      invariant forall k :: 0 <= k < i ==> cache[k] == now[k]
      invariant forall k :: i <= k < 6 ==> cache[k] == cache0[k]
      invariant ops == Redraw(cache0, now, i)
    {
      if cache[i] != now[i] {
        cache := cache[i := now[i]];
        ops := ops + [ClearDigit(DigitWidth * i), DrawDigit(DigitWidth * i, now[i])];
      }
    }
  }

  /** A digit is repainted exactly when it changed, with its new value. */
  lemma {:induction false} RedrawChanged(cache: seq<u8>, digits: seq<u8>, n: nat, x: int, d: u8)
    requires |cache| == 6 && |digits| == 6 && n <= 6
    ensures DrawDigit(x, d) in Redraw(cache, digits, n) <==>
              exists k :: 0 <= k < n && x == DigitWidth * k && cache[k] != digits[k] && d == digits[k]
  {
    if n > 0 {
      RedrawChanged(cache, digits, n - 1, x, d);
    }
  }

  /** A second tick in the same second paints nothing. */
  lemma {:induction false} RedrawSame(digits: seq<u8>, n: nat)
    requires |digits| == 6 && n <= 6
    ensures Redraw(digits, digits, n) == []
  {
    if n > 0 {
      RedrawSame(digits, n - 1);
    }
  }
}

=== FILE: graphics.dfy ===
/** Drawing on a physical display: points, rectangles and the four draw
    operations of an `embedded_graphics` draw target, with colours of any type. */
module Graphics {
  datatype Point = Point(x: int, y: int)

  datatype Size = Size(width: nat, height: nat)

  datatype Rect = Rect(topLeft: Point, size: Size)

  datatype Pixel<C> = Pixel(p: Point, color: C)

  /** `draw_iter`, `fill_contiguous`, `fill_solid` and `clear`. */
  datatype DrawOp<C> =
    | DrawIter(pixels: seq<Pixel<C>>)
    | FillContiguous(area: Rect, colors: seq<C>)
    | FillSolid(area: Rect, color: C)
    | Clear(color: C)

  function Add(a: Point, b: Point): Point {
    Point(a.x + b.x, a.y + b.y)
  }

  function Neg(a: Point): Point {
    Point(-a.x, -a.y)
  }

  /** Every point an operation names: its pixels, or its rectangle's corner. */
  function Anchors<C>(op: DrawOp<C>): seq<Point> {
    match op
    case DrawIter(px) => seq(|px|, i requires 0 <= i < |px| => px[i].p)
    case FillContiguous(area, _) => [area.topLeft]
    case FillSolid(area, _) => [area.topLeft]
    case Clear(_) => []
  }

  /** The same operation with its colours converted (`c.into()`). */
  function MapColor<A, B>(op: DrawOp<A>, conv: A -> B): (r: DrawOp<B>)
    ensures Anchors(r) == Anchors(op)
  {
    match op
    case DrawIter(px) => DrawIter(seq(|px|, i requires 0 <= i < |px| => Pixel(px[i].p, conv(px[i].color))))
    case FillContiguous(area, cs) => FillContiguous(area, seq(|cs|, i requires 0 <= i < |cs| => conv(cs[i])))
    case FillSolid(area, c) => FillSolid(area, conv(c))
    case Clear(c) => Clear(conv(c))
  }

  /** The active flags of a list of logical displays, in order. */
  function ActiveFlags<D>(displays: seq<D>, isActive: D -> bool): (r: seq<bool>)
    ensures |r| == |displays| && forall i :: 0 <= i < |r| ==> r[i] == isActive(displays[i])
  {
    seq(|displays|, i requires 0 <= i < |displays| => isActive(displays[i]))
  }

  /** At most one of `active` is set, and then it is the one at `index`;
      `index` is -1 when none is. */
  predicate OneActive(active: seq<bool>, index: int) {
    -1 <= index < |active| &&
    forall i :: 0 <= i < |active| ==> (active[i] <==> i == index)
  }
}

/** The display multiplexer (libs/embedded-graphics-mux/src/lib.rs): logical
    displays the size of the physical one, of which at most one, the active
    one, reaches the physical display. The physical display is represented by
    the operations it receives. */
module GraphicsMux {
  import opened Wrappers
  import opened Graphics

  datatype LogicalDisplay = LogicalDisplay(isActive: bool, id: nat, size: Size)

  datatype DisplayMux = DisplayMux(physicalSize: Size, displays: seq<LogicalDisplay>, active: int)

  /** Each display knows its position, and at most the indexed one is active. */
  ghost predicate Valid(m: DisplayMux) {
    OneActive(ActiveFlags(m.displays, (d: LogicalDisplay) => d.isActive), m.active) &&
    (forall i :: 0 <= i < |m.displays| ==> m.displays[i].id == i && m.displays[i].size == m.physicalSize)
  }

  /** `DisplayMux::new`: no displays, none active. */
  function New(physicalSize: Size): (r: DisplayMux)
    ensures Valid(r) && r.displays == [] && r.active == -1 && r.physicalSize == physicalSize
  {
    DisplayMux(physicalSize, [], -1)
  }

  /** `LogicalDisplay::new`: the next id, inactive, the physical size. */
  function AddDisplay(m: DisplayMux): (r: (DisplayMux, nat))
    ensures r.1 == |m.displays| && |r.0.displays| == |m.displays| + 1
    ensures r.0.displays[..|m.displays|] == m.displays && r.0.active == m.active && r.0.physicalSize == m.physicalSize
    ensures !r.0.displays[r.1].isActive && r.0.displays[r.1].size == m.physicalSize
    ensures Valid(m) ==> Valid(r.0)
  {
    var d := LogicalDisplay(false, |m.displays|, m.physicalSize);
    var r := m.(displays := m.displays + [d]);
    assert forall i :: 0 <= i < |m.displays| ==> r.displays[i] == m.displays[i];
    (r, d.id)
  }

  /** `switch_to`: out of range panics (`None`); otherwise the previously
      active display is switched off and the target on. */
  function SwitchTo(m: DisplayMux, index: int): (r: Option<DisplayMux>)
    requires Valid(m)
    ensures r.Some? <==> 0 <= index < |m.displays|
    ensures r.Some? ==> Valid(r.value) && r.value.active == index && r.value.displays[index].isActive
    ensures r.Some? ==> |r.value.displays| == |m.displays| && r.value.physicalSize == m.physicalSize
  {
    if index < 0 || index >= |m.displays| then None
    else
      var off := if m.active != -1 then m.displays[m.active := m.displays[m.active].(isActive := false)] else m.displays;
      var on := off[index := off[index].(isActive := true)];
      var r := m.(displays := on, active := index);
      assert forall i :: 0 <= i < |on| ==> (on[i].isActive <==> i == index);
      Some(r)
  }

  /** Switching to the display already active changes nothing. */
  lemma SwitchToSame(m: DisplayMux)
    requires Valid(m) && m.active != -1
    ensures SwitchTo(m, m.active) == Some(m)
  {
    assert SwitchTo(m, m.active).value.displays == m.displays;
  }

  /** A draw operation on display `id`: nothing reaches the physical display
      while it is inactive; otherwise the operation goes through with its
      colours converted and its coordinates unchanged. */
  function Draw<A, B>(m: DisplayMux, id: nat, op: DrawOp<A>, conv: A -> B): (r: seq<DrawOp<B>>)
    requires id < |m.displays|
    ensures !m.displays[id].isActive ==> r == []
    ensures m.displays[id].isActive ==> |r| == 1 && Anchors(r[0]) == Anchors(op)
  {
    if !m.displays[id].isActive then [] else [MapColor(op, conv)]
  }

  /** Only the display at the active index draws. */
  lemma OnlyActiveDraws<A, B>(m: DisplayMux, id: nat, op: DrawOp<A>, conv: A -> B)
    requires Valid(m) && id < |m.displays|
    ensures Draw(m, id, op, conv) != [] <==> id == m.active
  {
    assert ActiveFlags(m.displays, (d: LogicalDisplay) => d.isActive)[id] == m.displays[id].isActive;
  }
}

/** The display group (libs/embedded-graphics-group/src/lib.rs): logical
    displays each covering an area of the physical one, drawing translated
    by the area's corner; at most one, the active one, reaches the physical
    display. */
module GraphicsGroup {
  import opened Wrappers
  import opened Graphics

  datatype LogicalDisplay = LogicalDisplay(area: Rect, isActive: bool, id: nat)

  datatype DisplayGroup = DisplayGroup(physicalSize: Size, displays: seq<LogicalDisplay>, active: int)

  ghost predicate Valid(g: DisplayGroup) {
    OneActive(ActiveFlags(g.displays, (d: LogicalDisplay) => d.isActive), g.active) &&
    (forall i :: 0 <= i < |g.displays| ==> g.displays[i].id == i)
  }

  /** `DisplayGroup::new`: no displays, none active. */
  function New(physicalSize: Size): (r: DisplayGroup)
    ensures Valid(r) && r.displays == [] && r.active == -1 && r.physicalSize == physicalSize
  {
    DisplayGroup(physicalSize, [], -1)
  }

  /** `LogicalDisplay::new`: the next id, inactive, with its area. */
  function AddDisplay(g: DisplayGroup, area: Rect): (r: (DisplayGroup, nat))
    ensures r.1 == |g.displays| && |r.0.displays| == |g.displays| + 1
    ensures r.0.displays[..|g.displays|] == g.displays && r.0.active == g.active && r.0.physicalSize == g.physicalSize
    ensures !r.0.displays[r.1].isActive && r.0.displays[r.1].area == area
    ensures Valid(g) ==> Valid(r.0)
  {
    var d := LogicalDisplay(area, false, |g.displays|);
    var r := g.(displays := g.displays + [d]);
    assert forall i :: 0 <= i < |g.displays| ==> r.displays[i] == g.displays[i];
    (r, d.id)
  }

  /** `size()` of a logical display is its area's size. */
  function DisplaySize(d: LogicalDisplay): Size {
    d.area.size
  }

  /** `switch_to_logical_display`: as the multiplexer's switch. */
  function SwitchTo(g: DisplayGroup, index: int): (r: Option<DisplayGroup>)
    requires Valid(g)
    ensures r.Some? <==> 0 <= index < |g.displays|
    ensures r.Some? ==> Valid(r.value) && r.value.active == index && r.value.displays[index].isActive
    ensures r.Some? ==> |r.value.displays| == |g.displays| && r.value.physicalSize == g.physicalSize &&
                        forall i :: 0 <= i < |g.displays| ==> r.value.displays[i].area == g.displays[i].area
  {
    if index < 0 || index >= |g.displays| then None
    else
      var off := if g.active != -1 then g.displays[g.active := g.displays[g.active].(isActive := false)] else g.displays;
      var on := off[index := off[index].(isActive := true)];
      var r := g.(displays := on, active := index);
      assert forall i :: 0 <= i < |on| ==> (on[i].isActive <==> i == index);
      Some(r)
  }

  /** An operation moved by `origin`: pixels and rectangle corners shift,
      rectangle sizes stay, and `clear` is left as it is. */
  function Translate<C>(op: DrawOp<C>, origin: Point): (r: DrawOp<C>)
    ensures r.Clear? <==> op.Clear?
    ensures op.Clear? ==> r == op
    ensures |Anchors(r)| == |Anchors(op)| &&
            forall i :: 0 <= i < |Anchors(op)| ==> Anchors(r)[i] == Add(Anchors(op)[i], origin)
    ensures op.FillSolid? ==> r.FillSolid? && r.area.size == op.area.size && r.color == op.color
    ensures op.FillContiguous? ==> r.FillContiguous? && r.area.size == op.area.size && r.colors == op.colors
  {
    match op
    case DrawIter(px) => DrawIter(seq(|px|, i requires 0 <= i < |px| => Pixel(Add(px[i].p, origin), px[i].color)))
    case FillContiguous(area, cs) => FillContiguous(Rect(Add(origin, area.topLeft), area.size), cs)
    case FillSolid(area, c) => FillSolid(Rect(Add(origin, area.topLeft), area.size), c)
    case Clear(c) => Clear(c)
  }

  /** Moving back undoes the move: a translated operation keeps every colour
      and names the same logical points. */
  lemma TranslateInverse<C>(op: DrawOp<C>, origin: Point)
    ensures Translate(Translate(op, origin), Neg(origin)) == op
  {
    match op
    case DrawIter(px) =>
      assert Translate(Translate(op, origin), Neg(origin)).pixels == px;
    case _ =>
  }

  /** A draw operation on display `id`: nothing reaches the physical display
      while it is inactive; otherwise the operation goes through translated
      by the display's corner (`clear` untranslated and unclipped). */
  function Draw<C>(g: DisplayGroup, id: nat, op: DrawOp<C>): (r: seq<DrawOp<C>>)
    requires id < |g.displays|
    ensures !g.displays[id].isActive ==> r == []
    ensures g.displays[id].isActive ==>
              var o := g.displays[id].area.topLeft;
              |r| == 1 && (op.Clear? ==> r[0] == op) && |Anchors(r[0])| == |Anchors(op)| &&
              forall i :: 0 <= i < |Anchors(op)| ==> Anchors(r[0])[i] == Add(Anchors(op)[i], o)
  {
    if !g.displays[id].isActive then [] else [Translate(op, g.displays[id].area.topLeft)]
  }

  /** Only the display at the active index draws. */
  lemma OnlyActiveDraws<C>(g: DisplayGroup, id: nat, op: DrawOp<C>)
    requires Valid(g) && id < |g.displays|
    ensures Draw(g, id, op) != [] <==> id == g.active
  {
    assert ActiveFlags(g.displays, (d: LogicalDisplay) => d.isActive)[id] == g.displays[id].isActive;
  }
}

=== FILE: guitar.dfy ===
/** Guitar fret and capo mapping of the tone library
    (libs/embedded-tone/src/guitar.rs): six strings tuned to absolute pitches,
    a fret on a string, and a capo that shifts every note. */
module Guitar {
  import opened Wrappers
  import opened Ints
  import opened Pitch

  datatype GuitarString = S1 | S2 | S3 | S4 | S5 | S6

  /** `s as usize`: the index of the string's tuning in `base`. */
  function StringIndex(s: GuitarString): (r: nat)
    ensures r < 6 && StringFrom(r + 1) == Some(s)
  {
    match s
    case S1 => 0 case S2 => 1 case S3 => 2 case S4 => 3 case S5 => 4 case S6 => 5
  }

  /** `GuitarString::from(u8)`: strings are numbered 1 to 6; anything else panics. */
  function StringFrom(x: u8): (r: Option<GuitarString>)
    ensures r.Some? <==> 1 <= x <= 6
  {
    match x
    case 1 => Some(S1) case 2 => Some(S2) case 3 => Some(S3)
    case 4 => Some(S4) case 5 => Some(S5) case 6 => Some(S6)
    case _ => None
  }

  lemma StringRoundTrip(x: u8)
    requires 1 <= x <= 6
    ensures StringIndex(StringFrom(x).value) == x - 1
  {
  }

  /** `GuitarNotePitch::to_absulate`: the note index plus the fret in `u8`,
      split into a note (`% 12`) and a number of octaves (`/ 12`) added to the
      base octave. The `u8` sum overflows past 255 and the octave conversion
      panics past 10. */
  function FretPitch(base: AbsolutePitch, fret: u8): (r: Option<AbsolutePitch>)
    ensures r.Some? <==> Key(base) + fret <= 131
    ensures r.Some? ==> Key(r.value) == Key(base) + fret
  {
    var sum := NoteIndex(base.note) + fret;
    if sum > 255 then None
    else
      var o :- OctaveFrom(OctaveIndex(base.octave) + sum / 12);
      var n := NoteFrom(sum % 12).value;
      IndexRoundTrips(sum % 12);
      IndexRoundTrips(OctaveIndex(base.octave) + sum / 12);
      Some(AbsolutePitch(n, o))
  }

  /** A fret is a semitone shift of the open string. */
  lemma FretIsShift(base: AbsolutePitch, fret: u8)
    ensures FretPitch(base, fret) == Add(base, fret)
  {
    if FretPitch(base, fret).Some? {
      KeyInjective(FretPitch(base, fret).value, Add(base, fret).value);
    }
  }

  type Tuning = s: seq<AbsolutePitch> | |s| == 6
    witness [AbsolutePitch(C, O0), AbsolutePitch(C, O0), AbsolutePitch(C, O0),
             AbsolutePitch(C, O0), AbsolutePitch(C, O0), AbsolutePitch(C, O0)]

  datatype Guitar = Guitar(base: Tuning, capoFret: u8)

  /** `Guitar::default()`: standard tuning E4 B3 G3 D3 A2 E2, no capo. */
  function Default(): (r: Guitar)
    ensures r.capoFret == 0 && Key(r.base[0]) == 52
    ensures Key(r.base[5]) + 24 == Key(r.base[0])
    ensures forall i :: 0 <= i < 5 ==>
              Key(r.base[i + 1]) + (if i == 1 then 4 else 5) == Key(r.base[i])
  {
    Guitar([AbsolutePitch(E, O4), AbsolutePitch(B, O3), AbsolutePitch(G, O3),
            AbsolutePitch(D, O3), AbsolutePitch(A, O2), AbsolutePitch(E, O2)], 0)
  }

  /** `set_capo_fret`: only the capo changes. */
  function SetCapoFret(g: Guitar, fret: u8): (r: Guitar)
    ensures r.base == g.base
    ensures GetCapoFret(r) == fret
  {
    g.(capoFret := fret)
  }

  /** `get_capo_fret`: the capo's fret, which is how far every open string
      sounds above its tuning. */
  function GetCapoFret(g: Guitar): (r: u8)
    ensures forall s: GuitarString, d: NoteDuration :: ToAbsoluteNote(g, s, 0, d).Some? ==>
              Key(ToAbsoluteNote(g, s, 0, d).value.pitch) == Key(g.base[StringIndex(s)]) + r
  {
    g.capoFret
  }

  /** `to_absulate_note`: the string's open pitch, shifted by the fret and
      then by the capo; the duration is kept. A capo of at most 255 frets is
      within the range where `add` as written is the intended shift
      (Pitch.AddAgrees). */
  function ToAbsoluteNote(g: Guitar, s: GuitarString, fret: u8, duration: NoteDuration): (r: Option<Note>)
    ensures var k := Key(g.base[StringIndex(s)]) + fret + g.capoFret;
            (r.Some? <==> k <= 131) &&
            (r.Some? ==> Key(r.value.pitch) == k && r.value.duration == duration)
  {
    var p :- FretPitch(g.base[StringIndex(s)], fret);
    var q :- Add(p, g.capoFret);
    Some(Note(q, duration))
  }

  /** Moving the capo up a fret is the same as playing one fret higher. */
  lemma CapoIsFret(g: Guitar, s: GuitarString, fret: u8, duration: NoteDuration)
    requires fret < 255 && g.capoFret < 255
    ensures ToAbsoluteNote(SetCapoFret(g, g.capoFret + 1), s, fret, duration) ==
            ToAbsoluteNote(g, s, fret + 1, duration)
  {
    var a := ToAbsoluteNote(SetCapoFret(g, g.capoFret + 1), s, fret, duration);
    var b := ToAbsoluteNote(g, s, fret + 1, duration);
    if a.Some? {
      KeyInjective(a.value.pitch, b.value.pitch);
    }
  }

  /** The capo shift as written in `add` gives the same note. */
  lemma ToAbsoluteNoteAsWritten(g: Guitar, s: GuitarString, fret: u8, duration: NoteDuration)
    requires FretPitch(g.base[StringIndex(s)], fret).Some?
    ensures var p := FretPitch(g.base[StringIndex(s)], fret).value;
            ToAbsoluteNote(g, s, fret, duration) ==
            (if AddAsWritten(p, g.capoFret).Some? then Some(Note(AddAsWritten(p, g.capoFret).value, duration)) else None)
  {
    AddAgrees(FretPitch(g.base[StringIndex(s)], fret).value, g.capoFret);
  }
}

=== FILE: image_buffer.dfy ===
/** The pixel-buffer draw target (libs/embedded-graphics-slint-image-buf/src/lib.rs):
    an RGB image of `width` × `height` pixels stored row by row, three bytes a
    pixel, drawn into pixel by pixel. */
module ImageBuffer {
  import opened Wrappers
  import opened Ints
  import opened Graphics

  datatype Rgb = Rgb(r: u8, g: u8, b: u8)

  datatype Buffer = Buffer(width: nat, height: nat, bytes: seq<u8>)

  predicate Valid(buf: Buffer) {
    |buf.bytes| == 3 * (buf.width * buf.height)
  }

  /** `size()`: the image's width and height. */
  function SizeOf(buf: Buffer): (r: Size)
    requires Valid(buf)
    ensures 3 * (r.width * r.height) == |buf.bytes|
  {
    Size(buf.width, buf.height)
  }

  predicate InBounds(buf: Buffer, p: Point) {
    0 <= p.x < buf.width && 0 <= p.y < buf.height
  }

  /** The pixel's position in row-major order. */
  function Index(p: Point, width: nat): int {
    p.y * width + p.x
  }

  lemma IndexInRange(buf: Buffer, p: Point)
    requires InBounds(buf, p)
    ensures 0 <= Index(p, buf.width) < buf.width * buf.height
  {
    assert p.y * buf.width + p.x < (p.y + 1) * buf.width;
    assert (p.y + 1) * buf.width <= buf.height * buf.width;
  }

  function Component(c: Rgb, k: nat): u8 {
    if k == 0 then c.r else if k == 1 then c.g else c.b
  }

  /** The colour of the last of `pixels` at position `idx`, if any. */
  function LastAt(pixels: seq<Pixel<Rgb>>, width: nat, idx: int): (r: Option<Rgb>)
    decreases |pixels|
  {
    if |pixels| == 0 then None
    else if Index(pixels[|pixels| - 1].p, width) == idx then Some(pixels[|pixels| - 1].color)
    else LastAt(pixels[..|pixels| - 1], width, idx)
  }

  /** What byte `j` holds after drawing `pixels` over `bytes`: the matching
      component of the last pixel drawn at its position, or the old byte. */
  function Expected(bytes: seq<u8>, pixels: seq<Pixel<Rgb>>, width: nat, j: nat): u8
    requires j < |bytes|
  {
    match LastAt(pixels, width, j / 3)
    case Some(c) => Component(c, j % 3)
    case None => bytes[j]
  }

  /** One pixel's three bytes, at `3 * idx` on. */
  function Put(bytes: seq<u8>, idx: nat, c: Rgb): (r: seq<u8>)
    requires 3 * idx + 2 < |bytes|
    ensures |r| == |bytes|
    ensures forall j :: 0 <= j < |r| ==> r[j] == if j / 3 == idx then Component(c, j % 3) else bytes[j]
  {
    bytes[3 * idx := c.r][3 * idx + 1 := c.g][3 * idx + 2 := c.b]
  }

  /** Whether `draw_iter` can write the pixel at `p`: the index is computed
      in `i32`, where an overflow panics, and cast to `usize`, so a negative
      index, like one past the last pixel, indexes outside the bytes and
      panics. Nothing else is checked: `x` may run past the row's end. */
  predicate Writable(buf: Buffer, p: Point) {
    IsI32(p.y * buf.width) && IsI32(Index(p, buf.width)) &&
    0 <= Index(p, buf.width) < buf.width * buf.height
  }

  /** A pixel inside the image is writable, the image being smaller than
      the `i32` range. */
  lemma InBoundsWritable(buf: Buffer, p: Point)
    requires InBounds(buf, p) && buf.width * buf.height <= 0x8000_0000
    ensures Writable(buf, p)
  {
    IndexInRange(buf, p);
    assert 0 <= p.y * buf.width <= Index(p, buf.width);
  }

  /** `draw_iter`: each pixel in turn writes its red, green and blue to bytes
      `3 * (y * width + x)`, `+1` and `+2`. The draw panics (`None`) exactly
      when some pixel is not writable. Otherwise each byte holds the colour of
      the last pixel drawn at its position, and bytes of positions no pixel
      names are unchanged. */
  method DrawIter(buf: Buffer, pixels: seq<Pixel<Rgb>>) returns (out: Option<Buffer>)
    requires Valid(buf)
    ensures out.Some? <==> forall i :: 0 <= i < |pixels| ==> Writable(buf, pixels[i].p)
    ensures out.Some? ==> Valid(out.value) && out.value.width == buf.width && out.value.height == buf.height
    ensures out.Some? ==>
              forall j :: 0 <= j < |out.value.bytes| ==> out.value.bytes[j] == Expected(buf.bytes, pixels, buf.width, j)
  {
    var bs := buf.bytes;
    for i := 0 to |pixels|
      invariant |bs| == |buf.bytes|
      invariant forall k :: 0 <= k < i ==> Writable(buf, pixels[k].p)
      invariant forall j :: 0 <= j < |bs| ==> bs[j] == Expected(buf.bytes, pixels[..i], buf.width, j)
    {
      var p := pixels[i].p;
      if !Writable(buf, p) {
        return None;
      }
      var idx := Index(p, buf.width);
      bs := Put(bs, idx, pixels[i].color);
      assert pixels[..i + 1][..i] == pixels[..i];
    }
    assert pixels[..|pixels|] == pixels;
    out := Some(Buffer(buf.width, buf.height, bs));
  }

  /** On a 2 x 2 image, the pixel (2, 0) past the first row's end has the
      index of the pixel (0, 1) at the start of the next row, and is written,
      while (0, 2) below the image and (-1, 0) before it cannot be. */
  lemma RowWrap(bytes: seq<u8>)
    ensures !InBounds(Buffer(2, 2, bytes), Point(2, 0)) && Writable(Buffer(2, 2, bytes), Point(2, 0))
    ensures Index(Point(2, 0), 2) == Index(Point(0, 1), 2)
    ensures !Writable(Buffer(2, 2, bytes), Point(0, 2)) && !Writable(Buffer(2, 2, bytes), Point(-1, 0))
  {
    assert Index(Point(0, 1), 2) == 1 * 2 + 0 == 2;
    assert Index(Point(0, 2), 2) == 2 * 2 + 0 == 4;
    assert Index(Point(-1, 0), 2) == 0 * 2 - 1;
  }

  /** So drawing (2, 0) after (0, 1) leaves the colour of (2, 0) at (0, 1). */
  lemma RowWrapOverwrites(c: Rgb, d: Rgb)
    ensures LastAt([Pixel(Point(0, 1), c), Pixel(Point(2, 0), d)], 2, Index(Point(0, 1), 2)) == Some(d)
  {
    assert Index(Point(2, 0), 2) == Index(Point(0, 1), 2);
  }

  /** Of two pixels at the same position, the later one is what remains. */
  lemma {:induction false} LastWriteWins(before: seq<Pixel<Rgb>>, between: seq<Pixel<Rgb>>, p: Point, c: Rgb, width: nat)
    requires forall i :: 0 <= i < |between| ==> Index(between[i].p, width) != Index(p, width)
    ensures LastAt(before + [Pixel(p, c)] + between, width, Index(p, width)) == Some(c)
    decreases |between|
  {
    if |between| == 0 {
      assert (before + [Pixel(p, c)] + between)[|before|] == Pixel(p, c);
    } else {
      var all := before + [Pixel(p, c)] + between;
      var front := between[..|between| - 1];
      assert all[..|all| - 1] == before + [Pixel(p, c)] + front;
      assert all[|all| - 1] == between[|between| - 1];
      LastWriteWins(before, front, p, c, width);
    }
  }

  /** Positions no pixel names keep their bytes. */
  lemma {:induction false} Untouched(pixels: seq<Pixel<Rgb>>, width: nat, idx: int)
    requires forall i :: 0 <= i < |pixels| ==> Index(pixels[i].p, width) != idx
    ensures LastAt(pixels, width, idx) == None
    decreases |pixels|
  {
    if |pixels| > 0 {
      Untouched(pixels[..|pixels| - 1], width, idx);
    }
  }
}

=== FILE: ints.dfy ===
/** Fixed-width integers of the Rust code and its truncating arithmetic. */
module Ints {

  type u8 = x: int | 0 <= x < 0x100
  type u16 = x: int | 0 <= x < 0x1_0000
  type u32 = x: int | 0 <= x < 0x1_0000_0000
  type i32 = x: int | -0x8000_0000 <= x < 0x8000_0000

  predicate IsI32(x: int) {
    -0x8000_0000 <= x < 0x8000_0000
  }

  /** Rust's `/` on signed integers: the quotient rounded toward zero. */
  function TruncDiv(a: int, b: int): (q: int)
    requires b > 0
    ensures a >= 0 ==> q == a / b
    ensures a < 0 ==> q == -((-a) / b)
  {
    if a >= 0 then a / b else -((-a) / b)
  }

  /** Rust's `%` on signed integers: the remainder takes the sign of `a`. */
  function TruncRem(a: int, b: int): (r: int)
    requires b > 0
    ensures a == TruncDiv(a, b) * b + r
    ensures a >= 0 ==> 0 <= r < b
    ensures a < 0 ==> -b < r <= 0
  {
    a - TruncDiv(a, b) * b
  }

  /** `x as u8`: keep the low eight bits of the two's-complement value. */
  function AsU8(x: int): (r: u8)
    ensures 0 <= x < 0x100 ==> r == x
    ensures -0x100 <= x < 0 ==> r == x + 0x100
    ensures (r - x) % 0x100 == 0
  {
    x % 0x100
  }
}

=== FILE: midi_merge.dfy ===
/** The output side of the MIDI merger (slint-app/tools/merge_midi.py, `main`
    from the sort on): order the gathered events by (time, scan number), write
    them as one track with running-status compression, close the track with an
    end-of-track meta event, and patch the track length into the header. */
module MidiMerge {
  import opened Wrappers
  import opened MidiStream
  import opened Vlq
  import opened MidiTrack

  /** The tuple order of `events.sort()` on its first two fields. Scan numbers
      are unique, so the later fields never decide. */
  predicate Precedes(a: Event, b: Event) {
    a.time < b.time || (a.time == b.time && a.no <= b.no)
  }

  predicate SortedByKey(es: seq<Event>) {
    forall i, j :: 0 <= i < j < |es| ==> Precedes(es[i], es[j])
  }

  predicate DistinctNos(es: seq<Event>) {
    forall i, j :: 0 <= i < j < |es| ==> es[i].no != es[j].no
  }

  /** Putting an event in front of an ordered run that it precedes keeps it ordered. */
  lemma ConsSorted(h: Event, rest: seq<Event>)
    requires SortedByKey(rest)
    requires forall k :: 0 <= k < |rest| ==> Precedes(h, rest[k])
    ensures SortedByKey([h] + rest)
  {
    forall i, j | 0 <= i < j < |[h] + rest|
      ensures Precedes(([h] + rest)[i], ([h] + rest)[j])
    {
      if i > 0 {
        assert ([h] + rest)[i] == rest[i - 1];
      }
      assert ([h] + rest)[j] == rest[j - 1];
    }
  }

  /** What precedes every element of `pool` and `e` precedes every element of
      any rearrangement of them. */
  lemma PrecedesAll(h: Event, e: Event, pool: seq<Event>, rest: seq<Event>)
    requires multiset(rest) == multiset(pool) + multiset{e}
    requires Precedes(h, e) && forall k :: 0 <= k < |pool| ==> Precedes(h, pool[k])
    ensures forall k :: 0 <= k < |rest| ==> Precedes(h, rest[k])
  {
    forall k | 0 <= k < |rest|
      ensures Precedes(h, rest[k])
    {
      assert rest[k] in multiset(rest);
      if rest[k] != e {
        assert rest[k] in multiset(pool);
        var j :| 0 <= j < |pool| && pool[j] == rest[k];
      }
    }
  }

  /** Insert one event into an ordered run. */
  function Insert(e: Event, es: seq<Event>): (r: seq<Event>)
    requires SortedByKey(es)
    decreases |es|
    ensures SortedByKey(r)
    ensures multiset(r) == multiset(es) + multiset{e}
  {
    if |es| == 0 then [e]
    else if Precedes(e, es[0]) then
      ConsSorted(e, es);
      [e] + es
    else
      var tail := es[1..];
      assert es == [es[0]] + tail;
      var rest := Insert(e, tail);
      PrecedesAll(es[0], e, tail, rest);
      ConsSorted(es[0], rest);
      [es[0]] + rest
  }

  /** `events.sort()`: an ordered permutation of the gathered events. */
  function SortEvents(es: seq<Event>): (r: seq<Event>)
    decreases |es|
    ensures SortedByKey(r)
    ensures multiset(r) == multiset(es)
  {
    if |es| == 0 then []
    else
      assert es == [es[0]] + es[1..];
      Insert(es[0], SortEvents(es[1..]))
  }

  /** The head of an ordered list precedes every element of it. */
  lemma HeadPrecedes(a: seq<Event>, x: Event)
    requires SortedByKey(a) && x in a
    ensures Precedes(a[0], x)
  {
    var k :| 0 <= k < |a| && a[k] == x;
    if k > 0 {
      assert Precedes(a[0], a[k]);
    }
  }

  /** Two ordered permutations of a list with unique scan numbers start alike. */
  lemma SameHead(a: seq<Event>, b: seq<Event>)
    requires multiset(a) == multiset(b) && |a| > 0
    requires SortedByKey(a) && SortedByKey(b) && DistinctNos(a)
    ensures |b| > 0 && a[0] == b[0]
  {
    assert a[0] in multiset(b);
    assert b[0] in multiset(a);
    HeadPrecedes(a, b[0]);
    HeadPrecedes(b, a[0]);
    var k :| 0 <= k < |a| && a[k] == b[0];
    assert k == 0;
  }

  /** With unique scan numbers there is only one ordered permutation, so the
      model's sort and the tuple sort produce the same list. */
  lemma {:induction false} SortedUnique(a: seq<Event>, b: seq<Event>)
    requires multiset(a) == multiset(b)
    requires SortedByKey(a) && SortedByKey(b) && DistinctNos(a)
    ensures a == b
    decreases |a|
  {
    if |a| == 0 {
      assert |b| == |multiset(b)| == 0;
    } else {
      SameHead(a, b);
      assert a == [a[0]] + a[1..];
      assert b == [b[0]] + b[1..];
      assert multiset(a[1..]) == multiset(a) - multiset{a[0]};
      assert multiset(b[1..]) == multiset(b) - multiset{b[0]};
      SortedUnique(a[1..], b[1..]);
    }
  }

  /** The events gathered by the parser have distinct scan numbers. */
  lemma GatheredDistinct(g: Gathered)
    requires GatheredInv(g)
    ensures DistinctNos(g.events)
  {
  }

  /** Whether the writer leaves out the status byte: only when it repeats the
      last written status and that status is not a system or meta status. */
  predicate Omitted(lastStatus: byte, e: Event) {
    lastStatus < 0xF0 && lastStatus == e.status
  }

  /** The bytes written for one event: delta, status unless omitted, parameters, data. */
  function EventBytes(e: Event, lastTime: nat, lastStatus: byte): seq<byte>
    requires lastTime <= e.time
  {
    PrintBigInt(e.time - lastTime) + (if Omitted(lastStatus, e) then [] else [e.status]) + e.param + e.data
  }

  /** Times never go backwards, starting from `from`. */
  predicate Monotone(from: nat, es: seq<Event>) {
    (|es| > 0 ==> from <= es[0].time) &&
    forall i :: 0 <= i < |es| - 1 ==> es[i].time <= es[i + 1].time
  }

  datatype Encoded = Encoded(bytes: seq<byte>, lastTime: nat, lastStatus: byte)

  /** The write loop over the sorted events. */
  function EncodeEvents(es: seq<Event>, lastTime: nat, lastStatus: byte): (r: Result<Encoded, MidiError>)
    decreases |es|
    ensures r.Ok? <==> Monotone(lastTime, es)
    ensures r.Err? ==> r.error == NegativeDelta
    ensures r.Ok? ==> r.value.lastTime == if |es| == 0 then lastTime else es[|es| - 1].time
    ensures r.Ok? ==> r.value.lastStatus == if |es| == 0 then lastStatus else es[|es| - 1].status
  {
    if |es| == 0 then Ok(Encoded([], lastTime, lastStatus))
    else
      var e := es[0];
      if e.time < lastTime then Err(NegativeDelta)
      else
        var status := if Omitted(lastStatus, e) then lastStatus else e.status;
        var rest := EncodeEvents(es[1..], e.time, status);
        if rest.Err? then
          assert !Monotone(e.time, es[1..]);
          Err(NegativeDelta)
        else
          assert Monotone(lastTime, es) by {
            forall i | 0 <= i < |es| - 1
              ensures es[i].time <= es[i + 1].time
            {
              if i > 0 {
                assert es[1..][i - 1] == es[i];
              }
            }
          }
          Ok(Encoded(EventBytes(e, lastTime, lastStatus) + rest.value.bytes, rest.value.lastTime, rest.value.lastStatus))
  }

  /** An ordered list is monotone from time 0, so the `timestamp >= 0` assert holds. */
  lemma SortedMonotone(es: seq<Event>)
    requires SortedByKey(es)
    ensures Monotone(0, es)
  {
    forall i | 0 <= i < |es| - 1
      ensures es[i].time <= es[i + 1].time
    {
      assert Precedes(es[i], es[i + 1]);
    }
  }

  const EndOfTrackTail: seq<byte> := [0xFF, MetaEndOfTrack, 0x00]

  lemma SuffixOfAppend(a: seq<byte>, b: seq<byte>, k: nat)
    requires k <= |b|
    ensures (a + b)[|a + b| - k..] == b[|b| - k..]
  {
  }

  /** The closing end-of-track meta event with the given delta. */
  function EndOfTrack(delta: nat): (r: seq<byte>)
    ensures |r| >= 4 && r[|r| - 3..] == EndOfTrackTail
    ensures r[..|r| - 3] == PrintBigInt(delta)
  {
    PrintBigInt(delta) + EndOfTrackTail
  }

  /** `struct.pack('>4sLHHH4sL', b'MThd', 6, 0, 1, division, b'MTrk', len)`:
      a format-0 header for one track, followed by the track tag and length. */
  function HeaderBytes(division: nat, len: nat): (r: seq<byte>)
    requires division < 0x1_0000 && len < 0x1_0000_0000
    ensures |r| == 22
    ensures r[..4] == Mthd && r[14..18] == Mtrk
    ensures BigEndian(r[4..8]) == 6 && BigEndian(r[8..10]) == 0 && BigEndian(r[10..12]) == 1
    ensures BigEndian(r[12..14]) == division && BigEndian(r[18..22]) == len
  {
    var r := Mthd + U32Bytes(6) + U16Bytes(0) + U16Bytes(1) + U16Bytes(division) + Mtrk + U32Bytes(len);
    assert r[4..8] == U32Bytes(6);
    assert r[8..10] == U16Bytes(0);
    assert r[10..12] == U16Bytes(1);
    assert r[12..14] == U16Bytes(division);
    assert r[18..22] == U32Bytes(len);
    r
  }

  /** `seek(at)` then `write(bs)`: overwrite in place. */
  function Patch(out: seq<byte>, at: nat, bs: seq<byte>): (r: seq<byte>)
    requires at + |bs| <= |out|
    ensures |r| == |out| && r[at..at + |bs|] == bs
    ensures forall i :: 0 <= i < |out| && !(at <= i < at + |bs|) ==> r[i] == out[i]
  {
    out[..at] + bs + out[at + |bs|..]
  }

  /** Patching the real length over the placeholder yields the header for that length. */
  lemma PatchLength(division: nat, body: seq<byte>)
    requires division < 0x1_0000 && |body| < 0x1_0000_0000
    ensures Patch(HeaderBytes(division, 0) + body, 18, U32Bytes(|body|)) == HeaderBytes(division, |body|) + body
  {
    var a := HeaderBytes(division, 0);
    var b := HeaderBytes(division, |body|);
    assert a[..18] == b[..18] by {
      assert a[..18] == Mthd + U32Bytes(6) + U16Bytes(0) + U16Bytes(1) + U16Bytes(division) + Mtrk;
      assert b[..18] == Mthd + U32Bytes(6) + U16Bytes(0) + U16Bytes(1) + U16Bytes(division) + Mtrk;
    }
    assert b[18..22] == U32Bytes(|body|);
    var p := Patch(a + body, 18, U32Bytes(|body|));
    assert forall i | 0 <= i < 18 :: p[i] == (a + body)[i] == a[i] == b[i];
    assert forall i | 22 <= i < |p| :: p[i] == (a + body)[i] == body[i - 22];
    assert forall i | 18 <= i < 22 :: p[i] == p[18..22][i - 18] == b[i];
    assert p == b + body;
  }

  /** The time of the closing event: `max_time - last_time`, clamped at zero. */
  function EndDelta(maxTime: nat, lastTime: nat): nat {
    if maxTime < lastTime then 0 else maxTime - lastTime
  }

  /** The single output track: the sorted events, then the end-of-track event
      that reaches `max_time`. */
  function WriteTrack(g: Gathered): (r: Result<seq<byte>, MidiError>)
    ensures r.Ok? ==> |r.value| >= 4 && r.value[|r.value| - 3..] == EndOfTrackTail
  {
    var sorted := SortEvents(g.events);
    var enc :- EncodeEvents(sorted, 0, 0);
    var tail := EndOfTrack(EndDelta(g.maxTime, enc.lastTime));
    SuffixOfAppend(enc.bytes, tail, 3);
    Ok(enc.bytes + tail)
  }

  /** The header written first with a zero length, then patched at offset 18
      once the body is written; a body of 2^32 bytes or more does not fit. */
  function Frame(division: nat, body: seq<byte>): (r: Result<seq<byte>, MidiError>)
    requires division < 0x1_0000
    ensures r.Ok? <==> |body| < 0x1_0000_0000
    ensures r.Err? ==> r.error == LengthOverflow
    ensures r.Ok? ==> r.value == HeaderBytes(division, |body|) + body
  {
    if |body| >= 0x1_0000_0000 then Err(LengthOverflow)
    else
      PatchLength(division, body);
      Ok(Patch(HeaderBytes(division, 0) + body, 18, U32Bytes(|body|)))
  }

  /** The whole merger: parse, sort, encode, close the track, frame. */
  function Merge(data: seq<byte>): (r: Result<seq<byte>, MidiError>)
    ensures ParseInput(data).Err? ==> r == Err(ParseInput(data).error)
    ensures r.Ok? ==>
              ParseInput(data).Ok? && WriteTrack(ParseInput(data).value.g).Ok? &&
              var body := WriteTrack(ParseInput(data).value.g).value;
              |body| < 0x1_0000_0000 &&
              r.value == HeaderBytes(ParseInput(data).value.division, |body|) + body
  {
    var input :- ParseInput(data);
    var body :- WriteTrack(input.g);
    Frame(input.division, body)
  }

  /** In a list with unique scan numbers every event occurs at most once. */
  lemma {:induction false} AtMostOnce(b: seq<Event>, x: Event)
    requires DistinctNos(b)
    ensures multiset(b)[x] <= 1
    decreases |b|
  {
    if |b| > 0 {
      var init := b[..|b| - 1];
      assert b == init + [b[|b| - 1]];
      assert DistinctNos(init);
      AtMostOnce(init, x);
    }
  }

  /** An element occurring at two positions occurs twice in the multiset. */
  lemma OrderedDuplicate(es: seq<Event>, i: nat, j: nat)
    requires 0 <= i < j < |es| && es[i] == es[j]
    ensures multiset(es)[es[i]] >= 2
  {
    assert es == es[..i] + [es[i]] + es[i + 1..j] + [es[j]] + es[j + 1..];
  }

  /** Unique scan numbers survive any permutation. */
  lemma DistinctPermutation(a: seq<Event>, b: seq<Event>)
    requires multiset(a) == multiset(b) && DistinctNos(b)
    ensures DistinctNos(a)
  {
    forall i, j | 0 <= i < j < |a|
      ensures a[i].no != a[j].no
    {
      assert a[i] in multiset(b) && a[j] in multiset(b);
      if a[i] == a[j] {
        OrderedDuplicate(a, i, j);
        AtMostOnce(b, a[i]);
      } else {
        var p :| 0 <= p < |b| && b[p] == a[i];
        var q :| 0 <= q < |b| && b[q] == a[j];
        assert p != q;
        if p < q {
          assert b[p].no != b[q].no;
        } else {
          assert b[q].no != b[p].no;
        }
      }
    }
  }

  /** On parsed input the model's order is the order of Python's tuple sort:
      any ordered permutation of the gathered events is the one `SortEvents` returns. */
  lemma SortIsTupleSort(g: Gathered, other: seq<Event>)
    requires GatheredInv(g)
    requires multiset(other) == multiset(g.events) && SortedByKey(other)
    ensures other == SortEvents(g.events)
  {
    DistinctPermutation(other, g.events);
    SortedUnique(other, SortEvents(g.events));
  }

  /** The last written event lies within `max_time`, so the clamp of the
      end-of-track delta never fires and the track ends exactly at `max_time`. */
  lemma EndReachesMaxTime(g: Gathered)
    requires GatheredInv(g)
    ensures EncodeEvents(SortEvents(g.events), 0, 0).Ok?
    ensures var enc := EncodeEvents(SortEvents(g.events), 0, 0).value;
            enc.lastTime <= g.maxTime && enc.lastTime + EndDelta(g.maxTime, enc.lastTime) == g.maxTime
  {
    var sorted := SortEvents(g.events);
    SortedMonotone(sorted);
    if |sorted| > 0 {
      var last := sorted[|sorted| - 1];
      assert last in multiset(g.events);
    }
  }

  /** Once the input has parsed, the only failure left is a body too long for
      its 32-bit length field: the `timestamp >= 0` assert never fires. */
  lemma MergeFailsOnlyOnLength(data: seq<byte>)
    requires ParseInput(data).Ok?
    ensures Merge(data).Err? ==> Merge(data).error == LengthOverflow
  {
    var g := ParseInput(data).value.g;
    ParseInputInv(data);
    EndReachesMaxTime(g);
  }

  /** Any file that starts with a format-0 header is rejected at the format check. */
  lemma FormatZeroRejected(division: nat, len: nat, body: seq<byte>)
    requires division < 0x1_0000 && len < 0x1_0000_0000
    ensures ParseInput(HeaderBytes(division, len) + body) == Err(BadFormat)
  {
    var out := HeaderBytes(division, len) + body;
    assert out[..22] == HeaderBytes(division, len);
    assert MatchAt(out, 0, Mthd) by {
      assert out[..4] == out[..22][..4];
    }
    var tag := ReadUntil(Stream(out, 0), Mthd);
    assert tag.Ok?;
    assert tag.value.pos == 4;
    assert out[4..8] == out[..22][4..8];
    assert out[8..10] == out[..22][8..10];
    assert CheckHeader(tag.value) == Err(BadFormat);
  }

  /** The merger's output announces format 0, so the merger rejects it. */
  lemma MergeRejectsOwnOutput(data: seq<byte>)
    requires Merge(data).Ok?
    ensures ParseInput(Merge(data).value) == Err(BadFormat)
  {
    var body := WriteTrack(ParseInput(data).value.g).value;
    FormatZeroRejected(ParseInput(data).value.division, |body|, body);
  }
}

=== FILE: midi_roundtrip.dfy ===
/** The merger's output track read back with the merger's own track parser:
    every written event comes back with its time, status, parameters and data,
    numbered in output order, and the closing end-of-track event is dropped. */
module MidiRoundTrip {
  import opened Wrappers
  import opened MidiStream
  import opened Vlq
  import opened MidiTrack
  import opened MidiMerge

  /** `es` with scan numbers `start`, `start + 1`, ... in list order. */
  function Renumber(es: seq<Event>, start: nat): (r: seq<Event>)
    decreases |es|
    ensures |r| == |es|
  {
    if |es| == 0 then [] else [es[0].(no := start)] + Renumber(es[1..], start + 1)
  }

  /** The `i`-th renumbered event is the `i`-th event with scan number `start + i`. */
  lemma {:induction false} RenumberAt(es: seq<Event>, start: nat, i: nat)
    requires i < |es|
    ensures Renumber(es, start)[i] == es[i].(no := start + i)
    decreases |es|
  {
    if i > 0 {
      RenumberAt(es[1..], start + 1, i - 1);
    }
  }

  /** The running status the parser holds for the writer's last status
      (the writer starts from 0x00, the parser from "none yet"). */
  function ParserStatus(lastStatus: byte): Option<byte> {
    if lastStatus == 0 then None else Some(lastStatus)
  }

  /** Channel data bytes have the high bit clear (section 2.3 of the Standard
      MIDI Files specification); the parser itself never checks this. */
  predicate DataBytesClear(e: Event) {
    e.status < 0xF0 && |e.param| >= 1 ==> e.param[0] < 0x80
  }

  predicate Reparsable(e: Event) {
    WellShaped(e) && DataBytesClear(e)
  }

  /** How many bytes of an event the head reader takes: delta, status if written,
      first parameter. */
  function HeadSize(e: Event, lastTime: nat, lastStatus: byte): nat
    requires lastTime <= e.time
  {
    |PrintBigInt(e.time - lastTime)| + (if Omitted(lastStatus, e) then 1 else 2)
  }

  /** The status bytes the writer puts between delta and first parameter. */
  function StatusBytes(e: Event, lastStatus: byte): (r: seq<byte>)
    ensures |r| == if Omitted(lastStatus, e) then 0 else 1
  {
    if Omitted(lastStatus, e) then [] else [e.status]
  }

  lemma EventBytesSplit(e: Event, lastTime: nat, lastStatus: byte)
    requires lastTime <= e.time && WellShaped(e)
    ensures EventBytes(e, lastTime, lastStatus)
            == PrintBigInt(e.time - lastTime) + StatusBytes(e, lastStatus) + [e.param[0]] + (e.param[1..] + e.data)
  {
    assert e.param == [e.param[0]] + e.param[1..];
  }

  /** Where the pieces of a concatenation sit in a byte sequence that holds it. */
  lemma Layout(data: seq<byte>, pos: nat, p: seq<byte>, st: seq<byte>, x: byte, rest: seq<byte>)
    requires pos + |p + st + [x] + rest| <= |data| && data[pos..pos + |p + st + [x] + rest|] == p + st + [x] + rest
    ensures data[pos..pos + |p|] == p
    ensures |st| == 1 ==> data[pos + |p|] == st[0]
    ensures data[pos + |p| + |st|] == x
    ensures data[pos + |p| + |st| + 1..pos + |p| + |st| + 1 + |rest|] == rest
  {
    var w := p + st + [x] + rest;
    assert data[pos..pos + |p|] == w[..|p|];
    assert data[pos + |p| + |st| + 1..pos + |w|] == w[|p| + |st| + 1..];
    if |st| == 1 {
      assert data[pos + |p|] == w[|p|];
    }
    assert data[pos + |p| + |st|] == w[|p| + |st|];
  }

  /** The status reader on an explicit status byte and a first parameter. */
  lemma StatusExplicit(s: Stream, n1: nat, len: nat, time: nat, runStatus: Option<byte>, status: byte, param0: byte)
    requires s.pos + 2 <= |s.data| && n1 + 2 <= len && StatusByte(runStatus) && status >= 0x80
    requires s.data[s.pos] == status && s.data[s.pos + 1] == param0
    ensures ReadStatus(s, n1, len, time, runStatus)
            == Ok(Head(time, status, [param0], Stream(s.data, s.pos + 2), n1 + 2, Some(status)))
  {
    assert s.data[s.pos..s.pos + 1] == [status];
    assert s.data[s.pos + 1..s.pos + 2] == [param0];
  }

  /** The status reader on a data byte under running status `rs`. */
  lemma StatusRunning(s: Stream, n1: nat, len: nat, time: nat, rs: byte, param0: byte)
    requires s.pos + 1 <= |s.data| && n1 + 1 < len && rs >= 0x80 && param0 < 0x80
    requires s.data[s.pos] == param0
    ensures ReadStatus(s, n1, len, time, Some(rs))
            == Ok(Head(time, rs, [param0], Stream(s.data, s.pos + 1), n1 + 1, Some(rs)))
  {
    assert s.data[s.pos..s.pos + 1] == [param0];
  }

  /** The head reader hands what follows the delta to the status reader. */
  lemma HeadAfterDelta(t: Track, delta: Scanned)
    requires t.s.pos <= |t.s.data| && StatusByte(t.runStatus)
    requires ScanBigInt(t.s, []) == Ok(delta)
    requires t.lenRead + delta.count < t.len
    ensures delta.rest.pos <= |delta.rest.data|
    ensures ReadHead(t) == ReadStatus(delta.rest, t.lenRead + delta.count, t.len, t.lastTime + delta.value, t.runStatus)
  {
    hide ReadStatus, ScanBigInt, Scan, ScanStream, ReadOrEof, PrintBigInt;
    assert !ScanBigInt(t.s, []).IsFailure() && ScanBigInt(t.s, []).Extract() == delta;
  }

  /** The quantity scanner on a minimal encoding with nothing carried in. */
  lemma ScanPrinted(s: Stream, n: nat)
    requires s.pos + |PrintBigInt(n)| <= |s.data|
    requires s.data[s.pos..s.pos + |PrintBigInt(n)|] == PrintBigInt(n)
    ensures ScanBigInt(s, []) == Ok(Scanned(n, |PrintBigInt(n)|, Stream(s.data, s.pos + |PrintBigInt(n)|)))
  {
    var p := PrintBigInt(n);
    assert p[..0] == [] && p[0..] == p;
    ScanPrintRoundTrip(n, 0, s.data, s.pos);
  }

  /** The meta reader on the minimal length encoding followed by that many bytes. */
  lemma BodyMeta(h: Head, len: nat, d: seq<byte>, b: Body)
    requires h.s.pos <= |h.s.data| && |h.param| == 1 && h.status == 0xFF
    requires h.s.pos + |PrintBigInt(|d|)| + |d| <= |h.s.data|
    requires h.s.data[h.s.pos..h.s.pos + |PrintBigInt(|d|)| + |d|] == PrintBigInt(|d|) + d
    requires h.lenRead + |PrintBigInt(|d|)| + |d| <= len
    requires var n := |PrintBigInt(|d|)| + |d|;
             b == Body(h.param + PrintBigInt(|d|), d, Stream(h.s.data, h.s.pos + n), h.lenRead + n)
    ensures ReadMeta(h, len) == Ok(b)
  {
    hide *;
    var q := PrintBigInt(|d|);
    var w := q + d;
    var s := h.s;
    assert s.data[s.pos..s.pos + |q|] == q[0..] by {
      assert s.data[s.pos..s.pos + |q|] == s.data[s.pos..s.pos + |q| + |d|][..|q|];
      assert w[..|q|] == q;
    }
    assert q[..0] == [];
    ScanPrintRoundTrip(|d|, 0, s.data, s.pos);
    var s1 := Stream(s.data, s.pos + |q|);
    assert s.data[s.pos + |q|..s.pos + |q| + |d|] == d by {
      assert s.data[s.pos + |q|..s.pos + |q| + |d|] == w[|q|..];
    }
    MetaSteps(h, len, Scanned(|d|, |q|, s1), Read(d, Stream(s.data, s.pos + |q| + |d|)), b);
  }

  /** `ReadMeta` from the results of its scanner and its byte read. */
  lemma MetaSteps(h: Head, len: nat, ml: Scanned, rd: Read, b: Body)
    requires h.s.pos <= |h.s.data| && h.lenRead <= len && |h.param| == 1
    requires ScanBigInt(h.s, []) == Ok(ml) && h.lenRead + ml.count + ml.value <= len
    requires ReadOrEof(ml.rest, ml.value) == Ok(rd)
    requires b == Body(h.param + PrintBigInt(ml.value), rd.bytes, rd.rest, h.lenRead + ml.count + ml.value)
    ensures ReadMeta(h, len) == Ok(b)
  {
  }

  /** The sysex reader on the rest of the minimal length encoding, whose first
      byte is already in the parameters, followed by that many bytes. */
  lemma BodySysex(h: Head, len: nat, d: seq<byte>, b: Body)
    requires h.s.pos <= |h.s.data| && 0xF0 <= h.status < 0xFF
    requires h.param == PrintBigInt(|d|)[..1]
    requires h.s.pos + |PrintBigInt(|d|)| - 1 + |d| <= |h.s.data|
    requires h.s.data[h.s.pos..h.s.pos + |PrintBigInt(|d|)| - 1 + |d|] == PrintBigInt(|d|)[1..] + d
    requires h.lenRead + |PrintBigInt(|d|)| - 1 + |d| <= len
    requires var n := |PrintBigInt(|d|)| - 1 + |d|;
             b == Body(PrintBigInt(|d|), d, Stream(h.s.data, h.s.pos + n), h.lenRead + n)
    ensures ReadSysex(h, len) == Ok(b)
  {
    hide *;
    var q := PrintBigInt(|d|);
    var s := h.s;
    SplitAt(s.data, s.pos, q[1..], d);
    ScanPrintRoundTrip(|d|, 1, s.data, s.pos);
    var s1 := Stream(s.data, s.pos + |q| - 1);
    SysexSteps(h, len, Scanned(|d|, |q| - 1, s1), Read(d, Stream(s.data, s.pos + |q| - 1 + |d|)), b);
  }

  /** `ReadSysex` from the results of its scanner and its byte read. */
  lemma SysexSteps(h: Head, len: nat, ml: Scanned, rd: Read, b: Body)
    requires h.s.pos <= |h.s.data| && h.lenRead <= len && |h.param| == 1
    requires ScanBigInt(h.s, h.param) == Ok(ml) && h.lenRead + ml.count + ml.value <= len
    requires ReadOrEof(ml.rest, ml.value) == Ok(rd)
    requires b == Body(PrintBigInt(ml.value), rd.bytes, rd.rest, h.lenRead + ml.count + ml.value)
    ensures ReadSysex(h, len) == Ok(b)
  {
  }

  /** The channel reader on the second parameter byte, when the status has one. */
  lemma BodyChannel(h: Head, len: nat, more: seq<byte>, b: Body)
    requires h.s.pos <= |h.s.data| && |h.param| == 1 && 0x80 <= h.status < 0xF0
    requires |more| == if OneDataByte(h.status) then 0 else 1
    requires h.s.pos + |more| <= |h.s.data| && h.s.data[h.s.pos..h.s.pos + |more|] == more
    requires h.lenRead + |more| <= len
    requires b == Body(h.param + more, [], Stream(h.s.data, h.s.pos + |more|), h.lenRead + |more|)
    ensures ReadChannel(h, len) == Ok(b)
  {
    if OneDataByte(h.status) {
      assert h.param + more == h.param;
    }
  }

  /** `e`, written after an event at `t.lastTime` whose status was `lastStatus`,
      starts at the parser's position, and the track length leaves room for it. */
  predicate WrittenAt(e: Event, t: Track, lastStatus: byte) {
    Reparsable(e) && t.lastTime <= e.time && (lastStatus == 0 || lastStatus >= 0x80) &&
    t.s.pos <= |t.s.data| && t.runStatus == ParserStatus(lastStatus) &&
    var eb := EventBytes(e, t.lastTime, lastStatus);
    t.s.pos + |eb| <= |t.s.data| && t.s.data[t.s.pos..t.s.pos + |eb|] == eb &&
    t.lenRead + |eb| + (if Omitted(lastStatus, e) then 1 else 0) <= t.len
  }

  /** The individual bytes of a written event, read off the track. */
  lemma WrittenBytes(e: Event, t: Track, lastStatus: byte)
    requires WrittenAt(e, t, lastStatus)
    ensures var p := PrintBigInt(e.time - t.lastTime);
            var k := HeadSize(e, t.lastTime, lastStatus);
            var n := |EventBytes(e, t.lastTime, lastStatus)|;
            n == k + |e.param| - 1 + |e.data| && t.s.pos + n <= |t.s.data| &&
            t.s.data[t.s.pos..t.s.pos + |p|] == p &&
            t.s.data[t.s.pos + k - 1] == e.param[0] &&
            (!Omitted(lastStatus, e) ==> t.s.data[t.s.pos + |p|] == e.status) &&
            t.s.data[t.s.pos + k..t.s.pos + n] == e.param[1..] + e.data
  {
    hide PrintBigInt, EventBytes, ParserStatus, StatusByte, DataBytesClear;
    var p := PrintBigInt(e.time - t.lastTime);
    var st := StatusBytes(e, lastStatus);
    EventBytesSplit(e, t.lastTime, lastStatus);
    Layout(t.s.data, t.s.pos, p, st, e.param[0], e.param[1..] + e.data);
  }

  /** The head reader on a minimal delta, an explicit status byte and a first parameter. */
  lemma HeadExplicit(t: Track, delta: nat, status: byte, param0: byte, h: Head)
    requires t.s.pos <= |t.s.data| && StatusByte(t.runStatus) && status >= 0x80
    requires t.s.pos + |PrintBigInt(delta)| + 2 <= |t.s.data|
    requires t.s.data[t.s.pos..t.s.pos + |PrintBigInt(delta)|] == PrintBigInt(delta)
    requires t.s.data[t.s.pos + |PrintBigInt(delta)|] == status
    requires t.s.data[t.s.pos + |PrintBigInt(delta)| + 1] == param0
    requires t.lenRead + |PrintBigInt(delta)| + 2 <= t.len
    requires var k := |PrintBigInt(delta)| + 2;
             h == Head(t.lastTime + delta, status, [param0], Stream(t.s.data, t.s.pos + k), t.lenRead + k, Some(status))
    ensures ReadHead(t) == Ok(h)
  {
    hide *;
    var p := PrintBigInt(delta);
    var s1 := Stream(t.s.data, t.s.pos + |p|);
    ScanPrinted(t.s, delta);
    HeadAfterDelta(t, Scanned(delta, |p|, s1));
    StatusExplicit(s1, t.lenRead + |p|, t.len, t.lastTime + delta, t.runStatus, status, param0);
  }

  /** The head reader on a minimal delta and a data byte under running status `rs`. */
  lemma HeadRunning(t: Track, delta: nat, rs: byte, param0: byte, h: Head)
    requires t.s.pos <= |t.s.data| && t.runStatus == Some(rs) && rs >= 0x80 && param0 < 0x80
    requires t.s.pos + |PrintBigInt(delta)| + 1 <= |t.s.data|
    requires t.s.data[t.s.pos..t.s.pos + |PrintBigInt(delta)|] == PrintBigInt(delta)
    requires t.s.data[t.s.pos + |PrintBigInt(delta)|] == param0
    requires t.lenRead + |PrintBigInt(delta)| + 1 < t.len
    requires var k := |PrintBigInt(delta)| + 1;
             h == Head(t.lastTime + delta, rs, [param0], Stream(t.s.data, t.s.pos + k), t.lenRead + k, Some(rs))
    ensures ReadHead(t) == Ok(h)
  {
    hide PrintBigInt, ReadHead, ReadStatus, ScanBigInt, Scan, ScanStream, ReadOrEof, Lead;
    var p := PrintBigInt(delta);
    var s1 := Stream(t.s.data, t.s.pos + |p|);
    ScanPrinted(t.s, delta);
    HeadAfterDelta(t, Scanned(delta, |p|, s1));
    StatusRunning(s1, t.lenRead + |p|, t.len, t.lastTime + delta, rs, param0);
  }

  /** The head reader on the bytes the writer produced for `e`. */
  lemma ReadWrittenHead(e: Event, t: Track, lastStatus: byte, h: Head)
    requires WrittenAt(e, t, lastStatus)
    requires var k := HeadSize(e, t.lastTime, lastStatus);
             h == Head(e.time, e.status, [e.param[0]], Stream(t.s.data, t.s.pos + k), t.lenRead + k, Some(e.status))
    ensures StatusByte(t.runStatus) && t.lenRead < t.len
    ensures ReadHead(t) == Ok(h)
    ensures var k := HeadSize(e, t.lastTime, lastStatus);
            var n := |EventBytes(e, t.lastTime, lastStatus)|;
            n == k + |e.param| - 1 + |e.data| && t.s.pos + n <= |t.s.data| &&
            t.s.data[t.s.pos + k..t.s.pos + n] == e.param[1..] + e.data
  {
    hide ReadHead, ReadStatus, ScanBigInt, PrintBigInt, EventBytes, ReadBody;
    WrittenBytes(e, t, lastStatus);
    var delta := e.time - t.lastTime;
    if Omitted(lastStatus, e) {
      HeadRunning(t, delta, e.status, e.param[0], h);
    } else {
      HeadExplicit(t, delta, e.status, e.param[0], h);
    }
  }

  /** The body reader on the rest of the bytes the writer produced for `e`. */
  lemma ReadWrittenBody(e: Event, h: Head, len: nat, b: Body)
    requires Reparsable(e)
    requires h.status == e.status && h.param == [e.param[0]] && h.s.pos <= |h.s.data|
    requires h.s.pos + |e.param| - 1 + |e.data| <= |h.s.data|
    requires h.s.data[h.s.pos..h.s.pos + |e.param| - 1 + |e.data|] == e.param[1..] + e.data
    requires h.lenRead + |e.param| - 1 + |e.data| <= len
    requires var n := |e.param| - 1 + |e.data|;
             b == Body(e.param, e.data, Stream(h.s.data, h.s.pos + n), h.lenRead + n)
    ensures ReadBody(h, len) == Ok(b)
  {
    assert e.param == [e.param[0]] + e.param[1..];
    if e.status == 0xFF {
      BodyMeta(h, len, e.data, b);
    } else if e.status >= 0xF0 {
      assert PrintBigInt(|e.data|) == e.param;
      BodySysex(h, len, e.data, b);
    } else {
      assert e.data == [];
      BodyChannel(h, len, e.param[1..], b);
    }
  }

  /** Both readers on the bytes the writer produced for `e`. */
  lemma ReadWrittenEvent(e: Event, t: Track, lastStatus: byte, h: Head, b: Body)
    ensures WrittenAt(e, t, lastStatus) &&
            h == (var k := HeadSize(e, t.lastTime, lastStatus);
                  Head(e.time, e.status, [e.param[0]], Stream(t.s.data, t.s.pos + k), t.lenRead + k, Some(e.status))) &&
            b == (var n := |EventBytes(e, t.lastTime, lastStatus)|;
                  Body(e.param, e.data, Stream(t.s.data, t.s.pos + n), t.lenRead + n))
            ==>
            t.s.pos <= |t.s.data| && StatusByte(t.runStatus) && t.lenRead < t.len &&
            ReadHead(t) == Ok(h) && ReadBody(h, t.len) == Ok(b)
  {
    hide ReadHead, ReadStatus, ScanBigInt, PrintBigInt, EventBytes, ReadBody, ReadMeta, ReadSysex, ReadChannel;
    if WrittenAt(e, t, lastStatus) &&
       h == (var k := HeadSize(e, t.lastTime, lastStatus);
             Head(e.time, e.status, [e.param[0]], Stream(t.s.data, t.s.pos + k), t.lenRead + k, Some(e.status))) &&
       b == (var n := |EventBytes(e, t.lastTime, lastStatus)|;
             Body(e.param, e.data, Stream(t.s.data, t.s.pos + n), t.lenRead + n)) {
      ReadWrittenHead(e, t, lastStatus, h);
      ReadWrittenBody(e, h, t.len, b);
    }
  }

  /** One written event read back: the parser's step is the filter step on the
      event, renumbered, and the track state moves past exactly its bytes. */
  lemma ReparseEvent(g: Gathered, e: Event, t: Track, lastStatus: byte, next: Track)
    requires WrittenAt(e, t, lastStatus)
    requires var n := |EventBytes(e, t.lastTime, lastStatus)|;
             next == Track(Stream(t.s.data, t.s.pos + n), t.len, t.lenRead + n, e.time, Some(e.status))
    ensures StatusByte(t.runStatus) && t.lenRead < t.len
    ensures ParseEvent(g, t) == Ok(Step(Gather(g, e.(no := g.lastNo)), next))
  {
    var n := |EventBytes(e, t.lastTime, lastStatus)|;
    var k := HeadSize(e, t.lastTime, lastStatus);
    var h := Head(e.time, e.status, [e.param[0]], Stream(t.s.data, t.s.pos + k), t.lenRead + k, Some(e.status));
    var b := Body(e.param, e.data, next.s, t.lenRead + n);
    ReadWrittenEvent(e, t, lastStatus, h, b);
    ParseEventSteps(g, t, h, b, e.(no := g.lastNo), next);
  }

  /** `ParseEvent` from the results of its two readers. */
  lemma ParseEventSteps(g: Gathered, t: Track, h: Head, b: Body, ev: Event, next: Track)
    requires t.s.pos <= |t.s.data| && t.lenRead < t.len && StatusByte(t.runStatus)
    requires ReadHead(t) == Ok(h) && ReadBody(h, t.len) == Ok(b)
    requires ev == Event(h.time, g.lastNo, h.status, b.param, b.data)
    requires next == Track(b.s, t.len, b.lenRead, h.time, h.runStatus)
    ensures WellShaped(ev)
    ensures ParseEvent(g, t) == Ok(Step(Gather(g, ev), next))
  {
  }

  /** `bytes` sits at the parser's position and is exactly what the track has left. */
  predicate Remaining(t: Track, bytes: seq<byte>) {
    t.s.pos + |bytes| <= |t.s.data| && t.s.data[t.s.pos..t.s.pos + |bytes|] == bytes &&
    t.len == t.lenRead + |bytes|
  }

  /** One step of the write loop. */
  lemma EncodeStep(es: seq<Event>, lastTime: nat, lastStatus: byte, enc: Encoded)
    requires |es| > 0 && EncodeEvents(es, lastTime, lastStatus) == Ok(enc)
    ensures lastTime <= es[0].time
    ensures EncodeEvents(es[1..], es[0].time, es[0].status).Ok?
    ensures enc.bytes == EventBytes(es[0], lastTime, lastStatus) + EncodeEvents(es[1..], es[0].time, es[0].status).value.bytes
  {
  }

  /** One step of the track loop. */
  lemma TrackBodyStep(g: Gathered, t: Track, st: Step)
    requires t.s.pos <= |t.s.data| && t.lenRead < t.len && StatusByte(t.runStatus)
    requires ParseEvent(g, t) == Ok(st)
    ensures ParseTrackBody(g, t) == ParseTrackBody(st.g, st.t)
  {
  }

  lemma {:induction false} TitlesAppend(a: seq<Event>, b: seq<Event>)
    ensures Titles(a + b) == Titles(a) + Titles(b)
    decreases |b|
  {
    if |b| == 0 {
      assert a + b == a;
    } else {
      var b' := b[..|b| - 1];
      assert (a + b)[..|a + b| - 1] == a + b';
      TitlesAppend(a, b');
    }
  }

  lemma TitlesCons(e: Event, es: seq<Event>)
    ensures Titles([e] + es) == (if IsTitle(e) then 1 else 0) + Titles(es)
  {
    TitlesAppend([e], es);
    assert Titles([e]) == Titles([]) + (if IsTitle(e) then 1 else 0);
  }

  lemma TitlesHead(es: seq<Event>)
    requires |es| > 0
    ensures Titles(es) == (if IsTitle(es[0]) then 1 else 0) + Titles(es[1..])
  {
    TitlesCons(es[0], es[1..]);
    assert [es[0]] + es[1..] == es;
  }

  /** The title count does not depend on the order of the events. */
  lemma {:induction false} TitlesPermutation(a: seq<Event>, b: seq<Event>)
    requires multiset(a) == multiset(b)
    ensures Titles(a) == Titles(b)
    decreases |a|
  {
    if |a| > 0 {
      var x := a[|a| - 1];
      var a' := a[..|a| - 1];
      assert a == a' + [x];
      assert x in multiset(b);
      var k :| 0 <= k < |b| && b[k] == x;
      var b' := b[..k] + b[k + 1..];
      assert b == b[..k] + ([x] + b[k + 1..]);
      assert multiset(a') == multiset(a) - multiset{x};
      assert multiset(b') == multiset(b) - multiset{x};
      TitlesPermutation(a', b');
      TitlesAppend(b[..k], [x] + b[k + 1..]);
      TitlesCons(x, b[k + 1..]);
      TitlesAppend(b[..k], b[k + 1..]);
    } else {
      assert |b| == |multiset(b)| == 0;
    }
  }

  /** `before` followed by `es` renumbered from `start`, built one event at a
      time as the track loop appends them. */
  function Appended(before: seq<Event>, es: seq<Event>, start: nat): (r: seq<Event>)
    decreases |es|
    ensures |r| == |before| + |es|
  {
    if |es| == 0 then before else Appended(before + [es[0].(no := start)], es[1..], start + 1)
  }

  lemma {:induction false} AppendedRenumber(before: seq<Event>, es: seq<Event>, start: nat)
    ensures Appended(before, es, start) == before + Renumber(es, start)
    decreases |es|
  {
    if |es| > 0 {
      AppendedRenumber(before + [es[0].(no := start)], es[1..], start + 1);
      assert (before + [es[0].(no := start)]) + Renumber(es[1..], start + 1) == before + Renumber(es, start);
    }
  }

  /** The track loop about to read `es`, written from `t` after an event with
      status `lastStatus`, followed by the end-of-track event `d` ticks later. */
  predicate Ready(g: Gathered, es: seq<Event>, t: Track, lastStatus: byte, enc: Encoded, d: nat) {
    Writable(es) && Titles(es) + (if g.haveTitle then 1 else 0) <= 1 &&
    EncodeEvents(es, t.lastTime, lastStatus) == Ok(enc) &&
    (lastStatus == 0 || lastStatus >= 0x80) && t.runStatus == ParserStatus(lastStatus) &&
    Remaining(t, enc.bytes + EndOfTrack(d))
  }

  /** Every event can be written and read back, and is of a kind the filter keeps. */
  predicate Writable(es: seq<Event>) {
    |es| == 0 || (Reparsable(es[0]) && !Dropped(es[0]) && Writable(es[1..]))
  }

  /** The written events followed by the end-of-track event, read back from
      the parser's position: every event is gathered, renumbered from `last_no`
      in written order, and the end-of-track event is dropped. */
  lemma {:induction false} ReparseEvents(g: Gathered, es: seq<Event>, t: Track, lastStatus: byte, enc: Encoded, d: nat)
    requires Ready(g, es, t, lastStatus, enc, d)
    ensures ParseTrackBody(g, t).Ok?
    ensures ParseTrackBody(g, t).value.g.events == Appended(g.events, es, g.lastNo)
    decreases |es|, 1
  {
    if |es| == 0 {
      var e := Event(t.lastTime + d, 0, 0xFF, [MetaEndOfTrack, 0], []);
      ReparseEnd(g, e, t, lastStatus, d);
    } else {
      ReparseCons(g, es, t, lastStatus, enc, d);
    }
  }

  lemma {:induction false} ReparseCons(g: Gathered, es: seq<Event>, t: Track, lastStatus: byte, enc: Encoded, d: nat)
    requires |es| > 0 && Ready(g, es, t, lastStatus, enc, d)
    ensures ParseTrackBody(g, t).Ok?
    ensures ParseTrackBody(g, t).value.g.events == Appended(g.events, es, g.lastNo)
    decreases |es|, 0
  {
    hide *;
    var rest, next, g1 := ReparseFacts(g, es, t, lastStatus, enc, d);
    ReparseEvents(g1, es[1..], next, es[0].status, rest, d);
    LoopStep(g, es[0], t, lastStatus, next, g1);
    AppendedStep(g.events, es, g.lastNo, g1.events);
  }

  lemma AppendedStep(before: seq<Event>, es: seq<Event>, start: nat, before1: seq<Event>)
    requires |es| > 0 && before1 == before + [es[0].(no := start)]
    ensures Appended(before, es, start) == Appended(before1, es[1..], start + 1)
  {
  }

  /** After event `e` written at `t`: the track state just past its bytes and
      the gathered events after the filter step on it. */
  predicate NextState(g: Gathered, e: Event, t: Track, lastStatus: byte, next: Track, g1: Gathered) {
    WrittenAt(e, t, lastStatus) &&
    (var n := |EventBytes(e, t.lastTime, lastStatus)|;
     next == Track(Stream(t.s.data, t.s.pos + n), t.len, t.lenRead + n, e.time, Some(e.status))) &&
    g1 == Gather(g, e.(no := g.lastNo))
  }

  /** The track loop moves from `t` to the state after the event written there. */
  lemma LoopStep(g: Gathered, e: Event, t: Track, lastStatus: byte, next: Track, g1: Gathered)
    ensures NextState(g, e, t, lastStatus, next, g1) ==>
              t.s.pos <= |t.s.data| && t.lenRead <= t.len && StatusByte(t.runStatus) &&
              next.s.pos <= |next.s.data| && next.lenRead <= next.len && StatusByte(next.runStatus) &&
              ParseTrackBody(g, t) == ParseTrackBody(g1, next)
  {
    if NextState(g, e, t, lastStatus, next, g1) {
      ReparseEvent(g, e, t, lastStatus, next);
      TrackBodyStep(g, t, Step(g1, next));
    }
  }

  /** What the first written event leaves for the rest of the list. */
  lemma ReparseFacts(g: Gathered, es: seq<Event>, t: Track, lastStatus: byte, enc: Encoded, d: nat)
    returns (rest: Encoded, next: Track, g1: Gathered)
    requires |es| > 0 && Ready(g, es, t, lastStatus, enc, d)
    ensures NextState(g, es[0], t, lastStatus, next, g1)
    ensures Ready(g1, es[1..], next, es[0].status, rest, d)
    ensures g1.events == g.events + [es[0].(no := g.lastNo)] && g1.lastNo == g.lastNo + 1
  {
    var e := es[0];
    FirstWritten(g, es, t, lastStatus, enc, d);
    rest := RestWritten(g, es, t, lastStatus, enc, d);
    var eb := EventBytes(e, t.lastTime, lastStatus);
    next := Track(Stream(t.s.data, t.s.pos + |eb|), t.len, t.lenRead + |eb|, e.time, Some(e.status));
    g1 := Gather(g, e.(no := g.lastNo));
    TitlesHead(es);
  }

  /** The first event's bytes sit at the start of the encoding. */
  lemma FirstWritten(g: Gathered, es: seq<Event>, t: Track, lastStatus: byte, enc: Encoded, d: nat)
    requires |es| > 0 && Ready(g, es, t, lastStatus, enc, d)
    ensures WrittenAt(es[0], t, lastStatus)
  {
    hide EncodeEvents, Titles, EndOfTrack, PrintBigInt, EventBytes, Omitted;
    var e := es[0];
    EncodeStep(es, t.lastTime, lastStatus, enc);
    var eb := EventBytes(e, t.lastTime, lastStatus);
    var more := EncodeEvents(es[1..], e.time, e.status).value.bytes + EndOfTrack(d);
    assert enc.bytes + EndOfTrack(d) == eb + more;
    SplitAt(t.s.data, t.s.pos, eb, more);
  }

  /** The rest of the encoding follows the first event's bytes. */
  lemma RestWritten(g: Gathered, es: seq<Event>, t: Track, lastStatus: byte, enc: Encoded, d: nat)
    returns (rest: Encoded)
    requires |es| > 0 && Ready(g, es, t, lastStatus, enc, d)
    ensures EncodeEvents(es[1..], es[0].time, es[0].status) == Ok(rest)
    ensures var n := |EventBytes(es[0], t.lastTime, lastStatus)|;
            Remaining(Track(Stream(t.s.data, t.s.pos + n), t.len, t.lenRead + n, es[0].time, Some(es[0].status)),
                      rest.bytes + EndOfTrack(d))
  {
    hide EncodeEvents, Titles, EndOfTrack, PrintBigInt, EventBytes, Omitted, Writable;
    var e := es[0];
    EncodeStep(es, t.lastTime, lastStatus, enc);
    rest := EncodeEvents(es[1..], e.time, e.status).value;
    var eb := EventBytes(e, t.lastTime, lastStatus);
    var more := rest.bytes + EndOfTrack(d);
    assert enc.bytes + EndOfTrack(d) == eb + more;
    SplitAt(t.s.data, t.s.pos, eb, more);
  }

  /** The closing end-of-track event is read back and dropped. */
  lemma ReparseEnd(g: Gathered, e: Event, t: Track, lastStatus: byte, d: nat)
    requires e == Event(t.lastTime + d, 0, 0xFF, [MetaEndOfTrack, 0], [])
    requires (lastStatus == 0 || lastStatus >= 0x80) && t.runStatus == ParserStatus(lastStatus)
    requires Remaining(t, EndOfTrack(d))
    ensures ParseTrackBody(g, t) == Ok(Step(Gather(g, e.(no := g.lastNo)),
                                            Track(Stream(t.s.data, t.s.pos + |EndOfTrack(d)|), t.len, t.len, e.time, Some(0xFF))))
    ensures Gather(g, e.(no := g.lastNo)).events == g.events
  {
    hide *;
    EndWritten(e, t, lastStatus, d);
    var next := Track(Stream(t.s.data, t.s.pos + |EndOfTrack(d)|), t.len, t.len, e.time, Some(0xFF));
    ReparseEvent(g, e, t, lastStatus, next);
    EndDropped(g, e.(no := g.lastNo));
    TrackBodyStep(g, t, Step(Gather(g, e.(no := g.lastNo)), next));
    TrackBodyDone(Gather(g, e.(no := g.lastNo)), next);
  }

  /** The end-of-track event written after any event is the closing bytes
      `EndOfTrack(d)`, since a meta status is never left out. */
  lemma EndWritten(e: Event, t: Track, lastStatus: byte, d: nat)
    requires e == Event(t.lastTime + d, 0, 0xFF, [MetaEndOfTrack, 0], [])
    requires (lastStatus == 0 || lastStatus >= 0x80) && t.runStatus == ParserStatus(lastStatus)
    requires Remaining(t, EndOfTrack(d))
    ensures WrittenAt(e, t, lastStatus) && EventBytes(e, t.lastTime, lastStatus) == EndOfTrack(d)
    ensures t.lenRead + |EndOfTrack(d)| == t.len && t.s.pos + |EndOfTrack(d)| <= |t.s.data|
  {
    hide ParseTrackBody, ParseEvent, ReadHead, ReadBody, Gather;
    assert PrintBigInt(0) == [0];
    assert EventBytes(e, t.lastTime, lastStatus) == EndOfTrack(d);
  }

  /** The end-of-track event is well shaped and the filter drops it. */
  lemma EndDropped(g: Gathered, e: Event)
    requires e.status == 0xFF && e.param == [MetaEndOfTrack, 0] && e.data == []
    ensures WellShaped(e) && Gather(g, e).events == g.events
  {
    assert PrintBigInt(0) == [0];
  }

  /** The track loop stops once the declared length is read. */
  lemma TrackBodyDone(g: Gathered, t: Track)
    requires t.s.pos <= |t.s.data| && t.lenRead == t.len && t.runStatus.Some? && t.runStatus.value >= 0x80
    ensures ParseTrackBody(g, t) == Ok(Step(g, t))
  {
  }

  /** Every event can be written back and is of a kind the filter keeps. */
  ghost predicate AllWritable(es: seq<Event>) {
    forall i :: 0 <= i < |es| ==> Reparsable(es[i]) && !Dropped(es[i])
  }

  lemma {:induction false} WritableOfAll(es: seq<Event>)
    requires AllWritable(es)
    ensures Writable(es)
    decreases |es|
  {
    if |es| > 0 {
      assert AllWritable(es[1..]) by {
        forall i | 0 <= i < |es[1..]| ensures Reparsable(es[1..][i]) && !Dropped(es[1..][i]) {
          assert es[1..][i] == es[i + 1];
        }
      }
      WritableOfAll(es[1..]);
    }
  }

  /** Sorting keeps every event, so it keeps this property of all of them. */
  lemma AllWritablePermutation(a: seq<Event>, b: seq<Event>)
    requires multiset(a) == multiset(b) && AllWritable(a)
    ensures AllWritable(b)
  {
    forall i | 0 <= i < |b| ensures Reparsable(b[i]) && !Dropped(b[i]) {
      assert b[i] in multiset(a);
      var k :| 0 <= k < |a| && a[k] == b[i];
    }
  }

  /** The written track body read back by the track loop from a fresh state:
      the events come back in sorted order, numbered from 0, and nothing else. */
  lemma WriteTrackRoundTrip(g: Gathered, body: seq<byte>, data: seq<byte>, pos: nat)
    requires GatheredInv(g) && forall i :: 0 <= i < |g.events| ==> DataBytesClear(g.events[i])
    requires WriteTrack(g) == Ok(body)
    requires pos + |body| <= |data| && data[pos..pos + |body|] == body
    ensures var t := Track(Stream(data, pos), |body|, 0, 0, None);
            var r := ParseTrackBody(Gathered([], 0, 0, false), t);
            r.Ok? && r.value.g.events == Renumber(SortEvents(g.events), 0) &&
            r.value.t.s.pos == pos + |body|
  {
    hide *;
    var sorted, enc, d := WriteTrackReady(g, body, data, pos);
    var g0 := Gathered([], 0, 0, false);
    var t := Track(Stream(data, pos), |body|, 0, 0, None);
    ReparseEvents(g0, sorted, t, 0, enc, d);
    AppendedRenumber([], sorted, 0);
    assert [] + Renumber(sorted, 0) == Renumber(sorted, 0);
  }

  /** The events a parse gathered can all be written and read back. */
  lemma GatheredWritable(g: Gathered)
    requires GatheredInv(g) && forall i :: 0 <= i < |g.events| ==> DataBytesClear(g.events[i])
    ensures AllWritable(g.events)
  {
  }

  /** The written track body at `pos` is what the track loop, started fresh,
      has left to read: the sorted events followed by the end-of-track event. */
  lemma WriteTrackReady(g: Gathered, body: seq<byte>, data: seq<byte>, pos: nat)
    returns (sorted: seq<Event>, enc: Encoded, d: nat)
    requires GatheredInv(g) && forall i :: 0 <= i < |g.events| ==> DataBytesClear(g.events[i])
    requires WriteTrack(g) == Ok(body)
    requires pos + |body| <= |data| && data[pos..pos + |body|] == body
    ensures sorted == SortEvents(g.events)
    ensures Ready(Gathered([], 0, 0, false), sorted, Track(Stream(data, pos), |body|, 0, 0, None), 0, enc, d)
  {
    hide EncodeEvents, EventBytes, PrintBigInt, SortEvents, Reparsable, Dropped, Writable, AllWritable;
    sorted := SortEvents(g.events);
    GatheredWritable(g);
    AllWritablePermutation(g.events, sorted);
    WritableOfAll(sorted);
    TitlesPermutation(g.events, sorted);
    enc := EncodeEvents(sorted, 0, 0).value;
    d := EndDelta(g.maxTime, enc.lastTime);
  }

  /** The merger's output file, its one track chunk read back from offset 14
      (right after the header chunk) by the merger's own track-chunk parser:
      the merged events come back sorted and numbered from 0. */
  lemma MergeRoundTrip(data: seq<byte>, out: seq<byte>)
    requires Merge(data) == Ok(out)
    requires var es := ParseInput(data).value.g.events;
             forall i :: 0 <= i < |es| ==> DataBytesClear(es[i])
    ensures var r := TrackChunk(Gathered([], 0, 0, false), Stream(out, 14));
            r.Ok? && r.value.g.events == Renumber(SortEvents(ParseInput(data).value.g.events), 0) &&
            r.value.t.s.pos == |out|
  {
    hide *;
    var g, body := MergeShape(data, out);
    WriteTrackRoundTrip(g, body, out, 22);
    ChunkRead(Gathered([], 0, 0, false), out, body);
  }

  /** The merger's output: the header, the track chunk tag and length, the body. */
  lemma MergeShape(data: seq<byte>, out: seq<byte>) returns (g: Gathered, body: seq<byte>)
    requires Merge(data) == Ok(out)
    ensures ParseInput(data).Ok? && g == ParseInput(data).value.g && GatheredInv(g)
    ensures WriteTrack(g) == Ok(body)
    ensures |out| == 22 + |body| && out[14..18] == Mtrk && BigEndian(out[18..22]) == |body|
    ensures out[22..] == body
  {
    var input := ParseInput(data).value;
    ParseInputInv(data);
    g := input.g;
    body := WriteTrack(g).value;
    var h := HeaderBytes(input.division, |body|);
    HeaderSlices(out, h, body);
  }

  lemma HeaderSlices(out: seq<byte>, h: seq<byte>, body: seq<byte>)
    requires |h| == 22 && out == h + body
    ensures |out| == 22 + |body| && out[14..18] == h[14..18] && out[18..22] == h[18..22] && out[22..] == body
  {
  }

  /** The track-chunk parser at the tag reads the length and runs the track loop. */
  lemma ChunkRead(g: Gathered, out: seq<byte>, body: seq<byte>)
    requires |out| == 22 + |body| && out[14..18] == Mtrk && BigEndian(out[18..22]) == |body|
    ensures TrackChunk(g, Stream(out, 14)) == ParseTrackBody(g, Track(Stream(out, 22), |body|, 0, 0, None))
  {
  }
}

=== FILE: midi_stream.dfy ===
/** Byte-level input and output of the MIDI merger (slint-app/tools/merge_midi.py):
    the read primitives `ReadOrEOF` and `ReadUntil`, the write primitive
    `WriteAll`, and the big-endian fields of the Standard MIDI File chunks. */
module MidiStream {
  import opened Wrappers

  type byte = x: int | 0 <= x < 256

  /** The exceptions the merger can raise, one kind per cause. */
  datatype MidiError =
    | EndOfFile            // EOFError: a read fell short or a track overran its length
    | BadHeaderLength      // the assert on the MThd length (must be 6)
    | BadFormat            // the assert on the header format (must be 1)
    | BadTrackMarker       // the assert that a track chunk starts with 'MTrk'
    | MissingRunningStatus // a track's first event omits its status byte
    | NegativeDelta        // the assert that output deltas are non-negative
    | ShortWrite           // IOError from WriteAll
    | LengthOverflow       // struct.pack('>L', ...) of a body of 2^32 bytes or more

  /** An input file and the current read offset. */
  datatype Stream = Stream(data: seq<byte>, pos: nat)

  /** What a successful read hands back: the bytes read and the advanced stream. */
  datatype Read = Read(bytes: seq<byte>, rest: Stream)

  /** `ReadOrEOF(f, size)`: exactly `size` bytes, or EndOfFile. */
  function ReadOrEof(s: Stream, size: nat): (r: Result<Read, MidiError>)
    ensures r.Ok? <==> s.pos + size <= |s.data|
    ensures r.Err? ==> r.error == EndOfFile
    ensures r.Ok? ==> |r.value.bytes| == size && r.value.rest == Stream(s.data, s.pos + size)
    ensures r.Ok? ==> s.data[s.pos..s.pos + size] == r.value.bytes
  {
    if s.pos + size <= |s.data| then Ok(Read(s.data[s.pos..s.pos + size], Stream(s.data, s.pos + size)))
    else Err(EndOfFile)
  }

  /** Two consecutive reads return what one read of the combined size returns. */
  lemma ReadOrEofSplit(s: Stream, a: nat, b: nat)
    requires s.pos + a + b <= |s.data|
    ensures ReadOrEof(s, a).Ok? && ReadOrEof(ReadOrEof(s, a).value.rest, b).Ok?
    ensures ReadOrEof(s, a).value.bytes + ReadOrEof(ReadOrEof(s, a).value.rest, b).value.bytes
            == ReadOrEof(s, a + b).value.bytes
    ensures ReadOrEof(ReadOrEof(s, a).value.rest, b).value.rest == ReadOrEof(s, a + b).value.rest
  {
    var x := ReadOrEof(s, a).value;
    var y := ReadOrEof(x.rest, b).value;
    assert x.bytes + y.bytes == s.data[s.pos..s.pos + a + b];
  }

  /** A byte sequence found at `pos` is found piecewise. */
  lemma SplitAt(data: seq<byte>, pos: nat, a: seq<byte>, b: seq<byte>)
    requires pos + |a + b| <= |data| && data[pos..pos + |a + b|] == a + b
    ensures data[pos..pos + |a|] == a
    ensures data[pos + |a|..pos + |a| + |b|] == b
  {
    assert data[pos..pos + |a|] == (a + b)[..|a|];
    assert data[pos + |a|..pos + |a| + |b|] == (a + b)[|a|..];
  }

  /** The marker occurs in `data` starting at offset `i`. */
  predicate MatchAt(data: seq<byte>, i: nat, marker: seq<byte>) {
    i + |marker| <= |data| && data[i..i + |marker|] == marker
  }

  /** `i` is the first offset at or after `start` where the marker occurs. */
  predicate FirstMatch(data: seq<byte>, start: nat, i: nat, marker: seq<byte>) {
    start <= i && MatchAt(data, i, marker) &&
    forall j: nat :: start <= j < i ==> !MatchAt(data, j, marker)
  }

  /** `ReadUntil(f, buf)`: one byte per step; on a hit of the marker's first byte the
      rest of the marker is read and compared, and on a mismatch the stream goes back
      to just after the hit byte. An empty marker returns at once. */
  function ReadUntil(s: Stream, marker: seq<byte>): (r: Result<Stream, MidiError>)
    decreases |s.data| - s.pos
    ensures |marker| == 0 ==> r == Ok(s)
    ensures r.Err? ==> r.error == EndOfFile
    ensures r.Err? ==> forall j: nat :: s.pos <= j ==> !MatchAt(s.data, j, marker)
    ensures r.Ok? && |marker| > 0 ==>
              r.value.data == s.data && r.value.pos >= |marker| &&
              FirstMatch(s.data, s.pos, r.value.pos - |marker|, marker)
  {
    if |marker| == 0 then Ok(s)
    else if s.pos >= |s.data| then Err(EndOfFile)
    else
      MatchAtFirstByte(s.data, s.pos, marker);
      if s.data[s.pos] == marker[0] && s.pos + |marker| <= |s.data|
         && s.data[s.pos + 1..s.pos + |marker|] == marker[1..] then
        Ok(Stream(s.data, s.pos + |marker|))
      else
        MissExtends(s.data, s.pos, marker);
        ReadUntil(Stream(s.data, s.pos + 1), marker)
  }

  /** A miss at `pos` carries what holds from `pos + 1` on back to `pos`. */
  lemma MissExtends(data: seq<byte>, pos: nat, marker: seq<byte>)
    requires !MatchAt(data, pos, marker)
    ensures (forall j: nat :: pos + 1 <= j ==> !MatchAt(data, j, marker)) ==>
              forall j: nat :: pos <= j ==> !MatchAt(data, j, marker)
    ensures forall i: nat :: FirstMatch(data, pos + 1, i, marker) ==> FirstMatch(data, pos, i, marker)
  {
  }

  /** A match is a hit on the first byte followed by the rest of the marker. */
  lemma MatchAtFirstByte(data: seq<byte>, i: nat, marker: seq<byte>)
    requires i < |data| && |marker| > 0
    ensures MatchAt(data, i, marker) <==>
              data[i] == marker[0] && i + |marker| <= |data| && data[i + 1..i + |marker|] == marker[1..]
  {
    if i + |marker| <= |data| {
      assert data[i..i + |marker|] == [data[i]] + data[i + 1..i + |marker|];
    }
  }

  /** `WriteAll(f, buf)`: `accepted` is the count the file's write call reports;
      anything short of the whole buffer is an IOError. */
  function WriteAll(out: seq<byte>, buf: seq<byte>, accepted: nat): (r: Result<seq<byte>, MidiError>)
    ensures r.Ok? <==> accepted == |buf|
    ensures r.Ok? ==> |r.value| == |out| + |buf| && r.value[..|out|] == out && r.value[|out|..] == buf
    ensures r.Err? ==> r.error == ShortWrite
  {
    if accepted != |buf| then Err(ShortWrite) else Ok(out + buf)
  }

  /** Unsigned big-endian value of a byte string (`struct.unpack('>H')`, `'>L'`). */
  function BigEndian(bs: seq<byte>): nat {
    if |bs| == 0 then 0 else BigEndian(bs[..|bs| - 1]) * 256 + bs[|bs| - 1]
  }

  /** `struct.pack('>L', n)`. */
  function U32Bytes(n: nat): (r: seq<byte>)
    requires n < 0x1_0000_0000
    ensures |r| == 4 && BigEndian(r) == n
  {
    var r := [n / 0x100_0000, (n / 0x1_0000) % 256, (n / 0x100) % 256, n % 256];
    assert BigEndian(r[..1]) == n / 0x100_0000 by { assert r[..1][..0] == []; }
    assert r[..2][..1] == r[..1];
    assert BigEndian(r[..2]) == n / 0x1_0000;
    assert r[..3][..2] == r[..2];
    assert BigEndian(r[..3]) == n / 0x100;
    r
  }

  /** `struct.pack('>H', n)`. */
  function U16Bytes(n: nat): (r: seq<byte>)
    requires n < 0x1_0000
    ensures |r| == 2 && BigEndian(r) == n
  {
    var r := [n / 256, n % 256];
    assert BigEndian(r[..1]) == n / 256 by { assert r[..1][..0] == []; }
    r
  }
}

=== FILE: midi_track.dfy ===
/** The input side of the MIDI merger (slint-app/tools/merge_midi.py, `main`
    up to the sort): the header checks, the per-track event parser with running
    status and byte accounting, and the global meta-event filter.
    Chunk and event layout follow sections 2.1 to 2.3 and 3 of the Standard MIDI
    Files 1.0 specification. */
module MidiTrack {
  import opened Wrappers
  import opened MidiStream
  import opened Vlq

  /** One collected event, the tuple `(last_time, last_no, meta, param, meta_data)`:
      absolute time, scan number, status byte, parameter bytes, data bytes. */
  datatype Event = Event(time: nat, no: nat, status: byte, param: seq<byte>, data: seq<byte>)

  /** State shared by all tracks: the collected events, the scan counter
      `last_no`, `max_time` and the `have_title` flag. */
  datatype Gathered = Gathered(events: seq<Event>, lastNo: nat, maxTime: nat, haveTitle: bool)

  /** State of one track: the input, the declared length, `mtrk_len_read`,
      `last_time`, and `last_meta` (None stands for its initial value, the
      integer 0x80, which is not a byte string). */
  datatype Track = Track(s: Stream, len: nat, lenRead: nat, lastTime: nat, runStatus: Option<byte>)

  datatype Step = Step(g: Gathered, t: Track)

  /** An event's delta time and status resolved, with its first parameter byte. */
  datatype Head = Head(time: nat, status: byte, param: seq<byte>, s: Stream, lenRead: nat, runStatus: Option<byte>)

  /** The rest of an event: its final parameter bytes and data bytes. */
  datatype Body = Body(param: seq<byte>, data: seq<byte>, s: Stream, lenRead: nat)

  const Mthd: seq<byte> := [0x4D, 0x54, 0x68, 0x64]
  const Mtrk: seq<byte> := [0x4D, 0x54, 0x72, 0x6B]

  /** Meta-event types the filter looks at (section 3: text kinds and end of track). */
  const MetaTitle: byte := 0x03
  const MetaInstrument: byte := 0x04
  const MetaEndOfTrack: byte := 0x2F

  function Max(a: nat, b: nat): nat {
    if a < b then b else a
  }

  /** `last_meta` only ever holds a byte with the high bit set. */
  predicate StatusByte(rs: Option<byte>) {
    rs.Some? ==> rs.value >= 0x80
  }

  predicate IsMeta(e: Event) {
    e.status == 0xFF
  }

  /** Whether `status` is a channel message carrying a single data byte (program
      change 0xC?, channel pressure 0xD?). */
  predicate OneDataByte(status: byte) {
    status / 16 == 0xC || status / 16 == 0xD
  }

  /** The layout an event has after parsing, by status byte. */
  predicate WellShaped(e: Event) {
    e.status >= 0x80 &&
    if e.status == 0xFF then |e.param| >= 2 && e.param[1..] == PrintBigInt(|e.data|)
    else if e.status >= 0xF0 then e.param == PrintBigInt(|e.data|)
    else if OneDataByte(e.status) then |e.param| == 1 && e.data == []
    else |e.param| == 2 && e.data == []
  }

  predicate IsTitle(e: Event) {
    IsMeta(e) && |e.param| >= 1 && e.param[0] == MetaTitle
  }

  /** After the delta: the status byte, or a data byte under running status, and
      the first parameter byte. `n1` counts the track bytes read so far. */
  function ReadStatus(s: Stream, n1: nat, len: nat, time: nat, runStatus: Option<byte>): (r: Result<Head, MidiError>)
    requires s.pos <= |s.data| && n1 < len && StatusByte(runStatus)
    ensures r.Ok? ==>
              r.value.s.data == s.data && r.value.s.pos <= |s.data| &&
              r.value.s.pos - s.pos == r.value.lenRead - n1 > 0 &&
              r.value.lenRead <= len && r.value.time == time &&
              r.value.status >= 0x80 && |r.value.param| == 1 &&
              r.value.runStatus == Some(r.value.status)
    ensures r.Ok? ==>
              var h := r.value;
              (h.s.pos >= 2 && h.status == s.data[h.s.pos - 2] && h.param == [s.data[h.s.pos - 1]]) ||
              (runStatus == Some(h.status) && h.param == [s.data[h.s.pos - 1]] && h.param[0] < 0x80)
    ensures r.Err? && r.error == MissingRunningStatus ==> runStatus == None
  {
    var st :- ReadOrEof(s, 1);
    var n2 := n1 + 1;
    if n2 >= len then Err(EndOfFile)
    else if st.bytes[0] >= 0x80 then
      var p :- ReadOrEof(st.rest, 1);
      if n2 + 1 > len then Err(EndOfFile)
      else Ok(Head(time, st.bytes[0], p.bytes, p.rest, n2 + 1, Some(st.bytes[0])))
    else
      match runStatus
      case None => Err(MissingRunningStatus)
      case Some(rs) => Ok(Head(time, rs, st.bytes, st.rest, n2, runStatus))
  }

  /** The delta time, the status byte and the first parameter byte of an event. */
  function ReadHead(t: Track): (r: Result<Head, MidiError>)
    requires t.s.pos <= |t.s.data| && t.lenRead < t.len && StatusByte(t.runStatus)
    ensures r.Ok? ==>
              r.value.s.data == t.s.data && r.value.s.pos <= |t.s.data| &&
              r.value.s.pos - t.s.pos == r.value.lenRead - t.lenRead > 1 &&
              r.value.lenRead <= t.len &&
              r.value.time >= t.lastTime &&
              r.value.status >= 0x80 && |r.value.param| == 1 &&
              r.value.runStatus == Some(r.value.status)
    ensures r.Ok? ==>
              var h := r.value;
              (h.status == t.s.data[h.s.pos - 2] && h.param == [t.s.data[h.s.pos - 1]]) ||
              (t.runStatus == Some(h.status) && h.param == [t.s.data[h.s.pos - 1]] && h.param[0] < 0x80)
    ensures r.Err? && r.error == MissingRunningStatus ==> t.runStatus == None
  {
    var delta :- ScanBigInt(t.s, []);
    var n1 := t.lenRead + delta.count;
    if n1 >= t.len then Err(EndOfFile)
    else ReadStatus(delta.rest, n1, t.len, t.lastTime + delta.value, t.runStatus)
  }

  /** What every part of `ReadBody` guarantees: the stream and the counter advance
      together, within the declared length, and the data bytes are the ones just read. */
  ghost predicate BodyRead(h: Head, len: nat, b: Body) {
    b.s.data == h.s.data && b.s.pos <= |h.s.data| &&
    b.s.pos - h.s.pos == b.lenRead - h.lenRead >= 0 && b.lenRead <= len &&
    |b.data| <= b.s.pos && b.data == h.s.data[b.s.pos - |b.data|..b.s.pos]
  }

  /** A meta event (0xFF): the type byte is the first parameter, then a length,
      re-encoded minimally into the parameters, then that many data bytes. */
  function ReadMeta(h: Head, len: nat): (r: Result<Body, MidiError>)
    requires h.s.pos <= |h.s.data| && h.lenRead <= len && |h.param| == 1
    ensures r.Ok? ==> BodyRead(h, len, r.value)
    ensures r.Ok? ==> r.value.param == h.param + PrintBigInt(|r.value.data|)
  {
    var ml :- ScanBigInt(h.s, []);
    var n1 := h.lenRead + ml.count;
    if n1 > len then Err(EndOfFile)
    else
      var d :- ReadOrEof(ml.rest, ml.value);
      var n2 := n1 + ml.value;
      if n2 > len then Err(EndOfFile)
      else Ok(Body(h.param + PrintBigInt(ml.value), d.bytes, d.rest, n2))
  }

  /** Any other 0xF? status: the first parameter byte opens the length, which may
      continue in the stream; the parameters become the minimal encoding of it. */
  function ReadSysex(h: Head, len: nat): (r: Result<Body, MidiError>)
    requires h.s.pos <= |h.s.data| && h.lenRead <= len && |h.param| == 1
    ensures r.Ok? ==> BodyRead(h, len, r.value)
    ensures r.Ok? ==> r.value.param == PrintBigInt(|r.value.data|)
  {
    var ml :- ScanBigInt(h.s, h.param);
    var n1 := h.lenRead + ml.count;
    if n1 > len then Err(EndOfFile)
    else
      var d :- ReadOrEof(ml.rest, ml.value);
      var n2 := n1 + ml.value;
      if n2 > len then Err(EndOfFile)
      else Ok(Body(PrintBigInt(ml.value), d.bytes, d.rest, n2))
  }

  /** A channel message: one more parameter byte unless the status is 0xC? or 0xD?. */
  function ReadChannel(h: Head, len: nat): (r: Result<Body, MidiError>)
    requires h.s.pos <= |h.s.data| && h.lenRead <= len && |h.param| == 1
    ensures r.Ok? ==> BodyRead(h, len, r.value) && r.value.data == []
    ensures r.Ok? && OneDataByte(h.status) ==> r.value.param == h.param && r.value.s == h.s
    ensures r.Ok? && !OneDataByte(h.status) ==>
              h.s.pos < |h.s.data| && r.value.param == h.param + [h.s.data[h.s.pos]] && r.value.s.pos == h.s.pos + 1
    ensures r.Err? ==> r.error == EndOfFile && !OneDataByte(h.status)
  {
    if !OneDataByte(h.status) then
      var p :- ReadOrEof(h.s, 1);
      if h.lenRead + 1 > len then Err(EndOfFile)
      else Ok(Body(h.param + p.bytes, [], p.rest, h.lenRead + 1))
    else
      Ok(Body(h.param, [], h.s, h.lenRead))
  }

  /** The remainder of an event after its first parameter byte, by status. */
  function ReadBody(h: Head, len: nat): (r: Result<Body, MidiError>)
    requires h.s.pos <= |h.s.data| && h.lenRead <= len && |h.param| == 1 && h.status >= 0x80
    ensures r.Ok? ==> BodyRead(h, len, r.value)
    ensures r.Ok? ==> WellShaped(Event(0, 0, h.status, r.value.param, r.value.data))
    ensures r.Ok? && (h.status == 0xFF || h.status < 0xF0) ==>
              |r.value.param| >= 1 && r.value.param[0] == h.param[0]
  {
    if h.status == 0xFF then ReadMeta(h, len)
    else if h.status >= 0xF0 then ReadSysex(h, len)
    else ReadChannel(h, len)
  }

  /** The meta filter: whether a meta event of type `kind` is kept, and the title
      flag afterwards. Only the first title of the whole file survives; every
      instrument name and every end of track is dropped. */
  function MetaVerdict(kind: byte, haveTitle: bool): (r: (bool, bool))
    ensures r.0 <==> (kind == MetaTitle && !haveTitle) ||
                     (kind != MetaTitle && kind != MetaInstrument && kind != MetaEndOfTrack)
    ensures r.1 <==> haveTitle || kind == MetaTitle
  {
    if kind == MetaTitle && !haveTitle then (true, true)
    else if kind != MetaTitle && kind != MetaInstrument && kind != MetaEndOfTrack then (true, haveTitle)
    else (false, haveTitle)
  }

  /** The global filter for one parsed event: append it unless the meta filter
      drops it, and advance `last_no` and `max_time` either way. */
  function Gather(g: Gathered, e: Event): (r: Gathered)
    requires WellShaped(e)
    ensures r.lastNo == g.lastNo + 1 && r.maxTime == Max(g.maxTime, e.time)
    ensures r.events == g.events + [e] <==> !Dropped(e) && !(IsTitle(e) && g.haveTitle)
    ensures r.events == g.events || r.events == g.events + [e]
    ensures r.haveTitle <==> g.haveTitle || IsTitle(e)
  {
    var verdict := if IsMeta(e) then MetaVerdict(e.param[0], g.haveTitle) else (true, g.haveTitle);
    Gathered(if verdict.0 then g.events + [e] else g.events, g.lastNo + 1, Max(g.maxTime, e.time), verdict.1)
  }

  /** One pass of the track loop body: parse an event, filter it, and advance
      the scan counter and the maximum time whether or not it is kept. */
  function ParseEvent(g: Gathered, t: Track): (r: Result<Step, MidiError>)
    requires t.s.pos <= |t.s.data| && t.lenRead < t.len && StatusByte(t.runStatus)
    ensures r.Ok? ==>
              var t' := r.value.t;
              t'.s.data == t.s.data && t'.s.pos <= |t.s.data| && t'.len == t.len &&
              t'.s.pos - t.s.pos == t'.lenRead - t.lenRead > 0 && t'.lenRead <= t.len &&
              t'.lastTime >= t.lastTime && t'.runStatus.Some? && StatusByte(t'.runStatus)
    ensures r.Ok? ==>
              var g' := r.value.g;
              g'.lastNo == g.lastNo + 1 &&
              g'.maxTime == Max(g.maxTime, r.value.t.lastTime) &&
              (g'.events == g.events ||
               (|g'.events| == |g.events| + 1 && g'.events[..|g.events|] == g.events &&
                g'.events[|g.events|].no == g.lastNo &&
                g'.events[|g.events|].time == r.value.t.lastTime))
  {
    var h :- ReadHead(t);
    var b :- ReadBody(h, t.len);
    Ok(Step(Gather(g, Event(h.time, g.lastNo, h.status, b.param, b.data)),
            Track(b.s, t.len, b.lenRead, h.time, h.runStatus)))
  }

  /** `while mtrk_len_read < mtrk_len`: the events of one track chunk. */
  function ParseTrackBody(g: Gathered, t: Track): (r: Result<Step, MidiError>)
    requires t.s.pos <= |t.s.data| && t.lenRead <= t.len && StatusByte(t.runStatus)
    decreases t.len - t.lenRead
    ensures r.Ok? ==>
              var t' := r.value.t;
              t'.s.data == t.s.data && t'.len == t.len && t'.lenRead == t.len &&
              t'.s.pos == t.s.pos + (t.len - t.lenRead) && t'.s.pos <= |t.s.data|
    ensures r.Ok? ==>
              r.value.g.lastNo >= g.lastNo && r.value.g.maxTime >= g.maxTime &&
              g.events <= r.value.g.events
  {
    if t.lenRead >= t.len then Ok(Step(g, t))
    else
      var st :- ParseEvent(g, t);
      ParseTrackBody(st.g, st.t)
  }

  /** One track chunk: the 'MTrk' tag, the big-endian length, then the events. */
  function TrackChunk(g: Gathered, s: Stream): (r: Result<Step, MidiError>)
    requires s.pos <= |s.data|
    ensures s.pos + 4 <= |s.data| && s.data[s.pos..s.pos + 4] != Mtrk ==> r == Err(BadTrackMarker)
    ensures r.Ok? ==>
              s.pos + 8 <= |s.data| && s.data[s.pos..s.pos + 4] == Mtrk &&
              r.value.t.s.data == s.data &&
              r.value.t.s.pos == s.pos + 8 + BigEndian(s.data[s.pos + 4..s.pos + 8]) &&
              r.value.t.s.pos <= |s.data|
    ensures r.Ok? ==> r.value.g.lastNo >= g.lastNo && |r.value.g.events| >= |g.events| &&
                      r.value.g.events[..|g.events|] == g.events
  {
    var m :- ReadOrEof(s, 4);
    if m.bytes != Mtrk then Err(BadTrackMarker)
    else
      var l :- ReadOrEof(m.rest, 4);
      ParseTrackBody(g, Track(l.rest, BigEndian(l.bytes), 0, 0, None))
  }

  /** The `for trkno in range(...)` loop: `n` track chunks in a row. */
  function ParseTracks(g: Gathered, s: Stream, n: nat): (r: Result<Gathered, MidiError>)
    requires s.pos <= |s.data|
    decreases n
    ensures r.Ok? ==> r.value.lastNo >= g.lastNo && g.events <= r.value.events
    ensures r.Ok? && GatheredInv(g) ==> GatheredInv(r.value)
  {
    if n == 0 then Ok(g)
    else
      var st :- TrackChunk(g, s);
      TrackChunkInvIf(g, s, st);
      ParseTracks(st.g, st.t.s, n - 1)
  }

  lemma TrackChunkInvIf(g: Gathered, s: Stream, r: Step)
    requires s.pos <= |s.data|
    requires TrackChunk(g, s) == Ok(r)
    ensures GatheredInv(g) ==> GatheredInv(r.g)
  {
    if GatheredInv(g) {
      TrackChunkInv(g, s, r);
    }
  }

  /** The header fields the merger uses: the track count and the time division,
      with the stream just after the header chunk. */
  datatype Header = Header(tracks: nat, division: nat, s: Stream)

  /** The header chunk after its tag: the length must be 6 and the format 1. */
  function CheckHeader(s: Stream): (r: Result<Header, MidiError>)
    requires s.pos <= |s.data|
    ensures r.Ok? ==> r.value.division < 0x1_0000 && r.value.s == Stream(s.data, s.pos + 10)
    ensures r.Ok? ==>
              s.pos + 10 <= |s.data| &&
              BigEndian(s.data[s.pos..s.pos + 4]) == 6 && BigEndian(s.data[s.pos + 4..s.pos + 6]) == 1 &&
              r.value.tracks == BigEndian(s.data[s.pos + 6..s.pos + 8]) &&
              r.value.division == BigEndian(s.data[s.pos + 8..s.pos + 10])
    ensures r.Err? && r.error == BadHeaderLength <==>
              s.pos + 4 <= |s.data| && BigEndian(s.data[s.pos..s.pos + 4]) != 6
    ensures r.Err? && r.error == BadFormat <==>
              s.pos + 10 <= |s.data| && BigEndian(s.data[s.pos..s.pos + 4]) == 6 &&
              BigEndian(s.data[s.pos + 4..s.pos + 6]) != 1
  {
    var lenb :- ReadOrEof(s, 4);
    if BigEndian(lenb.bytes) != 6 then Err(BadHeaderLength)
    else
      var h :- ReadOrEof(lenb.rest, 6);
      assert h.bytes[0..2] == s.data[s.pos + 4..s.pos + 6];
      assert h.bytes[2..4] == s.data[s.pos + 6..s.pos + 8];
      assert h.bytes[4..6] == s.data[s.pos + 8..s.pos + 10];
      if BigEndian(h.bytes[0..2]) != 1 then Err(BadFormat)
      else
        BigEndianBound(h.bytes[4..6]);
        Ok(Header(BigEndian(h.bytes[2..4]), BigEndian(h.bytes[4..6]), h.rest))
  }

  /** Find the first 'MThd', then check the header chunk behind it. */
  function ParseHeader(data: seq<byte>): (r: Result<Header, MidiError>)
    ensures r.Ok? ==> r.value.division < 0x1_0000 && r.value.s.data == data && r.value.s.pos <= |data|
    ensures r.Ok? || r.error in {EndOfFile, BadHeaderLength, BadFormat}
    ensures (forall j: nat :: !MatchAt(data, j, Mthd)) ==> r == Err(EndOfFile)
    ensures ReadUntil(Stream(data, 0), Mthd).Ok? ==>
              var tag := ReadUntil(Stream(data, 0), Mthd).value;
              FirstMatch(data, 0, tag.pos - 4, Mthd) && r == CheckHeader(tag)
  {
    var s :- ReadUntil(Stream(data, 0), Mthd);
    CheckHeader(s)
  }

  /** What the merger takes from its input: the time division and the gathered events. */
  datatype Input = Input(division: nat, g: Gathered)

  /** The input half of `main`: the header, then as many track chunks as it announces. */
  function ParseInput(data: seq<byte>): (r: Result<Input, MidiError>)
    ensures r.Ok? ==> r.value.division < 0x1_0000
    ensures r.Ok? ==> ParseHeader(data).Ok? && r.value.division == ParseHeader(data).value.division
    ensures ParseHeader(data).Err? ==> r.Err? && r.error == ParseHeader(data).error
  {
    var h :- ParseHeader(data);
    var g :- ParseTracks(Gathered([], 0, 0, false), h.s, h.tracks);
    Ok(Input(h.division, g))
  }

  /** A meta event the filter always drops (instrument name, end of track). */
  predicate Dropped(e: Event) {
    IsMeta(e) && |e.param| >= 1 && (e.param[0] == MetaInstrument || e.param[0] == MetaEndOfTrack)
  }

  /** What the parser keeps true of the gathered events: scan numbers strictly
      increase and stay below `last_no`, times stay within `max_time`, every event
      is well shaped, no dropped kind survives, and there is at most one title,
      present exactly when `have_title` is set. */
  ghost predicate GatheredInv(g: Gathered) {
    EventsBelow(g) && EventsKept(g.events) && NosIncreasing(g.events) && TitleFlag(g)
  }

  /** Every event has a scan number below `last_no` and a time within `max_time`. */
  ghost predicate EventsBelow(g: Gathered) {
    forall i :: 0 <= i < |g.events| ==> g.events[i].no < g.lastNo && g.events[i].time <= g.maxTime
  }

  /** Every event is well shaped and of a kind the filter keeps. */
  ghost predicate EventsKept(es: seq<Event>) {
    forall i :: 0 <= i < |es| ==> WellShaped(es[i]) && !Dropped(es[i])
  }

  ghost predicate NosIncreasing(es: seq<Event>) {
    forall i, j :: 0 <= i < j < |es| ==> es[i].no < es[j].no
  }

  /** At most one title, present exactly when `have_title` is set. */
  ghost predicate TitleFlag(g: Gathered) {
    Titles(g.events) <= 1 && (g.haveTitle <==> Titles(g.events) == 1)
  }

  /** The number of title events in `es`. */
  function Titles(es: seq<Event>): nat
    decreases |es|
  {
    if |es| == 0 then 0 else Titles(es[..|es| - 1]) + (if IsTitle(es[|es| - 1]) then 1 else 0)
  }

  /** The filter step keeps the invariant for an event numbered `last_no`. */
  lemma GatherInv(g: Gathered, e: Event)
    requires GatheredInv(g) && WellShaped(e) && e.no == g.lastNo
    ensures GatheredInv(Gather(g, e))
  {
    var g' := Gather(g, e);
    if g'.events == g.events + [e] {
      SnocKept(g.events, e);
      SnocIncreasing(g.events, e);
      TitlesSnoc(g.events, e);
      assert forall i :: 0 <= i < |g.events| ==> g'.events[i] == g.events[i];
    } else {
      assert g'.events == g.events;
    }
  }

  lemma SnocKept(es: seq<Event>, e: Event)
    requires EventsKept(es) && WellShaped(e) && !Dropped(e)
    ensures EventsKept(es + [e])
  {
    assert forall i :: 0 <= i < |es| ==> (es + [e])[i] == es[i];
  }

  lemma SnocIncreasing(es: seq<Event>, e: Event)
    requires NosIncreasing(es) && forall i :: 0 <= i < |es| ==> es[i].no < e.no
    ensures NosIncreasing(es + [e])
  {
    assert forall i :: 0 <= i < |es| ==> (es + [e])[i] == es[i];
  }

  lemma TitlesSnoc(es: seq<Event>, e: Event)
    ensures Titles(es + [e]) == Titles(es) + if IsTitle(e) then 1 else 0
  {
    assert (es + [e])[..|es|] == es;
  }

  lemma ParseEventInv(g: Gathered, t: Track)
    requires t.s.pos <= |t.s.data| && t.lenRead < t.len && StatusByte(t.runStatus)
    requires GatheredInv(g)
    requires ParseEvent(g, t).Ok?
    ensures GatheredInv(ParseEvent(g, t).value.g)
  {
    var h := ReadHead(t).value;
    var b := ReadBody(h, t.len).value;
    GatherInv(g, Event(h.time, g.lastNo, h.status, b.param, b.data));
  }

  lemma {:induction false} ParseTrackBodyInv(g: Gathered, t: Track)
    requires t.s.pos <= |t.s.data| && t.lenRead <= t.len && StatusByte(t.runStatus)
    requires GatheredInv(g)
    requires ParseTrackBody(g, t).Ok?
    ensures GatheredInv(ParseTrackBody(g, t).value.g)
    decreases t.len - t.lenRead
  {
    if t.lenRead < t.len {
      var st := ParseEvent(g, t).value;
      ParseEventInv(g, t);
      ParseTrackBodyInv(st.g, st.t);
    }
  }

  lemma TrackChunkInv(g: Gathered, s: Stream, r: Step)
    requires s.pos <= |s.data|
    requires GatheredInv(g)
    requires TrackChunk(g, s) == Ok(r)
    ensures GatheredInv(r.g)
  {
    var m := ReadOrEof(s, 4).value;
    var l := ReadOrEof(m.rest, 4).value;
    ParseTrackBodyInv(g, Track(l.rest, BigEndian(l.bytes), 0, 0, None));
  }

  /** Every successful parse of a file ends in a state satisfying the invariant. */
  lemma ParseInputInv(data: seq<byte>)
    requires ParseInput(data).Ok?
    ensures GatheredInv(ParseInput(data).value.g)
  {
    var h := ParseHeader(data).value;
    var g0 := Gathered([], 0, 0, false);
    assert GatheredInv(g0) by {
      assert Titles([]) == 0;
    }
    assert ParseTracks(g0, h.s, h.tracks).Ok?;
  }

  lemma {:induction false} BigEndianBound(bs: seq<byte>)
    ensures BigEndian(bs) < Pow256(|bs|)
    decreases |bs|
  {
    if |bs| > 0 {
      BigEndianBound(bs[..|bs| - 1]);
    }
  }

  function Pow256(n: nat): (r: nat)
    ensures r >= 1
  {
    if n == 0 then 1 else 256 * Pow256(n - 1)
  }
}

=== FILE: node_proto.dfy ===
/** The node protocol shared by the schedulers (app/app-core/src/proto.rs and
    app/proto/src/lib.rs): what a node answers to a message, and the defaults
    a node gets when it does not override them. */
module NodeProto {
  import opened Wrappers

  /** `HandleResult`: handled with a reply, dropped, or not finished yet. */
  datatype HandleResult<M> = Finish(reply: M) | Discard | Pending

  /** `HandleResult::unwrap`: the reply of a finished message; `None` is the
      panic on `Discard` and `Pending`. */
  function Unwrap<M>(r: HandleResult<M>): (m: Option<M>)
    ensures m.Some? <==> r.Finish?
    ensures m.Some? ==> r == Finish(m.value)
  {
    match r
    case Finish(reply) => Some(reply)
    case _ => None
  }

  /** Unwrapping recovers exactly the reply that was finished with. */
  lemma UnwrapFinish<M>(m: M, r: HandleResult<M>)
    ensures Unwrap(r) == Some(m) <==> r == Finish(m)
  {
  }

  /** `Node::priority` when not overridden (app/proto only). */
  const DefaultPriority: nat := 0

  /** `Node::handle_message` when not overridden: every message is dropped. */
  function DefaultHandle<M, H>(header: H): (r: HandleResult<M>)
    ensures Unwrap(r).None? && !r.Pending?
  {
    Discard
  }
}

=== FILE: pitch.dfy ===
/** Musical pitch arithmetic of the tone library (libs/embedded-tone/src/note.rs):
    note names, octaves and solfege names with their `From<u8>` conversions,
    absolute pitches and their key `octave * 12 + note`, semitone shifts, and
    pitches relative to a base. A Rust panic is `None`. */
module Pitch {
  import opened Wrappers
  import opened Ints

  datatype SolfegeName = Do | DoSharp | Re | ReSharp | Mi | Fa | FaSharp | Sol | SolSharp | La | LaSharp | Si

  datatype NoteName = C | Cs | D | Eb | E | F | Fs | G | Gs | A | Bb | B

  datatype Octave = O0 | O1 | O2 | O3 | O4 | O5 | O6 | O7 | O8 | O9 | O10

  /** `val as u8`: the declaration index. */
  function SolfegeIndex(s: SolfegeName): (r: nat)
    ensures r < 12 && SolfegeFrom(r) == Some(s)
  {
    match s
    case Do => 0 case DoSharp => 1 case Re => 2 case ReSharp => 3
    case Mi => 4 case Fa => 5 case FaSharp => 6 case Sol => 7
    case SolSharp => 8 case La => 9 case LaSharp => 10 case Si => 11
  }

  /** `SolfegeName::from(u8)`: panics outside 0..=11. */
  function SolfegeFrom(x: u8): (r: Option<SolfegeName>)
    ensures r.Some? <==> x < 12
  {
    match x
    case 0 => Some(Do) case 1 => Some(DoSharp) case 2 => Some(Re) case 3 => Some(ReSharp)
    case 4 => Some(Mi) case 5 => Some(Fa) case 6 => Some(FaSharp) case 7 => Some(Sol)
    case 8 => Some(SolSharp) case 9 => Some(La) case 10 => Some(LaSharp) case 11 => Some(Si)
    case _ => None
  }

  /** `u8::from(NoteName)`: the declaration index. */
  function NoteIndex(n: NoteName): (r: nat)
    ensures r < 12 && NoteFrom(r) == Some(n)
  {
    match n
    case C => 0 case Cs => 1 case D => 2 case Eb => 3 case E => 4 case F => 5
    case Fs => 6 case G => 7 case Gs => 8 case A => 9 case Bb => 10 case B => 11
  }

  /** `NoteName::from(u8)`: panics outside 0..=11. */
  function NoteFrom(x: u8): (r: Option<NoteName>)
    ensures r.Some? <==> x < 12
  {
    match x
    case 0 => Some(C) case 1 => Some(Cs) case 2 => Some(D) case 3 => Some(Eb)
    case 4 => Some(E) case 5 => Some(F) case 6 => Some(Fs) case 7 => Some(G)
    case 8 => Some(Gs) case 9 => Some(A) case 10 => Some(Bb) case 11 => Some(B)
    case _ => None
  }

  /** `octave as u8`: the declaration index. */
  function OctaveIndex(o: Octave): (r: nat)
    ensures r <= 10 && OctaveFrom(r) == Some(o)
  {
    match o
    case O0 => 0 case O1 => 1 case O2 => 2 case O3 => 3 case O4 => 4 case O5 => 5
    case O6 => 6 case O7 => 7 case O8 => 8 case O9 => 9 case O10 => 10
  }

  /** `Octave::from(u8)`: panics outside 0..=10. */
  function OctaveFrom(x: u8): (r: Option<Octave>)
    ensures r.Some? <==> x <= 10
  {
    match x
    case 0 => Some(O0) case 1 => Some(O1) case 2 => Some(O2) case 3 => Some(O3)
    case 4 => Some(O4) case 5 => Some(O5) case 6 => Some(O6) case 7 => Some(O7)
    case 8 => Some(O8) case 9 => Some(O9) case 10 => Some(O10)
    case _ => None
  }

  /** The conversions from `u8` invert the indices. */
  lemma IndexRoundTrips(x: u8)
    ensures x < 12 ==> NoteIndex(NoteFrom(x).value) == x && SolfegeIndex(SolfegeFrom(x).value) == x
    ensures x <= 10 ==> OctaveIndex(OctaveFrom(x).value) == x
  {
  }

  /** `AbsulateNotePitch` in the source's spelling. */
  datatype AbsolutePitch = AbsolutePitch(note: NoteName, octave: Octave)

  /** `to_midi_note_key`: twelve keys per octave, counted from C in octave 0. */
  function Key(p: AbsolutePitch): (r: u8)
    ensures r <= 131 && r / 12 == OctaveIndex(p.octave) && r % 12 == NoteIndex(p.note)
  {
    OctaveIndex(p.octave) * 12 + NoteIndex(p.note)
  }

  /** `from_midi_note_key`: octave `key / 12`, note `key % 12`; the octave
      conversion panics from key 132 on. */
  function FromKey(key: u8): (r: Option<AbsolutePitch>)
    ensures r.Some? <==> key <= 131
    ensures r.Some? ==> Key(r.value) == key
  {
    if key > 131 then None
    else
      IndexRoundTrips(key % 12);
      IndexRoundTrips(key / 12);
      Some(AbsolutePitch(NoteFrom(key % 12).value, OctaveFrom(key / 12).value))
  }

  lemma KeyRoundTrip(p: AbsolutePitch)
    ensures FromKey(Key(p)) == Some(p)
  {
  }

  /** Distinct pitches have distinct keys. */
  lemma KeyInjective(p: AbsolutePitch, q: AbsolutePitch)
    ensures Key(p) == Key(q) <==> p == q
  {
    if Key(p) == Key(q) {
      KeyRoundTrip(p);
      KeyRoundTrip(q);
    }
  }

  datatype Ordering = Less | Equal | Greater

  /** `partial_cmp`: pitches compare by key. */
  function Compare(p: AbsolutePitch, q: AbsolutePitch): (r: Ordering)
    ensures r == Less <==> Key(p) < Key(q)
    ensures r == Greater <==> Key(q) < Key(p)
  {
    if Key(p) < Key(q) then Less else if Key(p) == Key(q) then Equal else Greater
  }

  /** The order agrees with the derived equality and is a total order. */
  lemma CompareTotalOrder(p: AbsolutePitch, q: AbsolutePitch, s: AbsolutePitch)
    ensures Compare(p, q) == Equal <==> p == q
    ensures Compare(p, q) == Less <==> Compare(q, p) == Greater
    ensures Compare(p, q) == Less && Compare(q, s) == Less ==> Compare(p, s) == Less
  {
    KeyInjective(p, q);
  }

  /** `add(half_tone)` as written: the distance `octave * 12 + note` plus the
      shift, split with Rust's truncating `/` and `%`, each part cast to `u8`
      before the range-checked conversions. An `i32` overflow panics. */
  function AddAsWritten(p: AbsolutePitch, halfTone: i32): (r: Option<AbsolutePitch>)
    ensures r.Some? ==> Key(r.value) % 12 == (Key(p) + halfTone) % 12
  {
    var newDist := OctaveIndex(p.octave) * 12 + NoteIndex(p.note) + halfTone;
    if !IsI32(newDist) then None
    else
      var n :- NoteFrom(AsU8(TruncRem(newDist, 12)));
      var o :- OctaveFrom(AsU8(TruncDiv(newDist, 12)));
      Some(AbsolutePitch(n, o))
  }

  /** `add(half_tone)` as intended: the pitch `half_tone` keys away, which
      exists only when that key is in 0..=131. */
  function Add(p: AbsolutePitch, halfTone: int): (r: Option<AbsolutePitch>)
    ensures r.Some? <==> 0 <= Key(p) + halfTone <= 131
    ensures r.Some? ==> Key(r.value) == Key(p) + halfTone
  {
    if 0 <= Key(p) + halfTone <= 131 then FromKey(Key(p) + halfTone) else None
  }

  /** As written, a shifted distance of 3072 has octave 256, which the `u8`
      cast turns into octave 0: C0 shifted up 256 octaves is C0 again. A
      distance of -2952 has octave -246, which the cast turns into 10. */
  lemma AddWrapsOctave()
    ensures AddAsWritten(AbsolutePitch(C, O0), 3072) == Some(AbsolutePitch(C, O0))
    ensures Add(AbsolutePitch(C, O0), 3072) == None
    ensures AddAsWritten(AbsolutePitch(C, O0), -2952) == Some(AbsolutePitch(C, O10))
    ensures Add(AbsolutePitch(C, O0), -2952) == None
  {
  }

  /** Short of the wrap-around the code as written is the intended shift: a
      negative distance panics on a note or an octave cast to 11 or more, a
      distance from 132 to 3071 on an octave from 11 to 255. */
  lemma AddAgrees(p: AbsolutePitch, halfTone: i32)
    requires -2952 < Key(p) + halfTone < 3072
    ensures AddAsWritten(p, halfTone) == Add(p, halfTone)
  {
    var newDist := Key(p) + halfTone;
    if newDist < 0 {
      if TruncRem(newDist, 12) == 0 {
        assert TruncDiv(newDist, 12) < 0;
        assert AsU8(TruncDiv(newDist, 12)) > 10;
      } else {
        assert AsU8(TruncRem(newDist, 12)) >= 12;
      }
    } else if newDist <= 131 {
      assert AddAsWritten(p, halfTone).Some?;
      KeyInjective(AddAsWritten(p, halfTone).value, Add(p, halfTone).value);
    }
  }

  /** `RelativePitch`: a solfege name in an octave, measured from a base pitch. */
  datatype RelativePitch = RelativePitch(solfege: SolfegeName, octave: Octave)

  /** `to_absulate(base)`: the base shifted by `octave * 12 + solfege`. */
  function ToAbsolute(rp: RelativePitch, base: AbsolutePitch): (r: Option<AbsolutePitch>)
    ensures var d := OctaveIndex(rp.octave) * 12 + SolfegeIndex(rp.solfege);
            (r.Some? <==> Key(base) + d <= 131) &&
            (r.Some? ==> Key(r.value) == Key(base) + d)
  {
    Add(base, OctaveIndex(rp.octave) * 12 + SolfegeIndex(rp.solfege))
  }

  /** The relative distance is at most 131, far below the wrap-around, so the
      shift as written gives the same pitch. */
  lemma ToAbsoluteAsWritten(rp: RelativePitch, base: AbsolutePitch)
    ensures AddAsWritten(base, OctaveIndex(rp.octave) * 12 + SolfegeIndex(rp.solfege)) == ToAbsolute(rp, base)
  {
    var d := OctaveIndex(rp.octave) * 12 + SolfegeIndex(rp.solfege);
    assert 0 <= d <= 131;
    AddAgrees(base, d);
  }

  /** `NoteDuration`; `Other` carries an arbitrary length in whole notes. */
  datatype NoteDuration =
    | WholeDotted | Whole | HalfDotted | Half | QuarterDotted | Quarter
    | EighthDotted | Eighth | SixteenthDotted | Sixteenth
    | ThirtySecondDotted | ThirtySecond | SixtyFourthDotted | SixtyFourth
    | Other(length: real)

  /** `f32::from(NoteDuration)`: the length in whole notes. Every named length
      is a power of two times 1 or 3/2, so `f32` holds it exactly. */
  function Length(d: NoteDuration): (r: real)
    ensures !d.Other? ==> 0.0 < r <= 1.5
  {
    match d
    case WholeDotted => 3.0 / 2.0
    case Whole => 1.0
    case HalfDotted => 3.0 / 4.0
    case Half => 1.0 / 2.0
    case QuarterDotted => 3.0 / 8.0
    case Quarter => 1.0 / 4.0
    case EighthDotted => 3.0 / 16.0
    case Eighth => 1.0 / 8.0
    case SixteenthDotted => 3.0 / 32.0
    case Sixteenth => 1.0 / 16.0
    case ThirtySecondDotted => 3.0 / 64.0
    case ThirtySecond => 1.0 / 32.0
    case SixtyFourthDotted => 3.0 / 128.0
    case SixtyFourth => 1.0 / 64.0
    case Other(x) => x
  }

  /** The plain lengths halve from whole to sixty-fourth, and a dotted note
      lasts one and a half times its plain one. */
  lemma LengthLadder()
    ensures Length(Half) == Length(Whole) / 2.0 && Length(Quarter) == Length(Half) / 2.0
    ensures Length(Eighth) == Length(Quarter) / 2.0 && Length(Sixteenth) == Length(Eighth) / 2.0
    ensures Length(ThirtySecond) == Length(Sixteenth) / 2.0 && Length(SixtyFourth) == Length(ThirtySecond) / 2.0
    ensures Length(WholeDotted) == Length(Whole) * 1.5 && Length(HalfDotted) == Length(Half) * 1.5
    ensures Length(QuarterDotted) == Length(Quarter) * 1.5 && Length(EighthDotted) == Length(Eighth) * 1.5
    ensures Length(SixteenthDotted) == Length(Sixteenth) * 1.5
    ensures Length(ThirtySecondDotted) == Length(ThirtySecond) * 1.5
    ensures Length(SixtyFourthDotted) == Length(SixtyFourth) * 1.5
  {
  }

  datatype Note = Note(pitch: AbsolutePitch, duration: NoteDuration)
}

=== FILE: routes.dfy ===
/** The pages of the router and the nodes that drive them
    (app/proto/src/message/router.rs; the node names of app/proto/src/node.rs). */
module Router {
  import opened Wrappers

  datatype NodeName =
    | Scheduler | HttpClient | Weather | Timer | OneButton | Router | Storage | WiFi | Buzzer
    | MidiPlayer | System | Notifaction | Canvas | Alarm
    | BootPage | HomePage | MenuPage | WeatherPage | MusicPage
    | Other(name: string)

  datatype RoutePage = Boot | Home | Menu | Weather | Music

  /** `RouterMessage`: going to a page is the only message. */
  datatype RouterMessage = GotoPage(page: RoutePage)

  /** `map_to_node_name`: each page is driven by its own page node. */
  function MapToNodeName(p: RoutePage): (r: NodeName)
    ensures r.BootPage? || r.HomePage? || r.MenuPage? || r.WeatherPage? || r.MusicPage?
  {
    match p
    case Boot => BootPage
    case Home => HomePage
    case Menu => MenuPage
    case Weather => WeatherPage
    case Music => MusicPage
  }

  /** The page a node drives, if it is a page node. */
  function PageOf(n: NodeName): (r: Option<RoutePage>)
  {
    match n
    case BootPage => Some(Boot)
    case HomePage => Some(Home)
    case MenuPage => Some(Menu)
    case WeatherPage => Some(RoutePage.Weather)
    case MusicPage => Some(Music)
    case _ => None
  }

  /** A node drives a page exactly when the page maps to it; so distinct
      pages have distinct nodes. */
  lemma NodeOfPage(p: RoutePage, n: NodeName)
    ensures MapToNodeName(p) == n <==> PageOf(n) == Some(p)
  {
  }

  lemma MapToNodeNameInjective(p: RoutePage, q: RoutePage)
    requires MapToNodeName(p) == MapToNodeName(q)
    ensures p == q
  {
    NodeOfPage(p, MapToNodeName(q));
    NodeOfPage(q, MapToNodeName(q));
  }
}

/** The app core's own copy of the pages (app/app-core/src/proto/message/router.rs):
    the same as `Router` without the music page. Its node names are those of
    `Router`. */
module CoreRouter {
  import opened Wrappers
  import R = Router

  datatype RoutePage = Boot | Home | Menu | Weather

  datatype RouterMessage = GotoPage(page: RoutePage)

  /** `map_to_node_name`. */
  function MapToNodeName(p: RoutePage): (r: R.NodeName)
    ensures r.BootPage? || r.HomePage? || r.MenuPage? || r.WeatherPage?
  {
    match p
    case Boot => R.BootPage
    case Home => R.HomePage
    case Menu => R.MenuPage
    case Weather => R.WeatherPage
  }

  /** The same node as the full router gives the page of the same name. */
  function Widen(p: RoutePage): (r: R.RoutePage)
    ensures !r.Music?
  {
    match p
    case Boot => R.Boot
    case Home => R.Home
    case Menu => R.Menu
    case Weather => R.RoutePage.Weather
  }

  lemma AgreesWithRouter(p: RoutePage)
    ensures MapToNodeName(p) == R.MapToNodeName(Widen(p))
  {
  }

  lemma MapToNodeNameInjective(p: RoutePage, q: RoutePage)
    requires MapToNodeName(p) == MapToNodeName(q)
    ensures p == q
  {
    R.MapToNodeNameInjective(Widen(p), Widen(q));
  }
}

/** The app core's conversions between the router's pages and the UI's route
    table (app/app-core/src/adapter/route.rs), over the five pages its matches
    name. `PageRouteTable` is generated from the UI markup. */
module RouteAdapter {
  import R = Router

  datatype PageRouteTable = Boot | Home | Menu | Weather | Music

  function PageName(p: R.RoutePage): string {
    match p
    case Boot => "Boot"
    case Home => "Home"
    case Menu => "Menu"
    case Weather => "Weather"
    case Music => "Music"
  }

  function TableName(t: PageRouteTable): string {
    match t
    case Boot => "Boot"
    case Home => "Home"
    case Menu => "Menu"
    case Weather => "Weather"
    case Music => "Music"
  }

  /** `proto_route_table_to_slint_route_table`: the entry of the same name. */
  function ProtoToSlint(p: R.RoutePage): (r: PageRouteTable)
    ensures TableName(r) == PageName(p)
  {
    match p
    case Boot => Boot
    case Home => Home
    case Menu => Menu
    case Weather => Weather
    case Music => Music
  }

  /** `slint_route_table_to_proto_route_table`: the page of the same name. */
  function SlintToProto(t: PageRouteTable): (r: R.RoutePage)
    ensures PageName(r) == TableName(t)
  {
    match t
    case Boot => R.Boot
    case Home => R.Home
    case Menu => R.Menu
    case Weather => R.RoutePage.Weather
    case Music => R.Music
  }

  lemma RoundTrips(p: R.RoutePage, t: PageRouteTable)
    ensures SlintToProto(ProtoToSlint(p)) == p
    ensures ProtoToSlint(SlintToProto(t)) == t
  {
  }
}

/** The second app's conversions (slint-app-v2/src/adapter/route.rs), over the
    four pages its matches name. */
module V2RouteAdapter {
  datatype RoutePage = Boot | Home | Menu | Weather

  datatype PageRouteTable = Boot | Home | Menu | Weather

  function PageName(p: RoutePage): string {
    match p
    case Boot => "Boot"
    case Home => "Home"
    case Menu => "Menu"
    case Weather => "Weather"
  }

  function TableName(t: PageRouteTable): string {
    match t
    case Boot => "Boot"
    case Home => "Home"
    case Menu => "Menu"
    case Weather => "Weather"
  }

  function ProtoToSlint(p: RoutePage): (r: PageRouteTable)
    ensures TableName(r) == PageName(p)
  {
    match p
    case Boot => PageRouteTable.Boot
    case Home => PageRouteTable.Home
    case Menu => PageRouteTable.Menu
    case Weather => PageRouteTable.Weather
  }

  function SlintToProto(t: PageRouteTable): (r: RoutePage)
    ensures PageName(r) == TableName(t)
  {
    match t
    case Boot => RoutePage.Boot
    case Home => RoutePage.Home
    case Menu => RoutePage.Menu
    case Weather => RoutePage.Weather
  }

  lemma RoundTrips(p: RoutePage, t: PageRouteTable)
    ensures SlintToProto(ProtoToSlint(p)) == p
    ensures ProtoToSlint(SlintToProto(t)) == t
  {
  }
}

=== FILE: static_file.dfy ===
/** The static-file HTTP handler (`StaticFileHandler::handle` in
    slint-app/src/app/server/static_file.rs; `VueConsoleHandler::handle` in
    slint-app/src/server.rs is the same code over the bundled console
    directory). A directory is a map from file paths to contents; a response
    is what the handler initiates and writes. Connection errors are not part
    of this model. */
module StaticFile {
  import opened Wrappers
  import opened Ints
  import opened Parse

  type Dir = map<string, seq<u8>>

  datatype Response = Response(status: nat, reason: string, headers: seq<(string, string)>, body: seq<u8>)

  /** The path of a request URI: the URI without its first character, cut
      before the first '?'. A URI that is empty or starts with '?' slices out
      of order and panics (`None`). */
  function UriPath(uri: string): (r: Option<string>)
    ensures r.None? <==> |uri| == 0 || uri[0] == '?'
    ensures r.Some? ==> '?' !in r.value
  {
    if |uri| == 0 then None
    else
      var idx := FirstIndex(uri, '?');
      if idx == 0 then None else Some(uri[1..idx])
  }

  /** `find`: the first position of `c`, or the length when there is none. */
  function FirstIndex(s: string, c: char): (r: nat)
    ensures r <= |s| && c !in s[..r]
    ensures r < |s| ==> s[r] == c
    decreases |s|
  {
    if |s| == 0 then 0
    else if s[0] == c then 0
    else
      var i := FirstIndex(s[1..], c);
      assert s[..i + 1] == [s[0]] + s[1..][..i];
      i + 1
  }

  /** The file a path names: the index page for the empty path. */
  function FilePath(path: string): (r: string)
    ensures |r| > 0
    ensures path != "" ==> r == path
  {
    if path == "" then "index.html" else path
  }

  /** The type of a file from the text after its last '.'. */
  function ContentType(filePath: string): (r: string)
  {
    var parts := Split(filePath, '.');
    TypeOfExtension(parts[|parts| - 1])
  }

  function TypeOfExtension(ext: string): (r: string)
    ensures ext !in {"html", "js", "css", "png", "ico", "svg"} ==> r == ""
    ensures r == "" ==> ext !in {"html", "js", "css", "png", "ico", "svg"}
  {
    match ext
    case "html" => "text/html"
    case "js" => "application/javascript"
    case "css" => "text/css"
    case "png" => "image/png"
    case "ico" => "image/x-icon"
    case "svg" => "image/svg+xml"
    case _ => ""
  }

  /** The ID1 and ID2 bytes of a gzip member (section 2.3.1 of RFC 1952). */
  const GzipMagic: seq<u8> := [0x1f, 0x8b]

  predicate IsGzip(contents: seq<u8>) {
    |contents| >= 2 && contents[..2] == GzipMagic
  }

  /** The ASCII bytes of a text. */
  function Ascii(s: string): (r: seq<u8>)
    requires forall i :: 0 <= i < |s| ==> s[i] as int < 0x80
    ensures |r| == |s| && forall i :: 0 <= i < |s| ==> r[i] == s[i] as int
  {
    seq(|s|, i requires 0 <= i < |s| => s[i] as int as u8)
  }

  const NotFoundBody := Ascii("Page Not Found")

  /** `handle`: a file that exists is sent whole with status 200, its content
      type, and `Content-Encoding: gzip` when it starts with the gzip magic;
      otherwise 404 with "Page Not Found". */
  function Handle(dir: Dir, uri: string): (r: Option<Response>)
    ensures r.None? <==> UriPath(uri).None?
    ensures r.Some? ==>
              var fp := FilePath(UriPath(uri).value);
              (fp in dir ==> r.value.status == 200 && r.value.body == dir[fp] && |r.value.headers| >= 1 &&
                             r.value.headers[0] == ("Content-Type", ContentType(fp)) &&
                             (("Content-Encoding", "gzip") in r.value.headers <==> IsGzip(dir[fp]))) &&
              (fp !in dir ==> r.value.status == 404 && r.value.body == NotFoundBody)
  {
    var path :- UriPath(uri);
    var fp := FilePath(path);
    if fp in dir then
      var contents := dir[fp];
      var headers := if IsGzip(contents) then [("Content-Type", ContentType(fp)), ("Content-Encoding", "gzip")]
                     else [("Content-Type", ContentType(fp))];
      Some(Response(200, "OK", headers, contents))
    else
      Some(Response(404, "Not Found", [("Content-Type", "")], NotFoundBody))
  }

  /** The request for a path: the path after a '/' is read back. */
  lemma PathRoundTrip(path: string, query: string)
    requires '?' !in path
    ensures UriPath("/" + path) == Some(path)
    ensures UriPath("/" + path + "?" + query) == Some(path)
  {
    var u1, u2 := "/" + path, "/" + path + "?" + query;
    assert '?' !in u1;
    NoIndex(u1, '?');
    assert u2 == u1 + ("?" + query);
    IndexAfter(u1, "?" + query, '?');
    assert u1[1..|u1|] == path && u2[1..|u1|] == path;
  }

  lemma {:induction false} NoIndex(s: string, c: char)
    requires c !in s
    ensures FirstIndex(s, c) == |s|
    decreases |s|
  {
    if |s| > 0 {
      NoIndex(s[1..], c);
    }
  }

  lemma {:induction false} IndexAfter(s: string, t: string, c: char)
    requires c !in s && |t| > 0 && t[0] == c
    ensures FirstIndex(s + t, c) == |s|
    decreases |s|
  {
    if |s| > 0 {
      assert (s + t)[1..] == s[1..] + t;
      IndexAfter(s[1..], t, c);
    }
  }

  /** The query string never changes the response. */
  lemma QueryIgnored(dir: Dir, path: string, query: string)
    requires '?' !in path
    ensures Handle(dir, "/" + path + "?" + query) == Handle(dir, "/" + path)
  {
    PathRoundTrip(path, query);
  }

  /** A name with an extension gets the type of that extension. */
  lemma ContentTypeOfExtension(name: string, ext: string)
    requires '.' !in ext
    ensures ContentType(name + "." + ext) == TypeOfExtension(ext)
  {
    SplitAppend(name, ext, '.');
    SplitPiece(ext, '.');
  }
}

=== FILE: storage_facades.dfy ===
/** What the storage facades share: the outcome of a facade call, and the
    JSON text of stored lists and records. JSON encoding is serde_json's and
    is outside this model: a codec is any pair of functions, and the facts
    that depend on reading back what was written assume the codec round-trips. */
module StorageFacade {
  import opened Wrappers
  import opened StorageProto
  import opened StorageClient

  datatype Codec<!T> = Codec(encode: T -> string, decode: string -> Option<T>)

  ghost predicate Lawful<T(!new)>(c: Codec<T>) {
    forall x :: c.decode(c.encode(x)) == Some(x)
  }

  /** A facade call: a panic, an error (with the store as it was left), or a value. */
  datatype Outcome<T> = Panic | Failed(store: Store, error: StorageError) | Done(store: Store, value: T)

  /** A stored list: a missing, non-string or malformed value reads as empty. */
  function ListOf<T>(v: StorageValue, c: Codec<seq<T>>): (r: seq<T>)
    ensures v.Str? && c.decode(v.text).Some? ==> r == c.decode(v.text).value
    ensures !(v.Str? && c.decode(v.text).Some?) ==> r == []
  {
    match v
    case Str(x) => (match c.decode(x) case Some(l) => l case None => [])
    case _ => []
  }

  /** The list without `x`, the rest in order (`filter(|e| e != x)`). */
  function Without<T(==)>(l: seq<T>, x: T): (r: seq<T>)
    decreases |l|
  {
    if |l| == 0 then [] else (if l[0] == x then [] else [l[0]]) + Without(l[1..], x)
  }

  lemma {:induction false} WithoutMembers<T>(l: seq<T>, x: T)
    ensures forall y :: y in Without(l, x) <==> y in l && y != x
    decreases |l|
  {
    if |l| > 0 {
      WithoutMembers(l[1..], x);
      assert l == [l[0]] + l[1..];
    }
  }

  /** Removing an absent element changes nothing. */
  lemma {:induction false} WithoutAbsent<T>(l: seq<T>, x: T)
    requires x !in l
    ensures Without(l, x) == l
    decreases |l|
  {
    if |l| > 0 {
      WithoutAbsent(l[1..], x);
      assert l == [l[0]] + l[1..];
    }
  }

  function Count<T(==)>(l: seq<T>, x: T): nat
    decreases |l|
  {
    if |l| == 0 then 0 else (if l[0] == x then 1 else 0) + Count(l[1..], x)
  }

  lemma {:induction false} CountAppend<T>(a: seq<T>, b: seq<T>, x: T)
    ensures Count(a + b, x) == Count(a, x) + Count(b, x)
    decreases |a|
  {
    if |a| == 0 {
      assert a + b == b;
    } else {
      assert (a + b)[0] == a[0] && (a + b)[1..] == a[1..] + b;
      CountAppend(a[1..], b, x);
    }
  }

  lemma {:induction false} CountAbsent<T>(l: seq<T>, x: T)
    requires x !in l
    ensures Count(l, x) == 0
    decreases |l|
  {
    if |l| > 0 {
      CountAbsent(l[1..], x);
    }
  }
}

/** The user-alarm records (app/proto/src/storage/useralarm.rs): a JSON list
    of ids under "useralarm/list" and one JSON record per id under
    "useralarm/data/{id}". Records are any type `B`. */
module UserAlarmStorage {
  import opened Wrappers
  import opened Text
  import opened StorageProto
  import opened StorageClient
  import opened StorageFacade

  const ListKey: string := "useralarm/list"

  function DataKey(id: nat): string {
    "useralarm/data/" + NatText(id)
  }

  /** The list key and the record keys never meet, and records of different ids never share a key. */
  lemma KeysDistinct(a: nat, b: nat)
    ensures DataKey(a) != ListKey
    ensures DataKey(a) == DataKey(b) ==> a == b
  {
    PrefixDiffers(DataKey(a), ListKey, 10);
    if DataKey(a) == DataKey(b) {
      assert DataKey(a)[15..] == NatText(a) && DataKey(b)[15..] == NatText(b);
      NatTextInjective(a, b);
    }
  }

  /** `update_id_list`: write the list as JSON under the list key. It fails
      exactly when that write fails, touches no other key, and the list reads
      back as written when the codec round-trips. */
  function UpdateIdList(st: Store, list: seq<nat>, ids: Codec<seq<nat>>): (r: Result<Store, StorageError>)
    ensures r.Err? <==> ListKey in st.writeFails
    ensures r.Ok? ==> r.value.readFails == st.readFails &&
                      forall j :: j != ListKey ==> Get(r.value, j) == Get(st, j)
    ensures r.Ok? && Lawful(ids) && ListKey !in st.readFails ==> GetIdList(r.value, ids) == Ok(list)
  {
    Set(st, ListKey, Str(ids.encode(list)))
  }

  /** `get_id_list`: the stored list, empty when missing, not a string, or
      malformed; a storage error is passed on. */
  function GetIdList(st: Store, ids: Codec<seq<nat>>): (r: Result<seq<nat>, StorageError>)
    ensures r.Err? <==> ListKey in st.readFails
    ensures r.Ok? ==> r.value == ListOf(Get(st, ListKey).value, ids)
  {
    var v :- Get(st, ListKey);
    Ok(ListOf(v, ids))
  }

  /** `get`: the record stored for `id`; a value that is not a string, or
      text that does not decode, panics. */
  function GetAlarm<B>(st: Store, id: nat, bodies: Codec<B>): (r: Outcome<B>)
    ensures r.Failed? <==> DataKey(id) in st.readFails
    ensures r.Failed? ==> r.store == st
    ensures r.Done? <==> DataKey(id) !in st.readFails && DataKey(id) in st.data &&
                         st.data[DataKey(id)].Str? && bodies.decode(st.data[DataKey(id)].text).Some?
    ensures r.Done? ==> r.store == st && r.value == bodies.decode(st.data[DataKey(id)].text).value
  {
    match Get(st, DataKey(id))
    case Err(e) => Failed(st, e)
    case Ok(Str(x)) => (match bodies.decode(x) case Some(b) => Done(st, b) case None => Panic)
    case Ok(_) => Panic
  }

  /** The largest id, or 0 for none. */
  function MaxId(list: seq<nat>): (r: nat)
    decreases |list|
    ensures forall i :: 0 <= i < |list| ==> list[i] <= r
  {
    if |list| == 0 then 0
    else
      var m := MaxId(list[1..]);
      if list[0] > m then list[0] else m
  }

  /** `add`: the next id is one more than the largest, so it is new; the
      record is written first, then the id appended to the list. */
  function Add<B>(st: Store, body: B, ids: Codec<seq<nat>>, bodies: Codec<B>): (r: Outcome<nat>)
    ensures r.Failed? && (ListKey in st.readFails || DataKey(MaxId(GetIdList(st, ids).value) + 1) in st.writeFails) ==> r.store == st
    ensures r.Done? ==> GetIdList(st, ids).Ok? &&
                        var list := GetIdList(st, ids).value;
                        r.value !in list && r.value >= 1 &&
                        r.value == MaxId(list) + 1
  {
    match GetIdList(st, ids)
    case Err(e) => Failed(st, e)
    case Ok(list) =>
      var id := MaxId(list) + 1;
      match Set(st, DataKey(id), Str(bodies.encode(body)))
      case Err(e) => Failed(st, e)
      case Ok(st1) =>
        match UpdateIdList(st1, list + [id], ids)
        case Err(e) => Failed(st1, e)
        case Ok(st2) => Done(st2, id)
  }

  /** After `add`, the list reads back with the new id at its end and the
      record reads back as written. */
  lemma AddThenRead<B(!new)>(st: Store, body: B, ids: Codec<seq<nat>>, bodies: Codec<B>)
    requires Lawful(ids) && Lawful(bodies)
    requires Add(st, body, ids, bodies).Done?
    ensures var r := Add(st, body, ids, bodies);
            GetIdList(r.store, ids) == Ok(GetIdList(st, ids).value + [r.value]) &&
            (DataKey(r.value) !in st.readFails ==> GetAlarm(r.store, r.value, bodies) == Done(r.store, body))
  {
    var r := Add(st, body, ids, bodies);
    KeysDistinct(r.value, r.value);
  }

  /** `delete`: read the record first (so a failing read changes nothing),
      then drop the id from the list and clear the record; returns the record. */
  function Delete<B>(st: Store, id: nat, ids: Codec<seq<nat>>, bodies: Codec<B>): (r: Outcome<B>)
    ensures !GetAlarm(st, id, bodies).Done? ==> r == GetAlarm(st, id, bodies)
    ensures r.Done? ==> r.value == GetAlarm(st, id, bodies).value
    ensures r.Done? ==> r.store.readFails == st.readFails && r.store.writeFails == st.writeFails &&
                        DataKey(id) !in r.store.data &&
                        forall j :: j != ListKey && j != DataKey(id) ==> SameAt(r.store, st, j)
  {
    match GetAlarm(st, id, bodies)
    case Panic => Panic
    case Failed(s, e) => Failed(s, e)
    case Done(_, backup) =>
      match GetIdList(st, ids)
      case Err(e) => Failed(st, e)
      case Ok(list) =>
        match UpdateIdList(st, Without(list, id), ids)
        case Err(e) => Failed(st, e)
        case Ok(st1) =>
          match Set(st1, DataKey(id), StorageValue.None)
          case Err(e) => Failed(st1, e)
          case Ok(st2) => Done(st2, backup)
  }

  /** After `delete`, the id is gone from the list, every other id stays, and
      the record is gone. */
  lemma DeleteThenRead<B>(st: Store, id: nat, ids: Codec<seq<nat>>, bodies: Codec<B>)
    requires Lawful(ids)
    requires Delete(st, id, ids, bodies).Done?
    ensures var r := Delete(st, id, ids, bodies);
            var before := GetIdList(st, ids).value;
            GetIdList(r.store, ids) == Ok(Without(before, id)) &&
            (forall x :: x in GetIdList(r.store, ids).value <==> x in before && x != id) &&
            DataKey(id) !in r.store.data
  {
    KeysDistinct(id, id);
    WithoutMembers(GetIdList(st, ids).value, id);
  }
}

/** The uploaded music (app/proto/src/storage/music.rs): a JSON list of file
    names under "music/list" and the bytes of each file under
    "music/data/{filename}". Every storage error here panics. */
module MusicStorage {
  import opened Wrappers
  import opened Ints
  import opened Text
  import opened StorageProto
  import opened StorageClient
  import opened StorageFacade

  const ListKey: string := "music/list"

  function DataKey(name: string): string {
    "music/data/" + name
  }

  lemma KeysDistinct(name: string)
    ensures DataKey(name) != ListKey
  {
    PrefixDiffers(DataKey(name), ListKey, 6);
  }

  /** `get_list`: the stored list, empty when missing, not a string, or malformed. */
  function GetList(st: Store, names: Codec<seq<string>>): (r: Option<seq<string>>)
    ensures r.Some? <==> ListKey !in st.readFails
    ensures r.Some? ==> r.value == ListOf(Get(st, ListKey).value, names)
  {
    match Get(st, ListKey)
    case Err(_) => Option.None
    case Ok(v) => Some(ListOf(v, names))
  }

  /** `get_data`: the stored bytes; an error or a value that is not bytes panics. */
  function GetData(st: Store, name: string): (r: Option<seq<u8>>)
    ensures r.Some? <==> DataKey(name) !in st.readFails && DataKey(name) in st.data && st.data[DataKey(name)].Bytes?
    ensures r.Some? ==> r.value == st.data[DataKey(name)].bytes
  {
    match Get(st, DataKey(name))
    case Ok(Bytes(bs)) => Some(bs)
    case _ => Option.None
  }

  /** `upload`: store the bytes, then move the name to the end of the list. */
  function Upload(st: Store, name: string, data: seq<u8>, names: Codec<seq<string>>): (r: Option<Store>)
    ensures r.Some? <==> DataKey(name) !in st.writeFails && ListKey !in st.readFails && ListKey !in st.writeFails
  {
    match Set(st, DataKey(name), Bytes(data))
    case Err(_) => Option.None
    case Ok(st1) =>
      match GetList(st1, names)
      case None => Option.None
      case Some(list) =>
        match Set(st1, ListKey, Str(names.encode(Without(list, name) + [name])))
        case Err(_) => Option.None
        case Ok(st2) => Some(st2)
  }

  /** After `upload`, the data reads back, and the name is listed exactly
      once, last, after the other names in their old order. */
  lemma UploadThenRead(st: Store, name: string, data: seq<u8>, names: Codec<seq<string>>)
    requires Lawful(names)
    requires Upload(st, name, data, names).Some?
    ensures var st' := Upload(st, name, data, names).value;
            var before := GetList(st, names).value;
            (DataKey(name) !in st.readFails ==> GetData(st', name) == Some(data)) &&
            GetList(st', names) == Some(Without(before, name) + [name]) &&
            Count(GetList(st', names).value, name) == 1
  {
    KeysDistinct(name);
    var before := GetList(st, names).value;
    WithoutMembers(before, name);
    CountAbsent(Without(before, name), name);
    CountAppend(Without(before, name), [name], name);
  }

  /** Uploading a name already listed keeps the list length. */
  lemma {:induction false} ReuploadKeepsLength(l: seq<string>, name: string)
    requires Count(l, name) == 1
    ensures |Without(l, name) + [name]| == |l|
    decreases |l|
  {
    if |l| > 0 {
      if l[0] == name {
        CountZero(l[1..], name);
        WithoutAbsent(l[1..], name);
      } else {
        ReuploadKeepsLength(l[1..], name);
      }
    }
  }

  lemma {:induction false} CountZero(l: seq<string>, name: string)
    requires Count(l, name) == 0
    ensures name !in l
    decreases |l|
  {
    if |l| > 0 {
      CountZero(l[1..], name);
    }
  }
}

/** The system settings (app/proto/src/storage/system.rs): whether the
    monitor is enabled, stored as the text "1" or "0". */
module SystemStorage {
  import opened Wrappers
  import opened StorageProto
  import opened StorageClient

  const MonitorKey: string := "system/monitor-enable"

  /** `get_monitor_enable`: true exactly for the string "1"; anything else,
      a missing value or an error reads as false. */
  function GetMonitorEnable(st: Store): (r: bool)
    ensures r <==> MonitorKey !in st.readFails && MonitorKey in st.data && st.data[MonitorKey] == Str("1")
  {
    match Get(st, MonitorKey)
    case Ok(Str(x)) => x == "1"
    case _ => false
  }

  /** `set_monitor_enable`: "1" or "0"; a storage error panics. */
  function SetMonitorEnable(st: Store, enable: bool): (r: Option<Store>)
    ensures r.Some? <==> MonitorKey !in st.writeFails
    ensures r.Some? ==> MonitorKey in r.value.data && r.value.data[MonitorKey] == Str(if enable then "1" else "0")
  {
    var v := Str(if enable then "1" else "0");
    match Set(st, MonitorKey, v)
    case Err(_) => Option.None
    case Ok(st1) => Some(st1)
  }

  lemma MonitorRoundTrip(st: Store, enable: bool)
    requires SetMonitorEnable(st, enable).Some? && MonitorKey !in st.readFails
    ensures GetMonitorEnable(SetMonitorEnable(st, enable).value) == enable
  {
  }
}

=== FILE: storage_proto.dfy ===
/** Text helpers the storage keys are built with: decimal numbers (Rust's
    `to_string` and `format!("{id}")` of an unsigned integer) and prefixes
    (`starts_with`). */
module Text {
  function DigitChar(d: nat): (r: char)
    requires d < 10
    ensures '0' <= r <= '9' && r as int - '0' as int == d
  {
    ('0' as int + d) as char
  }

  /** The decimal spelling of `n`, without leading zeros. */
  function NatText(n: nat): (r: string)
    decreases n
    ensures |r| >= 1 && (n >= 10 ==> |r| >= 2)
    ensures forall i :: 0 <= i < |r| ==> '0' <= r[i] <= '9'
  {
    if n < 10 then [DigitChar(n)] else NatText(n / 10) + [DigitChar(n % 10)]
  }

  /** Different numbers have different spellings, so keys built from ids never collide. */
  lemma {:induction false} NatTextInjective(a: nat, b: nat)
    requires NatText(a) == NatText(b)
    ensures a == b
    decreases a
  {
    var ta, tb := NatText(a), NatText(b);
    if a >= 10 && b >= 10 {
      assert ta[..|ta| - 1] == NatText(a / 10);
      assert tb[..|tb| - 1] == NatText(b / 10);
      NatTextInjective(a / 10, b / 10);
      assert ta[|ta| - 1] == DigitChar(a % 10) && tb[|tb| - 1] == DigitChar(b % 10);
    } else if a < 10 && b < 10 {
      assert ta[0] == DigitChar(a) && tb[0] == DigitChar(b);
    }
  }

  predicate StartsWith(s: string, prefix: string) {
    |prefix| <= |s| && s[..|prefix|] == prefix
  }

  /** Two keys that differ at a position inside a shared-length prefix differ. */
  lemma PrefixDiffers(a: string, b: string, i: nat)
    requires i < |a| && i < |b| && a[i] != b[i]
    ensures a != b
  {
  }
}

/** The storage protocol (app/proto/src/message/storage.rs): stored values,
    the errors, and the request and response messages of the storage node. */
module StorageProto {
  import opened Wrappers
  import opened Ints

  datatype StorageError = IOError(msg: string) | TypeError(msg: string) | Other(msg: string)

  /** `StorageValue`; `Str` is Rust's `String` variant. */
  datatype StorageValue = None | Bytes(bytes: seq<u8>) | Str(text: string)

  /** `as_str(e)`: the text of a string value, otherwise the given error. */
  function AsStr<E>(v: StorageValue, e: E): (r: Result<string, E>)
    ensures r.Ok? <==> v.Str?
    ensures r.Ok? ==> r.value == v.text
    ensures r.Err? ==> r.error == e
  {
    match v
    case Str(x) => Ok(x)
    case _ => Err(e)
  }

  /** `String::from(StorageValue)`: panics (`None`) unless the value is a string. */
  function IntoString(v: StorageValue): (r: Option<string>)
    ensures r.Some? <==> v.Str?
  {
    match v
    case Str(x) => Some(x)
    case _ => Option.None
  }

  /** `Bytes::from(StorageValue)`: panics (`None`) unless the value is bytes. */
  function IntoBytes(v: StorageValue): (r: Option<seq<u8>>)
    ensures r.Some? <==> v.Bytes?
  {
    match v
    case Bytes(x) => Some(x)
    case _ => Option.None
  }

  /** `StorageValue::from(String)`. */
  function FromString(s: string): (r: StorageValue)
    ensures r.Str? && IntoString(r) == Some(s)
  {
    Str(s)
  }

  lemma StringRoundTrip(s: string)
    ensures IntoString(FromString(s)) == Some(s)
    ensures AsStr(FromString(s), 0) == Ok(s)
  {
  }

  /** `StorageMessage`; a set request with `None` is a delete. */
  datatype StorageMessage =
    | Error(error: StorageError)
    | GetRequest(key: string)
    | GetResponse(value: StorageValue)
    | SetRequest(key: string, newValue: StorageValue)
    | SetResponse
    | ListKeysRequest(prefix: string)
    | ListKeysResponse(keys: set<string>)

  /** The messages a storage node sees: storage messages and everything else. */
  datatype Message = Storage(sm: StorageMessage) | OtherMessage
}

/** The storage client the facades use (`StorageClient` in
    app/proto/src/ipc/storage.rs), over whichever storage node answers: a map
    from keys to values, in which reads of the keys of `readFails` and writes
    of the keys of `writeFails` answer with an error. */
module StorageClient {
  import opened Wrappers
  import opened StorageProto

  datatype Store = Store(data: map<string, StorageValue>, readFails: set<string>, writeFails: set<string>)

  const Failure: StorageError := Other("storage failure")

  /** `get`: the stored value, `None` for a missing key. */
  function Get(st: Store, k: string): (r: Result<StorageValue, StorageError>)
    ensures r.Err? <==> k in st.readFails
    ensures r.Ok? ==> (k in st.data ==> r.value == st.data[k]) && (k !in st.data ==> r.value == StorageValue.None)
  {
    if k in st.readFails then Err(Failure)
    else if k in st.data then Ok(st.data[k])
    else Ok(StorageValue.None)
  }

  /** `set`: store the value, or remove the key when it is `None`. */
  function Set(st: Store, k: string, v: StorageValue): (r: Result<Store, StorageError>)
    ensures r.Err? <==> k in st.writeFails
    ensures r.Ok? ==> r.value.readFails == st.readFails && r.value.writeFails == st.writeFails &&
                      forall j :: j != k ==> (j in r.value.data <==> j in st.data)
    ensures r.Ok? ==> (v.None? ==> k !in r.value.data) && (!v.None? ==> k in r.value.data && r.value.data[k] == v)
  {
    if k in st.writeFails then Err(Failure)
    else if v.None? then Ok(st.(data := st.data - {k}))
    else Ok(st.(data := st.data[k := v]))
  }

  /** The two stores hold the same at `k`: both lack it, or both hold the same value. */
  predicate SameAt(a: Store, b: Store, k: string) {
    (k in a.data <==> k in b.data) && (k in a.data ==> a.data[k] == b.data[k])
  }

  /** A set key reads back what was set; other keys read as before. */
  lemma SetThenGet(st: Store, k: string, v: StorageValue, j: string)
    requires Set(st, k, v).Ok?
    ensures Get(Set(st, k, v).value, j) == if j == k && j !in st.readFails then Ok(v) else Get(st, j)
  {
  }
}

=== FILE: storage_services.dfy ===
/** The desktop storage node (app/desktop-impl/src/json_storage.rs): a map
    from keys to values, answering storage requests. Rewriting the JSON file
    after each set is file output and is not part of this model. */
module JsonStorage {
  import opened Wrappers
  import opened Text
  import opened StorageProto
  import opened NodeProto

  type Data = map<string, StorageValue>

  /** `priority()`: the storage node is scheduled before the default nodes. */
  const Priority: nat := 9999

  lemma PriorityAboveDefault()
    ensures Priority > DefaultPriority
  {
  }

  /** The keys that start with `prefix`. */
  function KeysWithPrefix<V>(data: map<string, V>, prefix: string): (r: set<string>)
    ensures forall k :: k in r <==> k in data && StartsWith(k, prefix)
  {
    set k | k in data && StartsWith(k, prefix)
  }

  /** `handle_message`: get, set and list keys answer; any other storage
      message panics (`None`); other messages are discarded. */
  function Handle(data: Data, msg: Message): (r: Option<(Data, HandleResult<Message>)>)
    ensures r.None? <==> msg.Storage? && !(msg.sm.GetRequest? || msg.sm.SetRequest? || msg.sm.ListKeysRequest?)
    ensures !msg.Storage? ==> r == Some((data, Discard))
    ensures r.Some? && msg.Storage? ==> r.value.1.Finish? && r.value.1.reply.Storage?
    ensures msg.Storage? && msg.sm.GetRequest? ==>
              r.value.0 == data &&
              r.value.1.reply.sm == GetResponse(if msg.sm.key in data then data[msg.sm.key] else StorageValue.None)
    ensures msg.Storage? && msg.sm.SetRequest? ==>
              r.value.1.reply.sm == SetResponse &&
              (msg.sm.newValue.None? ==> msg.sm.key !in r.value.0) &&
              (!msg.sm.newValue.None? ==> msg.sm.key in r.value.0 && r.value.0[msg.sm.key] == msg.sm.newValue) &&
              forall k :: k != msg.sm.key ==> (k in r.value.0 <==> k in data) && (k in data ==> r.value.0[k] == data[k])
    ensures msg.Storage? && msg.sm.ListKeysRequest? ==>
              r.value.0 == data &&
              r.value.1.reply.sm.ListKeysResponse? &&
              forall k :: k in r.value.1.reply.sm.keys <==> k in data && StartsWith(k, msg.sm.prefix)
  {
    match msg
    case OtherMessage => Some((data, Discard))
    case Storage(sm) =>
      match sm
      case GetRequest(k) =>
        Some((data, Finish(Storage(GetResponse(if k in data then data[k] else StorageValue.None)))))
      case SetRequest(k, v) =>
        var data' := if v.None? then data - {k} else data[k := v];
        Some((data', Finish(Storage(SetResponse))))
      case ListKeysRequest(prefix) =>
        Some((data, Finish(Storage(ListKeysResponse(KeysWithPrefix(data, prefix))))))
      case _ => Option.None
  }

  /** A get after a set answers what was set (`None` after a delete). */
  lemma SetThenGet(data: Data, k: string, v: StorageValue)
    ensures var d := Handle(data, Storage(SetRequest(k, v))).value.0;
            Handle(d, Storage(GetRequest(k))).value.1 == Finish(Storage(GetResponse(v)))
  {
  }
}

/** The in-memory storage node of the app core
    (app/app-core/src/node/service/storage.rs): a map from keys to strings. Its
    message shapes are those this file uses: a get answers an optional string,
    a set takes an optional string, and listing takes no prefix. */
module MockStorage {
  import opened Wrappers
  import opened NodeProto

  datatype StorageMessage =
    | GetRequest(key: string)
    | GetResponse(value: Option<string>)
    | SetRequest(key: string, newValue: Option<string>)
    | SetResponse
    | ListKeysRequest
    | ListKeysResponse(keys: set<string>)
    | Error

  datatype Message = Storage(sm: StorageMessage) | OtherMessage

  type Data = map<string, string>

  /** `handle_message`: get, set and list keys answer; any other storage
      message panics (`None`); other messages are discarded. */
  function Handle(data: Data, msg: Message): (r: Option<(Data, HandleResult<Message>)>)
    ensures r.None? <==> msg.Storage? && !(msg.sm.GetRequest? || msg.sm.SetRequest? || msg.sm.ListKeysRequest?)
    ensures !msg.Storage? ==> r == Some((data, Discard))
    ensures msg.Storage? && msg.sm.GetRequest? ==>
              r.value.0 == data &&
              r.value.1 == Finish(Storage(GetResponse(if msg.sm.key in data then Some(data[msg.sm.key]) else Option.None)))
    ensures msg.Storage? && msg.sm.SetRequest? ==>
              r.value.1 == Finish(Storage(SetResponse)) &&
              (msg.sm.newValue.None? ==> msg.sm.key !in r.value.0) &&
              (msg.sm.newValue.Some? ==> msg.sm.key in r.value.0 && r.value.0[msg.sm.key] == msg.sm.newValue.value) &&
              forall k :: k != msg.sm.key ==> (k in r.value.0 <==> k in data) && (k in data ==> r.value.0[k] == data[k])
    ensures msg.Storage? && msg.sm.ListKeysRequest? ==>
              r.value.0 == data && r.value.1 == Finish(Storage(ListKeysResponse(data.Keys)))
  {
    match msg
    case OtherMessage => Some((data, Discard))
    case Storage(sm) =>
      match sm
      case GetRequest(k) =>
        Some((data, Finish(Storage(GetResponse(if k in data then Some(data[k]) else Option.None)))))
      case SetRequest(k, v) =>
        var data' := if v.Some? then data[k := v.value] else data - {k};
        Some((data', Finish(Storage(SetResponse))))
      case ListKeysRequest =>
        Some((data, Finish(Storage(ListKeysResponse(data.Keys)))))
      case _ => Option.None
  }

  lemma SetThenGet(data: Data, k: string, v: Option<string>)
    ensures var d := Handle(data, Storage(SetRequest(k, v))).value.0;
            Handle(d, Storage(GetRequest(k))).value.1 == Finish(Storage(GetResponse(v)))
  {
  }
}

/** The flash storage node of the ESP32-C3 build
    (app/esp32c3-impl/src/node/storage.rs). Values live in numbered NVS slots
    "1", "2", …; an index maps each key to its slot and the type of the value
    it was first set with, and is itself kept in slot "0". The NVS partition is
    a map from slot numbers to raw items; a slot's name is its number's
    decimal text, which is injective (Text.NatTextInjective). */
module NvsStorage {
  import opened Wrappers
  import opened Ints
  import opened Text
  import opened StorageProto
  import opened NodeProto
  import JsonStorage

  datatype ItemType = TNone | TString | TBlob

  /** `m(&value)`: the type recorded for a value. */
  function TypeOf(v: StorageValue): ItemType {
    match v
    case None => TNone
    case Bytes(_) => TBlob
    case Str(_) => TString
  }

  datatype Entry = Entry(slot: u16, typ: ItemType)

  type Index = map<string, Entry>

  /** A raw NVS item: a string (stored with a NUL terminator), a blob, or in
      slot 0 the index (its JSON text, written by serde_json). */
  datatype Raw = RawStr(text: string) | RawBlob(bytes: seq<u8>) | RawMeta(index: Index)

  datatype Nvs = Nvs(index: Index, raw: map<nat, Raw>)

  const MetaSlot: nat := 0

  /** Slot 0 is never a value's slot, and no two keys share a slot. */
  ghost predicate Valid(s: Nvs) {
    (forall k :: k in s.index ==> s.index[k].slot >= 1) &&
    (forall k, j :: k in s.index && j in s.index && k != j ==> s.index[k].slot != s.index[j].slot)
  }

  /** `get_raw_str`: reads `str_len` bytes (the text and its NUL) and drops
      the last; a slot holding no string has length 0 and reads as absent. */
  function GetRawStr(raw: map<nat, Raw>, slot: nat): (r: Option<string>)
    ensures r.Some? <==> slot in raw && raw[slot].RawStr?
    ensures r.Some? ==> r.value == raw[slot].text
  {
    var strlen := if slot in raw && raw[slot].RawStr? then |raw[slot].text| + 1 else 0;
    if strlen == 0 then Option.None
    else
      var buf := raw[slot].text + ['\0'];
      Some(buf[..strlen - 1])
  }

  /** `get_raw_blob`: the blob in the slot, absent if there is none. */
  function GetRawBlob(raw: map<nat, Raw>, slot: nat): (r: Option<seq<u8>>)
    ensures r.Some? <==> slot in raw && raw[slot].RawBlob?
    ensures r.Some? ==> r.value == raw[slot].bytes
  {
    if slot in raw && raw[slot].RawBlob? then Some(raw[slot].bytes) else Option.None
  }

  /** `get`: an unindexed key is `None`; otherwise the slot is read as the
      recorded type, and an absent item is `None`. */
  function Get(s: Nvs, k: string): (r: StorageValue)
    ensures k !in s.index ==> r == StorageValue.None
    ensures k in s.index && s.index[k].typ == TNone ==> r == StorageValue.None
    ensures r.Str? ==> k in s.index && s.index[k].typ == TString
    ensures r.Bytes? ==> k in s.index && s.index[k].typ == TBlob
  {
    if k !in s.index then StorageValue.None
    else
      var e := s.index[k];
      match e.typ
      case TNone => StorageValue.None
      case TString => (match GetRawStr(s.raw, e.slot) case Some(x) => Str(x) case None => StorageValue.None)
      case TBlob => (match GetRawBlob(s.raw, e.slot) case Some(x) => Bytes(x) case None => StorageValue.None)
  }

  /** The largest slot in use, 0 when none is. */
  ghost function MaxSlot(index: Index): (r: nat)
    ensures forall k :: k in index ==> index[k].slot <= r
    ensures r < 0x1_0000
    decreases |index|
  {
    if |index| == 0 then 0
    else
      var k :| k in index;
      var rest := MaxSlot(index - {k});
      assert forall j :: j in index && j != k ==> j in index - {k};
      if index[k].slot > rest then index[k].slot else rest
  }

  /** `gen_next_idx`: one past the largest slot, so never slot 0 and never a
      slot in use; past 65535 the `u16` addition panics (`None`). */
  ghost function GenNextIdx(index: Index): (r: Option<u16>)
    ensures r.Some? <==> MaxSlot(index) + 1 < 0x1_0000
    ensures r.Some? ==> r.value >= 1 && forall k :: k in index ==> index[k].slot < r.value
  {
    var next := MaxSlot(index) + 1;
    if next < 0x1_0000 then Some(next) else Option.None
  }

  /** `gen_next_idx` built without overflow checks: the `u16` addition wraps,
      so once slot 65535 is in use the next key is given slot 0, the slot the
      index itself is stored in. */
  ghost function GenNextIdxWrapping(index: Index): (r: u16)
    ensures GenNextIdx(index).Some? ==> r == GenNextIdx(index).value
    ensures GenNextIdx(index).None? ==> r == MetaSlot
  {
    (MaxSlot(index) + 1) % 0x1_0000
  }

  /** One key in slot 65535 is enough for the wrapped counter to reach slot 0. */
  lemma WrapReachesMetaSlot(k: string, t: ItemType)
    ensures GenNextIdx(map[k := Entry(0xFFFF, t)]) == Option.None
    ensures GenNextIdxWrapping(map[k := Entry(0xFFFF, t)]) == MetaSlot
  {
    var index := map[k := Entry(0xFFFF, t)];
    assert index[k].slot <= MaxSlot(index);
  }

  /** The index after setting `k`: a new key gets a fresh slot and the
      value's type, a known key keeps its entry; `None` when the slot counter
      overflows. */
  ghost function SetIndex(index: Index, k: string, v: StorageValue): (r: Option<Index>)
    ensures k in index ==> r == Some(index)
    ensures k !in index && r.Some? ==>
              r.value.Keys == index.Keys + {k} && r.value[k].typ == TypeOf(v) &&
              r.value[k].slot >= 1 && (forall j :: j in index ==> r.value[j] == index[j]) &&
              forall j :: j in index ==> index[j].slot < r.value[k].slot
  {
    if k in index then Some(index)
    else
      match GenNextIdx(index)
      case Some(idx) => Some(index[k := Entry(idx, TypeOf(v))])
      case None => Option.None
  }

  /** The value written to (or, for `None`, erased from) one slot. */
  function WriteSlot(raw: map<nat, Raw>, slot: nat, v: StorageValue): (r: map<nat, Raw>)
    ensures v.None? ==> slot !in r
    ensures v.Str? ==> slot in r && r[slot] == RawStr(v.text)
    ensures v.Bytes? ==> slot in r && r[slot] == RawBlob(v.bytes)
    ensures forall n :: n != slot ==> (n in r <==> n in raw) && (n in raw ==> r[n] == raw[n])
  {
    match v
    case None => raw - {slot}
    case Bytes(x) => raw[slot := RawBlob(x)]
    case Str(x) => raw[slot := RawStr(x)]
  }

  /** `set`: a new key gets a fresh slot and the value's type; a known key
      keeps its slot and its first type. `None` removes the slot's item but
      keeps the key indexed. The index is then written to slot 0. */
  ghost function Set(s: Nvs, k: string, v: StorageValue): (r: Option<Nvs>)
    ensures r.Some? <==> SetIndex(s.index, k, v).Some?
    ensures r.Some? ==> r.value.index == SetIndex(s.index, k, v).value
    ensures r.Some? ==> MetaSlot in r.value.raw && r.value.raw[MetaSlot] == RawMeta(r.value.index)
  {
    var index' :- SetIndex(s.index, k, v);
    var raw := WriteSlot(s.raw, index'[k].slot as nat, v);
    Some(Nvs(index', raw[MetaSlot := RawMeta(index')]))
  }

  /** A set keeps slot 0 reserved and slots distinct. */
  lemma SetKeepsValid(s: Nvs, k: string, v: StorageValue)
    requires Valid(s) && Set(s, k, v).Some?
    ensures Valid(Set(s, k, v).value)
  {
  }

  /** `list`: the indexed keys that start with the prefix, deleted ones included. */
  function List(s: Nvs, prefix: string): (r: set<string>)
    ensures forall k :: k in r <==> k in s.index && StartsWith(k, prefix)
  {
    JsonStorage.KeysWithPrefix(s.index, prefix)
  }

  /** A value set under a key whose recorded type is its own reads back. */
  lemma SetThenGet(s: Nvs, k: string, v: StorageValue)
    requires Valid(s) && Set(s, k, v).Some?
    requires k in s.index ==> s.index[k].typ == TypeOf(v)
    ensures Get(Set(s, k, v).value, k) == v
  {
    hide MaxSlot, GenNextIdx, SetIndex, WriteSlot, GetRawStr, GetRawBlob;
    var s' := Set(s, k, v).value;
    var e := s'.index[k];
    assert e.slot >= 1 && e.typ == TypeOf(v);
    assert s'.raw == WriteSlot(s.raw, e.slot as nat, v)[MetaSlot := RawMeta(s'.index)];
  }

  /** Other keys read as before. */
  lemma SetKeepsOthers(s: Nvs, k: string, v: StorageValue, j: string)
    requires Valid(s) && Set(s, k, v).Some? && j != k
    ensures Get(Set(s, k, v).value, j) == Get(s, j)
  {
    hide MaxSlot, GenNextIdx, SetIndex, WriteSlot, GetRawStr, GetRawBlob;
    var s' := Set(s, k, v).value;
    assert s'.raw == WriteSlot(s.raw, s'.index[k].slot as nat, v)[MetaSlot := RawMeta(s'.index)];
    if j in s.index {
      assert s'.index[j] == s.index[j];
      assert s'.index[k].slot != s.index[j].slot;
    }
  }

  /** The recorded type never changes: a key first set to a string and then
      to bytes reads as `None`. */
  lemma TypeNeverUpdated(s: Nvs, k: string, text: string, bytes: seq<u8>)
    requires Valid(s) && k !in s.index && Set(s, k, Str(text)).Some?
    ensures var s1 := Set(s, k, Str(text)).value;
            Set(s1, k, Bytes(bytes)).Some? &&
            Get(Set(s1, k, Bytes(bytes)).value, k) == StorageValue.None
  {
  }

  /** A deleted key is still listed. */
  lemma DeletedStillListed(s: Nvs, k: string)
    requires Set(s, k, StorageValue.None).Some?
    ensures k in List(Set(s, k, StorageValue.None).value, k)
  {
  }

  /** `handle_message`: get, set and list keys answer (a failed set answers
      an error, which with the partition as a map only the slot counter's
      overflow could cause, and it panics first); any other storage message
      panics (`None`); other messages are discarded. */
  ghost function Handle(s: Nvs, msg: Message): (r: Option<(Nvs, HandleResult<Message>)>)
    ensures !msg.Storage? ==> r == Some((s, Discard))
    ensures msg.Storage? && !(msg.sm.GetRequest? || msg.sm.SetRequest? || msg.sm.ListKeysRequest?) ==> r.None?
    ensures msg.Storage? && msg.sm.GetRequest? ==> r == Some((s, Finish(Storage(GetResponse(Get(s, msg.sm.key))))))
    ensures msg.Storage? && msg.sm.SetRequest? && r.Some? ==>
              r.value.1 == Finish(Storage(SetResponse)) && Set(s, msg.sm.key, msg.sm.newValue) == Some(r.value.0)
    ensures msg.Storage? && msg.sm.ListKeysRequest? ==>
              r == Some((s, Finish(Storage(ListKeysResponse(List(s, msg.sm.prefix))))))
  {
    match msg
    case OtherMessage => Some((s, Discard))
    case Storage(sm) =>
      match sm
      case GetRequest(k) => Some((s, Finish(Storage(GetResponse(Get(s, k))))))
      case SetRequest(k, v) =>
        (match Set(s, k, v) case Some(s') => Some((s', Finish(Storage(SetResponse)))) case None => Option.None)
      case ListKeysRequest(prefix) => Some((s, Finish(Storage(ListKeysResponse(List(s, prefix))))))
      case _ => Option.None
  }

  /** `load_meta` at start: the index kept in slot 0, or an empty one. */
  function Load(raw: map<nat, Raw>): (r: Nvs)
    ensures r.raw == raw
    ensures MetaSlot in raw && raw[MetaSlot].RawMeta? ==> r.index == raw[MetaSlot].index
    ensures !(MetaSlot in raw && raw[MetaSlot].RawMeta?) ==> r.index == map[]
  {
    Nvs(if MetaSlot in raw && raw[MetaSlot].RawMeta? then raw[MetaSlot].index else map[], raw)
  }

  /** What a set leaves in flash is reloaded as the same index. */
  lemma SetThenLoad(s: Nvs, k: string, v: StorageValue)
    requires Set(s, k, v).Some?
    ensures Load(Set(s, k, v).value.raw) == Set(s, k, v).value
  {
  }
}

=== FILE: vlq.dfy ===
/** The base-128 variable-length quantities of the merger (`ScanBigInt`,
    `PrintBigInt` in slint-app/tools/merge_midi.py), the number format of
    section 1 of the Standard MIDI Files 1.0 specification: seven bits per byte,
    most significant group first, high bit set on every byte but the last. */
module Vlq {
  import opened Wrappers
  import opened MidiStream

  /** Folds 7-bit groups into `acc`, most significant first; this is what
      `res = (res << 7) | (t & 0x7f)` computes over a run of bytes. */
  function Horner(acc: nat, bs: seq<byte>): nat
    decreases |bs|
  {
    if |bs| == 0 then acc else Horner(acc * 128 + bs[0] % 128, bs[1..])
  }

  lemma {:induction false} HornerSnoc(acc: nat, bs: seq<byte>, b: byte)
    ensures Horner(acc, bs + [b]) == Horner(acc, bs) * 128 + b % 128
    decreases |bs|
  {
    if |bs| == 0 {
      assert bs + [b] == [b];
      assert [b][1..] == [];
    } else {
      assert (bs + [b])[1..] == bs[1..] + [b];
      HornerSnoc(acc * 128 + bs[0] % 128, bs[1..], b);
    }
  }

  /** A complete quantity: the last byte ends it, every earlier byte continues it. */
  predicate IsVlq(bs: seq<byte>) {
    |bs| >= 1 && bs[|bs| - 1] < 128 && forall i :: 0 <= i < |bs| - 1 ==> bs[i] >= 128
  }

  /** The continuation bytes in front of the final byte: groups of `m`, each with the high bit set. */
  function Lead(m: nat): (r: seq<byte>)
    decreases m
    ensures |r| == 0 <==> m == 0
  {
    if m == 0 then [] else Lead(m / 128) + [m % 128 + 128]
  }

  /** `Lead(m)` is a run of continuation bytes, without a leading empty group,
      that folds back to `m`. */
  lemma {:induction false} LeadSpec(m: nat)
    decreases m
    ensures forall i :: 0 <= i < |Lead(m)| ==> Lead(m)[i] >= 128
    ensures |Lead(m)| > 0 ==> Lead(m)[0] != 128
    ensures Horner(0, Lead(m)) == m
  {
    if m > 0 {
      LeadSpec(m / 128);
      HornerSnoc(0, Lead(m / 128), m % 128 + 128);
      if m / 128 == 0 {
        assert Lead(m) == [m % 128 + 128];
      } else {
        assert Lead(m)[0] == Lead(m / 128)[0];
      }
    }
  }

  /** `PrintBigInt(n)`: the shortest quantity for `n` (a zero is the single byte 0x00). */
  function PrintBigInt(n: nat): (r: seq<byte>)
    ensures |r| >= 1 && r[|r| - 1] == n % 128
  {
    Lead(n / 128) + [n % 128]
  }

  /** `PrintBigInt(n)` is one complete quantity, one byte exactly for `n < 128`,
      without a leading empty group, and it folds back to `n`. */
  lemma PrintBigIntSpec(n: nat)
    ensures IsVlq(PrintBigInt(n))
    ensures |PrintBigInt(n)| == 1 <==> n < 128
    ensures |PrintBigInt(n)| > 1 ==> PrintBigInt(n)[0] != 128
    ensures Horner(0, PrintBigInt(n)) == n
  {
    var r := PrintBigInt(n);
    LeadSpec(n / 128);
    HornerSnoc(0, Lead(n / 128), n % 128);
    if |r| > 1 {
      assert r[0] == Lead(n / 128)[0];
    }
    assert forall i :: 0 <= i < |r| - 1 ==> r[i] == Lead(n / 128)[i];
  }

  /** The result of `ScanBigInt`: the value, the count of stream bytes read
      (which starts at minus the prefix length), and the advanced stream. */
  datatype Scanned = Scanned(value: nat, count: int, rest: Stream)

  /** The bytes `ScanBigInt` draws from: the prefix, then the unread stream. */
  function Avail(s: Stream, prefix: seq<byte>): seq<byte>
    requires s.pos <= |s.data|
  {
    prefix + s.data[s.pos..]
  }

  /** The loop of `ScanBigInt` once the prefix is used up: one stream byte per
      step, stopping after the first byte with its high bit clear. */
  function ScanStream(s: Stream, res: nat, count: int): (r: Result<Scanned, MidiError>)
    requires s.pos <= |s.data|
    decreases |s.data| - s.pos
    ensures r.Err? ==> r.error == EndOfFile
    ensures r.Ok? ==>
              1 <= r.value.count - count <= |s.data| - s.pos &&
              r.value.rest == Stream(s.data, s.pos + (r.value.count - count))
  {
    if s.pos < |s.data| then
      var rd := ReadOrEof(s, 1);
      var t := rd.value.bytes[0];
      if t >= 128 then ScanStream(rd.value.rest, res * 128 + t % 128, count + 1)
      else Ok(Scanned(res * 128 + t, count + 1, rd.value.rest))
    else
      Err(EndOfFile)
  }

  /** What `ScanStream` reads: it fails exactly when no byte left ends a quantity,
      and otherwise consumes one complete quantity and folds it into `res`. */
  lemma {:induction false} ScanStreamSpec(s: Stream, res: nat, count: int, r: Result<Scanned, MidiError>)
    requires s.pos <= |s.data| && r == ScanStream(s, res, count)
    decreases |s.data| - s.pos
    ensures r.Err? <==> forall i :: 0 <= i < |Avail(s, [])| ==> Avail(s, [])[i] >= 128
    ensures r.Ok? ==>
              var used := r.value.count - count;
              1 <= used <= |Avail(s, [])| &&
              IsVlq(Avail(s, [])[..used]) && r.value.value == Horner(res, Avail(s, [])[..used])
  {
    hide *;
    var a := Avail(s, []);
    ScanStreamUnfold(s, res, count);
    if s.pos < |s.data| {
      var t := s.data[s.pos];
      var rest := Stream(s.data, s.pos + 1);
      if t >= 128 {
        var r' := ScanStream(rest, res * 128 + t % 128, count + 1);
        ScanStreamSpec(rest, res * 128 + t % 128, count + 1, r');
        ContinueStep(a, Avail(rest, []), res, r, count);
      } else {
        StopStep(a, res);
      }
    }
  }

  /** One step of `ScanStream`: the byte read, and the unread bytes after it. */
  lemma ScanStreamUnfold(s: Stream, res: nat, count: int)
    requires s.pos <= |s.data|
    ensures s.pos == |s.data| ==> ScanStream(s, res, count) == Err(EndOfFile) && Avail(s, []) == []
    ensures s.pos < |s.data| ==>
              var t := s.data[s.pos];
              var rest := Stream(s.data, s.pos + 1);
              |Avail(s, [])| >= 1 && Avail(s, [])[0] == t && Avail(rest, []) == Avail(s, [])[1..] &&
              (t >= 128 ==> ScanStream(s, res, count) == ScanStream(rest, res * 128 + t % 128, count + 1)) &&
              (t < 128 ==> ScanStream(s, res, count) == Ok(Scanned(res * 128 + t, count + 1, rest)))
  {
    if s.pos < |s.data| {
      assert ReadOrEof(s, 1).value.bytes[0] == s.data[s.pos];
    }
  }

  /** The loop of `ScanBigInt`: the prefix bytes first, then the stream. */
  function Scan(s: Stream, prefix: seq<byte>, res: nat, count: int): (r: Result<Scanned, MidiError>)
    requires s.pos <= |s.data|
    decreases |prefix|
    ensures r.Err? ==> r.error == EndOfFile
    ensures r.Ok? ==>
              var used := r.value.count - count;
              1 <= used <= |Avail(s, prefix)| &&
              r.value.rest == Stream(s.data, if used <= |prefix| then s.pos else s.pos + used - |prefix|)
  {
    if |prefix| == 0 then
      ScanStream(s, res, count)
    else
      var t := prefix[0];
      if t >= 128 then Scan(s, prefix[1..], res * 128 + t % 128, count + 1)
      else Ok(Scanned(res * 128 + t, count + 1, s))
  }

  /** What `Scan` reads, over the prefix followed by the unread stream. */
  lemma {:induction false} ScanSpec(s: Stream, prefix: seq<byte>, res: nat, count: int, r: Result<Scanned, MidiError>)
    requires s.pos <= |s.data| && r == Scan(s, prefix, res, count)
    decreases |prefix|
    ensures r.Err? <==> forall i :: 0 <= i < |Avail(s, prefix)| ==> Avail(s, prefix)[i] >= 128
    ensures r.Ok? ==>
              var used := r.value.count - count;
              1 <= used <= |Avail(s, prefix)| &&
              IsVlq(Avail(s, prefix)[..used]) && r.value.value == Horner(res, Avail(s, prefix)[..used])
  {
    hide *;
    var a := Avail(s, prefix);
    ScanUnfold(s, prefix, res, count);
    if |prefix| == 0 {
      ScanStreamSpec(s, res, count, r);
    } else if prefix[0] >= 128 {
      var r' := Scan(s, prefix[1..], res * 128 + prefix[0] % 128, count + 1);
      ScanSpec(s, prefix[1..], res * 128 + prefix[0] % 128, count + 1, r');
      ContinueStep(a, Avail(s, prefix[1..]), res, r', count);
    } else {
      StopStep(a, res);
    }
  }

  /** One step of `Scan`: the prefix byte used, and the bytes after it. */
  lemma ScanUnfold(s: Stream, prefix: seq<byte>, res: nat, count: int)
    requires s.pos <= |s.data|
    ensures |prefix| == 0 ==> Scan(s, prefix, res, count) == ScanStream(s, res, count) && Avail(s, prefix) == Avail(s, [])
    ensures |prefix| > 0 ==>
              var t := prefix[0];
              |Avail(s, prefix)| >= 1 && Avail(s, prefix)[0] == t && Avail(s, prefix[1..]) == Avail(s, prefix)[1..] &&
              (t >= 128 ==> Scan(s, prefix, res, count) == Scan(s, prefix[1..], res * 128 + t % 128, count + 1)) &&
              (t < 128 ==> Scan(s, prefix, res, count) == Ok(Scanned(res * 128 + t, count + 1, s)))
  {
  }

  /** One step of the scan on a continuation byte: what holds of the rest holds of the whole. */
  lemma ContinueStep(a: seq<byte>, b: seq<byte>, res: nat, r: Result<Scanned, MidiError>, count: int)
    requires |a| >= 1 && a[0] >= 128 && b == a[1..]
    requires r.Err? <==> forall i :: 0 <= i < |b| ==> b[i] >= 128
    requires r.Ok? ==>
               var used := r.value.count - (count + 1);
               1 <= used <= |b| && IsVlq(b[..used]) &&
               r.value.value == Horner(res * 128 + a[0] % 128, b[..used])
    ensures r.Err? <==> forall i :: 0 <= i < |a| ==> a[i] >= 128
    ensures r.Ok? ==>
              var used := r.value.count - count;
              1 <= used <= |a| && IsVlq(a[..used]) && r.value.value == Horner(res, a[..used])
  {
    if r.Err? {
      forall i | 0 <= i < |a|
        ensures a[i] >= 128
      {
        if i > 0 {
          assert a[i] == a[1..][i - 1];
        }
      }
    } else {
      var used := r.value.count - count;
      assert a[..used][1..] == a[1..][..used - 1];
      assert a[|a[1..][..used - 1]|] < 128;
      forall i | 0 <= i < used - 1
        ensures a[..used][i] >= 128
      {
        if i > 0 {
          assert a[..used][i] == a[1..][..used - 1][i - 1];
        }
      }
    }
  }

  /** One step of the scan on a final byte. */
  lemma StopStep(a: seq<byte>, res: nat)
    requires |a| >= 1 && a[0] < 128
    ensures !(forall i :: 0 <= i < |a| ==> a[i] >= 128)
    ensures IsVlq(a[..1]) && Horner(res, a[..1]) == res * 128 + a[0]
  {
    assert a[..1][1..] == [];
  }

  /** `ScanBigInt(f, prefix)`. */
  function ScanBigInt(s: Stream, prefix: seq<byte>): (r: Result<Scanned, MidiError>)
    requires s.pos <= |s.data|
    ensures r.Err? ==> r.error == EndOfFile
    ensures r.Ok? ==>
              1 <= r.value.count + |prefix| <= |Avail(s, prefix)| &&
              r.value.rest == Stream(s.data, s.pos + if r.value.count < 0 then 0 else r.value.count)
  {
    Scan(s, prefix, 0, -|prefix|)
  }

  /** What `ScanBigInt` reads: it fails (end of file) exactly when no byte of the
      prefix or the stream ends a quantity; otherwise it consumes the first
      complete quantity and returns its value. */
  lemma ScanBigIntSpec(s: Stream, prefix: seq<byte>)
    requires s.pos <= |s.data|
    ensures var r := ScanBigInt(s, prefix);
            (r.Err? <==> forall i :: 0 <= i < |Avail(s, prefix)| ==> Avail(s, prefix)[i] >= 128) &&
            (r.Ok? ==>
               var used := r.value.count + |prefix|;
               IsVlq(Avail(s, prefix)[..used]) && r.value.value == Horner(0, Avail(s, prefix)[..used]))
  {
    ScanSpec(s, prefix, 0, -|prefix|, ScanBigInt(s, prefix));
  }

  /** Two complete quantities that start a common byte string are the same quantity. */
  lemma VlqPrefixUnique(a: seq<byte>, u: nat, v: nat)
    requires 1 <= u <= |a| && 1 <= v <= |a|
    requires IsVlq(a[..u]) && IsVlq(a[..v])
    ensures u == v
  {
  }

  /** Reading back what `PrintBigInt` wrote gives the number and the byte count,
      however the bytes are split between the prefix (`k` of them) and the stream. */
  lemma ScanPrintRoundTrip(n: nat, k: nat, data: seq<byte>, pos: nat)
    requires k <= |PrintBigInt(n)|
    requires pos + |PrintBigInt(n)| - k <= |data|
    requires data[pos..pos + |PrintBigInt(n)| - k] == PrintBigInt(n)[k..]
    ensures ScanBigInt(Stream(data, pos), PrintBigInt(n)[..k]).Ok?
    ensures ScanBigInt(Stream(data, pos), PrintBigInt(n)[..k]).value
            == Scanned(n, |PrintBigInt(n)| - k, Stream(data, pos + |PrintBigInt(n)| - k))
  {
    hide PrintBigInt, Lead, ScanBigInt, Scan, ScanStream, Horner, IsVlq;
    var p := PrintBigInt(n);
    PrintBigIntSpec(n);
    var s := Stream(data, pos);
    var a := Avail(s, p[..k]);
    assert a[..|p|] == p by {
      assert a == p[..k] + data[pos..];
      forall i | 0 <= i < |p|
        ensures a[i] == p[i]
      {
        if i >= k {
          assert a[i] == data[pos + i - k];
          assert data[pos + i - k] == data[pos..pos + |p| - k][i - k];
        }
      }
    }
    assert a[|p| - 1] < 128;
    var r := ScanBigInt(s, p[..k]);
    ScanBigIntSpec(s, p[..k]);
    assert r.Ok?;
    VlqPrefixUnique(a, r.value.count + k, |p|);
  }

  /** `PrintBigInt` is the only shortest encoding: a complete quantity without a
      leading empty group is the one `PrintBigInt` writes for its value. */
  lemma {:induction false} PrintBigIntCanonical(bs: seq<byte>)
    requires IsVlq(bs)
    requires |bs| > 1 ==> bs[0] != 128
    ensures PrintBigInt(Horner(0, bs)) == bs
    decreases |bs|
  {
    var init := bs[..|bs| - 1];
    var last := bs[|bs| - 1];
    assert bs == init + [last];
    HornerSnoc(0, init, last);
    LeadCanonical(init);
    var v := Horner(0, init);
    assert Horner(0, bs) / 128 == v;
    assert Horner(0, bs) % 128 == last;
  }

  /** A run of continuation bytes without a leading empty group is `Lead` of its value. */
  lemma {:induction false} LeadCanonical(bs: seq<byte>)
    requires forall i :: 0 <= i < |bs| ==> bs[i] >= 128
    requires |bs| > 0 ==> bs[0] != 128
    ensures Lead(Horner(0, bs)) == bs
    decreases |bs|
  {
    if |bs| > 0 {
      var init := bs[..|bs| - 1];
      var last := bs[|bs| - 1];
      assert bs == init + [last];
      HornerSnoc(0, init, last);
      if |init| > 0 {
        assert init[0] == bs[0];
      }
      LeadCanonical(init);
      var v := Horner(0, init);
      HornerPositive(init);
      assert Horner(0, bs) == v * 128 + last % 128;
      assert Horner(0, bs) != 0;
    }
  }

  /** A nonempty continuation run with a nonzero first group has a nonzero value. */
  lemma {:induction false} HornerPositive(bs: seq<byte>)
    requires forall i :: 0 <= i < |bs| ==> bs[i] >= 128
    requires |bs| > 0 ==> bs[0] != 128
    ensures |bs| > 0 ==> Horner(0, bs) > 0
    decreases |bs|
  {
    if |bs| > 0 {
      HornerAtLeast(bs[0] % 128, bs[1..]);
    }
  }

  lemma {:induction false} HornerAtLeast(acc: nat, bs: seq<byte>)
    ensures Horner(acc, bs) >= acc
    decreases |bs|
  {
    if |bs| > 0 {
      HornerAtLeast(acc * 128 + bs[0] % 128, bs[1..]);
    }
  }
}

=== FILE: weather.dfy ===
/** Rust's `str::parse` of integers and `str::split` on one character, as the
    weather service's JSON fields use them. */
module Parse {
  import opened Wrappers
  import opened Text

  predicate IsDigit(c: char) {
    '0' <= c <= '9'
  }

  predicate AllDigits(s: string) {
    forall i :: 0 <= i < |s| ==> IsDigit(s[i])
  }

  /** The value of a string of decimal digits, most significant first. */
  function DigitsValue(s: string): (r: nat)
    requires AllDigits(s)
    decreases |s|
  {
    if |s| == 0 then 0 else DigitsValue(s[..|s| - 1]) * 10 + (s[|s| - 1] as int - '0' as int)
  }

  /** `i*::from_str` / `u*::from_str` for the range `lo..=hi`: an optional
      sign (a `-` only for signed types), then at least one digit and nothing
      else; leading zeros are allowed and an out-of-range value is an error. */
  function ParseInt(s: string, lo: int, hi: int, signed: bool): (r: Option<int>)
    ensures r.Some? ==> lo <= r.value <= hi
    ensures |s| == 0 ==> r.None?
    ensures |s| == 1 && (s[0] == '+' || s[0] == '-') ==> r.None?
  {
    if |s| == 0 || ((s[0] == '+' || s[0] == '-') && |s| == 1) then None
    else
      var negative := signed && s[0] == '-';
      var digits := if s[0] == '+' || negative then s[1..] else s;
      if !AllDigits(digits) then None
      else
        var v: int := if negative then -(DigitsValue(digits) as int) else DigitsValue(digits);
        if lo <= v <= hi then Some(v) else None
  }

  /** The decimal text of a number is read back as that number. */
  lemma {:induction false} DigitsValueOfText(n: nat)
    ensures AllDigits(NatText(n)) && DigitsValue(NatText(n)) == n
    decreases n
  {
    var t := NatText(n);
    if n >= 10 {
      DigitsValueOfText(n / 10);
      assert t[..|t| - 1] == NatText(n / 10);
    }
  }

  /** `parse` inverts `to_string` on the whole range of a type. */
  lemma ParseText(n: int, lo: int, hi: int, signed: bool)
    requires lo <= n <= hi
    requires n < 0 ==> signed
    ensures n >= 0 ==> ParseInt(NatText(n), lo, hi, signed) == Some(n)
    ensures n < 0 ==> ParseInt("-" + NatText(-n), lo, hi, signed) == Some(n)
  {
    hide NatText, DigitsValue, AllDigits;
    if n >= 0 {
      DigitsValueOfText(n);
    } else {
      DigitsValueOfText(-n);
      assert ("-" + NatText(-n))[1..] == NatText(-n);
    }
  }

  /** A leading `+` is accepted and changes nothing. */
  lemma ParsePlus(n: nat, lo: int, hi: int, signed: bool)
    requires lo <= n <= hi
    ensures ParseInt("+" + NatText(n), lo, hi, signed) == Some(n)
  {
    DigitsValueOfText(n);
    assert ("+" + NatText(n))[1..] == NatText(n);
  }

  /** `s.split(sep)`: the pieces between separators, always at least one. */
  function Split(s: string, sep: char): (r: seq<string>)
    ensures |r| >= 1
    ensures forall i :: 0 <= i < |r| ==> sep !in r[i]
    decreases |s|
  {
    if |s| == 0 then [""]
    else
      var rest := Split(s[1..], sep);
      if s[0] == sep then [""] + rest else [[s[0]] + rest[0]] + rest[1..]
  }

  /** The pieces joined with the separator again. */
  function Join(parts: seq<string>, sep: char): (r: string)
    requires |parts| >= 1
    decreases |parts|
  {
    if |parts| == 1 then parts[0] else parts[0] + [sep] + Join(parts[1..], sep)
  }

  /** Splitting a joined string gives the pieces back. */
  lemma {:induction false} SplitJoin(a: string, b: string, sep: char)
    requires sep !in a
    ensures Split(a + [sep] + b, sep) == [a] + Split(b, sep)
    decreases |a|
  {
    if |a| == 0 {
      assert (a + [sep] + b)[1..] == b;
    } else {
      SplitJoin(a[1..], b, sep);
      assert (a + [sep] + b)[1..] == a[1..] + [sep] + b;
      assert [a[0]] + a[1..] == a;
    }
  }

  /** Splitting at a separator splits the two sides independently. */
  lemma {:induction false} SplitAppend(a: string, b: string, sep: char)
    ensures Split(a + [sep] + b, sep) == Split(a, sep) + Split(b, sep)
    decreases |a|
  {
    var x := a + [sep] + b;
    if |a| == 0 {
      assert x[1..] == b;
    } else {
      assert x[1..] == a[1..] + [sep] + b;
      SplitAppend(a[1..], b, sep);
      SplitConsStep(a[0], Split(a[1..], sep), Split(b, sep), sep);
    }
  }

  /** One step of `Split` distributes over appending further pieces. */
  lemma SplitConsStep(c: char, ra: seq<string>, rb: seq<string>, sep: char)
    requires |ra| >= 1
    ensures (if c == sep then [""] + (ra + rb) else [[c] + (ra + rb)[0]] + (ra + rb)[1..]) ==
            (if c == sep then [""] + ra else [[c] + ra[0]] + ra[1..]) + rb
  {
    assert (ra + rb)[0] == ra[0];
    assert (ra + rb)[1..] == ra[1..] + rb;
  }

  lemma {:induction false} SplitPiece(a: string, sep: char)
    requires sep !in a
    ensures Split(a, sep) == [a]
    decreases |a|
  {
    if |a| > 0 {
      SplitPiece(a[1..], sep);
      assert [a[0]] + a[1..] == a;
    }
  }

  /** Joining the pieces of a split gives the string back. */
  lemma {:induction false} JoinSplit(s: string, sep: char)
    ensures Join(Split(s, sep), sep) == s
    decreases |s|
  {
    if |s| > 0 {
      JoinSplit(s[1..], sep);
      var rest := Split(s[1..], sep);
      if s[0] != sep {
        if |rest| == 1 {
          assert Join(rest, sep) == rest[0];
        } else {
          assert Join(rest, sep) == rest[0] + [sep] + Join(rest[1..], sep);
          assert Join([[s[0]] + rest[0]] + rest[1..], sep) == [s[0]] + rest[0] + [sep] + Join(rest[1..], sep);
        }
      }
    }
  }

  /** After a common prefix, a text separated at its first `sep`
      determines both halves. */
  lemma Unjoin(p: string, a1: string, b1: string, a2: string, b2: string, sep: char)
    requires sep !in a1 && sep !in a2
    requires p + a1 + [sep] + b1 == p + a2 + [sep] + b2
    ensures a1 == a2 && b1 == b2
  {
    assert (p + a1 + [sep] + b1)[|p|..] == a1 + [sep] + b1;
    assert (p + a2 + [sep] + b2)[|p|..] == a2 + [sep] + b2;
    SeparatedUnique(a1, b1, a2, b2, sep);
  }

  /** A text separated at its first `sep` determines both halves. */
  lemma {:induction false} SeparatedUnique(a1: string, b1: string, a2: string, b2: string, sep: char)
    requires sep !in a1 && sep !in a2
    requires a1 + [sep] + b1 == a2 + [sep] + b2
    ensures a1 == a2 && b1 == b2
  {
    SplitJoin(a1, b1, sep);
    SplitJoin(a2, b2, sep);
    var s := a1 + [sep] + b1;
    assert a1 == Split(s, sep)[0] == a2;
    assert s[|a1| + 1..] == b1;
    assert (a2 + [sep] + b2)[|a2| + 1..] == b2;
  }
}

/** The shared JSON field types of the weather service
    (app/app-core/src/node/service/weather/common.rs). */
module WeatherCommon {
  import opened Wrappers
  import opened Ints
  import opened Parse

  /** `WeatherError`: the API's error code, a missing field, a failed HTTP
      request, or a response that does not deserialize. */
  datatype WeatherError = ApiError(code: u16) | MissingFieldError(msg: string) | HttpError(reason: string) | SerdeError(msg: string)

  /** `ErrorCode::detect_error`: codes 200 and 206 are success. */
  function DetectError(code: u16): (r: Result<(), WeatherError>)
    ensures r.Ok? <==> code == 200 || code == 206
    ensures r.Err? ==> r.error == ApiError(code)
  {
    if code == 200 || code == 206 then Ok(()) else Err(ApiError(code))
  }

  /** `Number<u8>`: the string field parsed as a `u8`. */
  function ParseU8(s: string): (r: Option<u8>)
    ensures r.Some? ==> ParseInt(s, 0, 0xFF, false) == Some(r.value as int)
    ensures r.None? ==> ParseInt(s, 0, 0xFF, false).None?
  {
    match ParseInt(s, 0, 0xFF, false)
    case Some(v) => Some(v as u8)
    case None => None
  }

  datatype RgbColor = RgbColor(r: u8, g: u8, b: u8)

  datatype RgbError = NoRed | NoGreen | NoBlue | BadComponent

  /** The components in turn: each must exist and parse before the next is
      looked at; pieces after the third are never read. */
  function ParseParts(parts: seq<string>): (r: Result<RgbColor, RgbError>)
    ensures |parts| == 0 ==> r == Err(NoRed)
    ensures r.Ok? ==> |parts| >= 3 && ParseU8(parts[0]) == Some(r.value.r) &&
                      ParseU8(parts[1]) == Some(r.value.g) && ParseU8(parts[2]) == Some(r.value.b)
    ensures |parts| >= 3 && ParseU8(parts[0]).Some? && ParseU8(parts[1]).Some? && ParseU8(parts[2]).Some? ==> r.Ok?
  {
    if |parts| == 0 then Err(NoRed)
    else
      match ParseU8(parts[0])
      case None => Err(BadComponent)
      case Some(r) =>
        if |parts| == 1 then Err(NoGreen)
        else
          match ParseU8(parts[1])
          case None => Err(BadComponent)
          case Some(g) =>
            if |parts| == 2 then Err(NoBlue)
            else
              match ParseU8(parts[2])
              case None => Err(BadComponent)
              case Some(b) => Ok(RgbColor(r, g, b))
  }

  /** `RgbColor`'s deserializer: "r,g,b" split on commas. */
  function ParseRgb(s: string): (r: Result<RgbColor, RgbError>)
    ensures r.Ok? ==> |Split(s, ',')| >= 3
  {
    ParseParts(Split(s, ','))
  }

  /** The text of a colour parses back to it. */
  lemma RgbRoundTrip(c: RgbColor)
    ensures ParseRgb(Text.NatText(c.r) + "," + Text.NatText(c.g) + "," + Text.NatText(c.b)) == Ok(c)
  {
    var tr, tg, tb := Text.NatText(c.r), Text.NatText(c.g), Text.NatText(c.b);
    assert ',' !in tr && ',' !in tg && ',' !in tb;
    assert tr + "," + tg + "," + tb == tr + [','] + (tg + [','] + tb);
    SplitJoin(tr, tg + [','] + tb, ',');
    SplitJoin(tg, tb, ',');
    SplitPiece(tb, ',');
    ParseText(c.r, 0, 0xFF, false);
    ParseText(c.g, 0, 0xFF, false);
    ParseText(c.b, 0, 0xFF, false);
  }

  /** Anything after a third comma is ignored. */
  lemma ExtraIgnored(s: string, rest: string)
    requires |Split(s, ',')| == 3
    ensures ParseRgb(s + "," + rest) == ParseRgb(s)
  {
    var p := Split(s, ',');
    SplitAppend(s, rest, ',');
    var q := p + Split(rest, ',');
    assert q[0] == p[0] && q[1] == p[1] && q[2] == p[2];
  }

  /** `Into<(u8, u8, u8)>`: red, green, blue. */
  function ToTuple(c: RgbColor): (r: (u8, u8, u8))
    ensures RgbColor(r.0, r.1, r.2) == c
  {
    (c.r, c.g, c.b)
  }
}

/** The weather and air-quality responses and their validation
    (app/app-core/src/node/service/weather/weather.rs). Numbers arrive already
    parsed; dates and times are opaque values (their parsing is the `time`
    crate's). */
module WeatherApi {
  import opened Wrappers
  import opened Ints
  import opened Text
  import opened Parse
  import opened WeatherCommon

  type i8 = x: int | -0x80 <= x < 0x80

  datatype DateTime = DateTime(stamp: int)
  datatype Date = Date(day: int)

  datatype NowData = NowData(temp: i8, icon: u16, text: string, humidity: u8)
  datatype NowOutput = NowOutput(code: u16, updateTime: Option<DateTime>, now: Option<NowData>)
  datatype NowWeather = NowWeather(updatedTime: DateTime, temp: i8, icon: u16, text: string, humidity: u8)

  /** The now-weather validator: the code, then `updateTime`, then `now`. */
  function TryNow(o: NowOutput): (r: Result<NowWeather, WeatherError>)
    ensures DetectError(o.code).Err? ==> r == Err(ApiError(o.code))
    ensures DetectError(o.code).Ok? && o.updateTime.None? ==> r == Err(MissingFieldError("missing field `updateTime`"))
    ensures DetectError(o.code).Ok? && o.updateTime.Some? && o.now.None? ==> r == Err(MissingFieldError("missing field `now`"))
    ensures r.Ok? <==> DetectError(o.code).Ok? && o.updateTime.Some? && o.now.Some?
    ensures r.Ok? ==> r.value.updatedTime == o.updateTime.value &&
                      var n := o.now.value;
                      r.value.temp == n.temp && r.value.icon == n.icon && r.value.text == n.text && r.value.humidity == n.humidity
  {
    var _ :- DetectError(o.code);
    var t :- o.updateTime.OkOr(MissingFieldError("missing field `updateTime`"));
    var n :- o.now.OkOr(MissingFieldError("missing field `now`"));
    Ok(NowWeather(t, n.temp, n.icon, n.text, n.humidity))
  }

  datatype ForecastData = ForecastData(fxDate: Date, tempMax: i8, tempMin: i8, iconDay: u16, iconNight: u16,
                                       textDay: string, textNight: string, humidity: u8)
  datatype ForecastDay = ForecastDay(date: Date, minTemp: i8, maxTemp: i8, iconDay: u16, textDay: string,
                                     iconNight: u16, textNight: string, humidity: u8)

  /** `From<WeatherForecastData>`: `tempMin` is the minimum, `tempMax` the maximum. */
  function FromForecastData(d: ForecastData): (r: ForecastDay)
    ensures r.minTemp == d.tempMin && r.maxTemp == d.tempMax
    ensures r.date == d.fxDate && r.humidity == d.humidity
  {
    ForecastDay(d.fxDate, d.tempMin, d.tempMax, d.iconDay, d.textDay, d.iconNight, d.textNight, d.humidity)
  }

  /** The conversion loses nothing: every field of the response is kept. */
  lemma ForecastDataKept(a: ForecastData, b: ForecastData)
    requires FromForecastData(a) == FromForecastData(b)
    ensures a == b
  {
  }

  function MapDays(daily: seq<ForecastData>): (r: seq<ForecastDay>)
    ensures |r| == |daily| && forall i :: 0 <= i < |daily| ==> r[i] == FromForecastData(daily[i])
  {
    seq(|daily|, i requires 0 <= i < |daily| => FromForecastData(daily[i]))
  }

  datatype ForecastOutput = ForecastOutput(code: u16, updateTime: Option<DateTime>, daily: Option<seq<ForecastData>>)
  datatype ForecastWeather = ForecastWeather(updatedTime: DateTime, daily: seq<ForecastDay>)

  /** The forecast validator: the code, then `updateTime`, then `daily`;
      the days are converted one by one, in order. */
  function TryForecast(o: ForecastOutput): (r: Result<ForecastWeather, WeatherError>)
    ensures DetectError(o.code).Err? ==> r == Err(ApiError(o.code))
    ensures DetectError(o.code).Ok? && o.updateTime.None? ==> r == Err(MissingFieldError("missing field `updateTime`"))
    ensures DetectError(o.code).Ok? && o.updateTime.Some? && o.daily.None? ==> r == Err(MissingFieldError("missing field `daily`"))
    ensures r.Ok? <==> DetectError(o.code).Ok? && o.updateTime.Some? && o.daily.Some?
    ensures r.Ok? ==> r.value.updatedTime == o.updateTime.value && |r.value.daily| == |o.daily.value| &&
                      forall i :: 0 <= i < |r.value.daily| ==> r.value.daily[i] == FromForecastData(o.daily.value[i])
  {
    var _ :- DetectError(o.code);
    var t :- o.updateTime.OkOr(MissingFieldError("missing field `updateTime`"));
    var d :- o.daily.OkOr(MissingFieldError("missing field `daily`"));
    Ok(ForecastWeather(t, MapDays(d)))
  }

  datatype AirQuality = AirQuality(defaultLocalAqi: bool, value: u16, category: string, color: RgbColor)
  datatype AirOutput = AirOutput(code: u16, updateTime: Option<DateTime>, aqi: Option<seq<AirQuality>>)
  datatype NowAirQuality = NowAirQuality(updatedTime: DateTime, value: u16, category: string, color: (u8, u8, u8))

  /** `filter(default_local_aqi).next()`: the first entry marked as the local index. */
  function FirstLocal(aqi: seq<AirQuality>): (r: Option<nat>)
    ensures r.None? <==> forall i :: 0 <= i < |aqi| ==> !aqi[i].defaultLocalAqi
    ensures r.Some? ==> r.value < |aqi| && aqi[r.value].defaultLocalAqi &&
                        forall i :: 0 <= i < r.value ==> !aqi[i].defaultLocalAqi
    decreases |aqi|
  {
    if |aqi| == 0 then None
    else if aqi[0].defaultLocalAqi then Some(0)
    else match FirstLocal(aqi[1..]) case Some(i) => Some(i + 1) case None => None
  }

  /** The air-quality validator: the code, `updateTime`, `aqi`, then a local entry. */
  function TryAir(o: AirOutput): (r: Result<NowAirQuality, WeatherError>)
    ensures DetectError(o.code).Err? ==> r == Err(ApiError(o.code))
    ensures DetectError(o.code).Ok? && o.updateTime.None? ==> r == Err(MissingFieldError("missing field `updateTime`"))
    ensures DetectError(o.code).Ok? && o.updateTime.Some? && o.aqi.None? ==> r == Err(MissingFieldError("missing field `aqi`"))
    ensures DetectError(o.code).Ok? && o.updateTime.Some? && o.aqi.Some? && FirstLocal(o.aqi.value).None? ==>
              r == Err(MissingFieldError("missing defaultLocalAqi: true"))
    ensures r.Ok? ==> o.aqi.Some? && FirstLocal(o.aqi.value).Some? &&
                      var aq := o.aqi.value[FirstLocal(o.aqi.value).value];
                      r.value.value == aq.value && r.value.category == aq.category &&
                      r.value.color == (aq.color.r, aq.color.g, aq.color.b)
  {
    var _ :- DetectError(o.code);
    var t :- o.updateTime.OkOr(MissingFieldError("missing field `updateTime`"));
    var aqi :- o.aqi.OkOr(MissingFieldError("missing field `aqi`"));
    var i :- FirstLocal(aqi).OkOr(MissingFieldError("missing defaultLocalAqi: true"));
    Ok(NowAirQuality(t, aqi[i].value, aqi[i].category, ToTuple(aqi[i].color)))
  }

  const NowBase := "https://devapi.qweather.com/v7/weather/now?gzip=n&lang=en&key="
  const ForecastBase := "https://devapi.qweather.com/v7/weather/3d?gzip=n&lang=en&key="
  const AirBase := "https://devapi.qweather.com/airquality/v1/now/"
  const LocationParam := "location="
  const AirQuery := "gzip=n&lang=en&key="

  /** The URLs of `request_now_weather` and `request_forecast_weather`: key
      and location in the query. */
  function QueryUrl(base: string, key: string, location: string): (r: string)
    ensures |r| > |base| && r[..|base|] == base
  {
    base + key + "&" + LocationParam + location
  }

  /** The URL of `request_now_air_quality`: the location in the path, the key in the query. */
  function AirUrl(location: string, key: string): (r: string)
    ensures |r| > |AirBase| && r[..|AirBase|] == AirBase
  {
    AirBase + location + "?" + AirQuery + key
  }

  /** A key without `&` is read back from the query URL, and so is the location. */
  lemma QueryUrlInjective(base: string, k1: string, l1: string, k2: string, l2: string)
    requires '&' !in k1 && '&' !in k2
    requires QueryUrl(base, k1, l1) == QueryUrl(base, k2, l2)
    ensures k1 == k2 && l1 == l2
  {
    assert QueryUrl(base, k1, l1) == base + k1 + ['&'] + (LocationParam + l1);
    assert QueryUrl(base, k2, l2) == base + k2 + ['&'] + (LocationParam + l2);
    Unjoin(base, k1, LocationParam + l1, k2, LocationParam + l2, '&');
    assert (LocationParam + l1)[|LocationParam|..] == l1;
    assert (LocationParam + l2)[|LocationParam|..] == l2;
  }

  /** A location without `?` is read back from the air-quality URL, and so is the key. */
  lemma AirUrlInjective(l1: string, k1: string, l2: string, k2: string)
    requires '?' !in l1 && '?' !in l2
    requires AirUrl(l1, k1) == AirUrl(l2, k2)
    ensures l1 == l2 && k1 == k2
  {
    assert AirUrl(l1, k1) == AirBase + l1 + ['?'] + (AirQuery + k1);
    assert AirUrl(l2, k2) == AirBase + l2 + ['?'] + (AirQuery + k2);
    Unjoin(AirBase, l1, AirQuery + k1, l2, AirQuery + k2, '?');
    assert (AirQuery + k1)[|AirQuery|..] == k1;
    assert (AirQuery + k2)[|AirQuery|..] == k2;
  }

  /** The HTTP callback: a failed request is an `HttpError`; a body that
      does not deserialize is a `SerdeError`. Deserialization is a parameter. */
  function Respond<B, T>(response: Result<B, string>, deserialize: B -> Result<T, string>): (r: Result<T, WeatherError>)
    ensures response.Err? ==> r == Err(HttpError(response.error))
    ensures response.Ok? && deserialize(response.value).Err? ==> r == Err(SerdeError(deserialize(response.value).error))
    ensures response.Ok? && deserialize(response.value).Ok? ==> r == Ok(deserialize(response.value).value)
  {
    match response
    case Err(e) => Err(HttpError(e))
    case Ok(b) =>
      match deserialize(b)
      case Err(e) => Err(SerdeError(e))
      case Ok(x) => Ok(x)
  }
}

/** The city lookup (app/app-core/src/node/service/weather/geo.rs). */
module GeoLookup {
  import opened Wrappers
  import opened Ints
  import opened Text
  import opened Parse
  import opened WeatherCommon

  datatype GeoInput = GeoInput(location: string, key: string, number: Option<u8>)

  const GeoBase := "https://geoapi.qweather.com/v2/city/lookup?gzip=n&lang=en&key="
  const LocationParam := "location="
  const NumberParam := "number="

  /** The query after the key: location and number of results. */
  function Tail(location: string, number: nat): string {
    location + "&" + NumberParam + NatText(number)
  }

  /** `to_url`: key, location and the number of results, 5 by default. */
  function ToUrl(input: GeoInput): (r: string)
    ensures |r| > |GeoBase| && r[..|GeoBase|] == GeoBase
  {
    GeoBase + input.key + "&" + LocationParam + Tail(input.location, input.number.GetOr(5))
  }

  lemma TailInjective(l1: string, n1: nat, l2: string, n2: nat)
    requires '&' !in l1 && '&' !in l2
    requires Tail(l1, n1) == Tail(l2, n2)
    ensures l1 == l2 && n1 == n2
  {
    assert Tail(l1, n1) == l1 + ['&'] + (NumberParam + NatText(n1));
    assert Tail(l2, n2) == l2 + ['&'] + (NumberParam + NatText(n2));
    SeparatedUnique(l1, NumberParam + NatText(n1), l2, NumberParam + NatText(n2), '&');
    assert (NumberParam + NatText(n1))[|NumberParam|..] == NatText(n1);
    assert (NumberParam + NatText(n2))[|NumberParam|..] == NatText(n2);
    NatTextInjective(n1, n2);
  }

  /** The URL names its input: with no `&` in key or location, different
      inputs give different URLs, and an absent number is the same as 5. */
  lemma ToUrlInjective(a: GeoInput, b: GeoInput)
    requires '&' !in a.key && '&' !in b.key && '&' !in a.location && '&' !in b.location
    requires ToUrl(a) == ToUrl(b)
    ensures a.key == b.key && a.location == b.location && a.number.GetOr(5) == b.number.GetOr(5)
  {
    var ta, tb := Tail(a.location, a.number.GetOr(5)), Tail(b.location, b.number.GetOr(5));
    assert ToUrl(a) == GeoBase + a.key + ['&'] + (LocationParam + ta);
    assert ToUrl(b) == GeoBase + b.key + ['&'] + (LocationParam + tb);
    Unjoin(GeoBase, a.key, LocationParam + ta, b.key, LocationParam + tb, '&');
    assert (LocationParam + ta)[|LocationParam|..] == ta;
    assert (LocationParam + tb)[|LocationParam|..] == tb;
    TailInjective(a.location, a.number.GetOr(5), b.location, b.number.GetOr(5));
  }

  datatype GeoItem = GeoItem(name: string, id: string, country: string)
  datatype CityItem = CityItem(name: string, id: string, country: string)
  datatype GeoOutput = GeoOutput(code: u16, location: seq<GeoItem>)

  /** `From<GeoCityLookupItem>`: name, id and country. */
  function FromGeoItem(g: GeoItem): (r: CityItem)
    ensures r.name == g.name && r.id == g.id && r.country == g.country
  {
    CityItem(g.name, g.id, g.country)
  }

  /** The lookup validator: the code first, then every item in order. */
  function TryCities(o: GeoOutput): (r: Result<seq<CityItem>, WeatherError>)
    ensures r.Err? <==> DetectError(o.code).Err?
    ensures r.Err? ==> r.error == ApiError(o.code)
    ensures r.Ok? ==> |r.value| == |o.location| &&
                      forall i :: 0 <= i < |o.location| ==> r.value[i] == FromGeoItem(o.location[i])
  {
    var _ :- DetectError(o.code);
    Ok(seq(|o.location|, i requires 0 <= i < |o.location| => FromGeoItem(o.location[i])))
  }

  /** Nothing of an item is lost: the cities determine the items. */
  lemma CitiesKeepItems(a: GeoOutput, b: GeoOutput)
    requires TryCities(a).Ok? && TryCities(a) == TryCities(b)
    ensures a.location == b.location
  {
    assert |a.location| == |b.location|;
    forall i | 0 <= i < |a.location|
      ensures a.location[i] == b.location[i]
    {
      assert FromGeoItem(a.location[i]) == FromGeoItem(b.location[i]);
    }
  }
}

/** `OneDayWeather::get_air_level` (app/proto/src/message/weather.rs, and the
    same match in app/app-core/src/proto/message/weather.rs): the bands of the
    air quality index. */
module AirLevel {
  import opened Ints

  datatype AirLevel = Good | Moderate | UnhealthyForSensitiveGroups | Unhealthy | VeryUnhealthy | Hazardous

  /** The position of a level, from `Good` (0) to `Hazardous` (5). */
  function Rank(l: AirLevel): nat {
    match l
    case Good => 0
    case Moderate => 1
    case UnhealthyForSensitiveGroups => 2
    case Unhealthy => 3
    case VeryUnhealthy => 4
    case Hazardous => 5
  }

  const Bounds: seq<nat> := [50, 100, 150, 200, 300]

  /** How many of the band bounds the index is above. */
  function Above(aqi: nat, bounds: seq<nat>): nat {
    if |bounds| == 0 then 0 else (if aqi > bounds[0] then 1 else 0) + Above(aqi, bounds[1..])
  }

  function GetAirLevel(aqi: u16): (r: AirLevel)
    ensures aqi <= 50 ==> r == Good
    ensures 51 <= aqi <= 100 ==> r == Moderate
    ensures 101 <= aqi <= 150 ==> r == UnhealthyForSensitiveGroups
    ensures 151 <= aqi <= 200 ==> r == Unhealthy
    ensures 201 <= aqi <= 300 ==> r == VeryUnhealthy
    ensures aqi > 300 ==> r == Hazardous
  {
    if aqi <= 50 then Good
    else if aqi <= 100 then Moderate
    else if aqi <= 150 then UnhealthyForSensitiveGroups
    else if aqi <= 200 then Unhealthy
    else if aqi <= 300 then VeryUnhealthy
    else Hazardous
  }

  /** The level is the number of band bounds the index exceeds. */
  lemma LevelCountsBounds(aqi: u16)
    ensures Rank(GetAirLevel(aqi)) == Above(aqi, Bounds)
  {
    assert [300][1..] == [];
    assert Above(aqi, [300]) == if aqi > 300 then 1 else 0;
    assert [200, 300][1..] == [300];
    assert Above(aqi, [200, 300]) == (if aqi > 200 then 1 else 0) + Above(aqi, [300]);
    assert [150, 200, 300][1..] == [200, 300];
    assert Above(aqi, [150, 200, 300]) == (if aqi > 150 then 1 else 0) + Above(aqi, [200, 300]);
    assert [100, 150, 200, 300][1..] == [150, 200, 300];
    assert Above(aqi, [100, 150, 200, 300]) == (if aqi > 100 then 1 else 0) + Above(aqi, [150, 200, 300]);
    assert Bounds[1..] == [100, 150, 200, 300];
  }

  /** A higher index never gives a better level. */
  lemma Monotone(a: u16, b: u16)
    requires a <= b
    ensures Rank(GetAirLevel(a)) <= Rank(GetAirLevel(b))
  {
  }
}

=== FILE: wrappers.dfy ===
/** Failure-compatible wrappers shared by every module of the model.
    `Option` stands for Rust's `Option` and for "the call panicked";
    `Result` carries an error value of the caller's choosing. */
module Wrappers {

  datatype Option<+T> = None | Some(value: T) {
    predicate IsFailure() {
      None?
    }

    function PropagateFailure<U>(): Option<U>
      requires None?
    {
      None
    }

    function Extract(): T
      requires Some?
    {
      value
    }

    function GetOr(default: T): T {
      match this
      case Some(v) => v
      case None => default
    }

    /** Rust's `ok_or`: the value, or the given error when there is none. */
    function OkOr<E>(e: E): Result<T, E> {
      match this
      case Some(v) => Ok(v)
      case None => Err(e)
    }
  }

  datatype Result<+R, +E> = Ok(value: R) | Err(error: E) {
    predicate IsFailure() {
      Err?
    }

    function PropagateFailure<U>(): Result<U, E>
      requires Err?
    {
      Err(error)
    }

    function Extract(): R
      requires Ok?
    {
      value
    }
  }
}
